=== FILE: README.md ===
# torinosu front-end logic in Dafny

This project models the browser scripts of the torinosu site as pure Dafny
functions and proves what they promise. The scripts covered are:

- the world pages' tab strip, character buttons, character dialog and deep links
  (js/tabs.js and js/anday.js);
- the character index (js/charalist.js). It loads the character JSON files,
  splits facet tags, filters cards, builds deep links into the world pages and
  lazy-loads images with retries;
- the story shelf and the blog index (js/shelf.js and js/blog-list.js). Both
  sort newest first, show a tag tab row, filter by `?tag=` and show an empty state;
- the site-wide helpers (js/main.js): the `SITE_BASE` detection, `joinBase`,
  the `data-href`/`data-src`/`data-srcset` rewriting, and active-navigation highlighting.

A DOM element is modelled as the record of the values a script writes into it.
JavaScript `null`/`undefined` is `Option.None`, and `||`, `??` and `String(x)`
are explicit functions (`JsValues`). `encodeURIComponent` and
`decodeURIComponent` are written out concretely (UTF-8 bytes and `%XX`
escapes), so the hash parser's failure case, where `decodeURIComponent`
throws, is a real `None`. URL resolution (`new URL(path, base)`) is the one
thing that stays a parameter, the `Resolver`.

The modules are:

- `JsValues`, `Strings` and `Seqs`: shared vocabulary.
- `UriComponent`: encoding, decoding and their round trip.
- Tab strip and dialog: `Tabs`, `CharButtons`, `HtmlEscape`, `FocusTrap`.
- Fragment handling: `HashRouter` parses fragments; `DeepLink` ties the
  character index's links to the world pages' parser.
- `BasePath`: the `withBase` of js/anday.js.
- Character index: `CharaList` and `LazyImage`.
- List pages: `ListPages` holds what js/shelf.js and js/blog-list.js share;
  `Shelf` and `BlogList` hold what differs.
- `SiteBase`: js/main.js.

js/tabs.js and js/anday.js contain the same `selectTab`, keyboard handler,
focus trap, `parseHashMulti`, `tryOpenByChar` and `openFromInitialHash`. Each
is modelled once; the table cites the js/tabs.js lines, and the matching
js/anday.js lines are 25-61, 301-309 and 316-367.

Behaviours of the code as written that the proofs make visible:

- **Post-render deep link.** The deep-link match that runs after a world page
  renders its characters reads `location.hash`. On a page with a
  `[data-tabs]` element, `selectTab` has already replaced the fragment with
  `#tab=chars` or `#tab=world` by then, so that match never finds a `char=`
  parameter (`DeepLink.TabFragmentHasNoChar`). A link from the character index
  therefore opens its card there only through `openFromInitialHash`, which
  reads the fragment saved at load time (`DeepLink.CardLinkOpens`). On a page
  without `[data-tabs]`, `initTabs` returns at once (js/tabs.js:7-8,
  js/anday.js:19-20), the fragment is left alone, and the post-render match
  does open the card.
- **Anday buttons.** The anday renderer (js/anday.js:97) calls
  `resolveFromDoc`, which neither js/anday.js nor any other modelled file
  defines; where no other script supplies it, every section of the page falls
  into the error branch (js/anday.js:136-139). When it is defined, the
  `innerHTML` written at js/anday.js:100-105 replaces the labels and image that
  `createCharButton` built, keeping its `data-id` and `data-name`;
  `CharButtons.CreateAnday` models the button `createCharButton` returns.
- **Tag named like the All tab.** On the shelf and blog pages, a `?tag=` equal
  to the All tab's caption (`全作品` or `全記事`) restored by back/forward marks
  the All tab as selected while the list is filtered by that tag.
  `ListPages.RemarkAgrees` needs `tag != allLabel` for this reason.
- **ArrowLeft with no tab selected.** When no tab is `aria-selected`,
  `findIndex` gives `-1`, and ArrowLeft computes `(-1 - 1 + n) % n`, which
  selects the second-to-last tab rather than the last (js/tabs.js:39,42;
  `Tabs.NextIndex`). ArrowRight from the same state selects the first tab.
- **Empty first tag.** In `splitFacets`, a world candidate sets the world to
  `tags[0]`. When `tags[0]` is `""` the world stays empty, so every later
  candidate also takes that branch and is dropped from the rest
  (js/charalist.js:44): `["", "A", "B"]` leaves only `[""]`
  (`CharaList.EmptyFirstTagRest`).
- **Blog path with leading slashes.** A blog post `path` has its leading
  slashes removed before `joinBase`, so it is always resolved against the site
  base (`BlogList.StrippedPathIsLocal`).
- **Site root.** `currentPage()` on the site root `/torinosu/` is `torinosu`,
  not `index.html`: a trailing slash only adds an empty segment, so a
  directory path `…/<name>/` names the page `<name>` in lower case
  (`SiteBase.CurrentPageOfDir`, with an empty directory and `torinosu`).

## Model

| member | source | states |
|---|---|---|
| Tabs.SelectTab | js/tabs.js:13-26 | exactly the tab whose id is the chosen one is `aria-selected` with tabIndex 0; a panel is hidden iff it is not labelled by that id; the fragment becomes `#tab=chars` iff the chars tab is chosen and `#tab=world` otherwise |
| Tabs.ExactlyOneSelected | js/tabs.js:13-22 | with distinct tab ids and exactly one panel labelled by the chosen id (other panels may share labels or lack one), exactly one tab ends selected and exactly one panel is shown |
| Tabs.InitialTabSpec | js/tabs.js:29-31 | the chars tab is chosen at start iff the fragment contains `tab=chars` somewhere, and then the rewritten fragment is `#tab=chars` |
| Tabs.JsRem | js/tabs.js:41-42 | JavaScript's `%` keeps the dividend's sign: the result lies strictly between -n and n and agrees with Euclidean remainder for non-negative dividends |
| Tabs.NextIndex | js/tabs.js:39-45 | keys other than the arrows, Home and End are ignored; on an empty tab list a navigation key throws; otherwise the next index is in range, Home gives 0 and End gives the last, ArrowRight gives the following tab wrapping to the first, and ArrowLeft gives the preceding tab wrapping to the last, or the second-to-last when none is selected |
| Tabs.ArrowsInverse | js/tabs.js:41-42 | ArrowLeft undoes ArrowRight and ArrowRight undoes ArrowLeft from every selected index |
| Tabs.FindSelected | js/tabs.js:39 | the index is that of the first selected tab, or -1 exactly when none is selected |
| Tabs.KeyDown | js/tabs.js:37-49 | an ignored key or an empty tab list changes nothing |
| Tabs.KeyDownMovesSelection | js/tabs.js:37-49 | with distinct tab ids a navigation key moves the selection to the tab NextIndex names, and exactly one tab is then selected |
| HtmlEscape.Entity | js/tabs.js:58-59 | each entity starts with `&`, ends with `;` and contains no further `&` or special character |
| HtmlEscape.Esc | js/tabs.js:58-59 | the four chained replacements equal one pass that replaces each of `& < > "` by its entity; a missing value escapes to the empty string, and the output never contains `<`, `>` or `"` |
| HtmlEscape.UnescapeEsc | js/tabs.js:58-59 | replacing the entities back in reverse order recovers the input exactly, so escaping loses nothing |
| CharButtons.CreateTabs | js/tabs.js:131-167 | data-id and data-name are the member's id and name or empty; alt and the single label equal the name; `--focus-y` is set iff focusY is truthy; the image path goes through the path helper only when one is given |
| CharButtons.CreateAnday | js/anday.js:144-179 | the two labels are name and English name; the image source is `withBase` of the member's image (js/anday.js:157), so it is empty iff the member has no image, and otherwise starts with the base path or a scheme |
| CharButtons.MatchRulesAgree | js/tabs.js:116-122 | on the buttons both versions build, the post-render match rule and `tryOpenByChar`'s rule agree on every non-empty key, and an anday button matches iff the key is the member's id or name |
| FocusTrap.TrapTab | js/tabs.js:335-338 | focus wraps from the last element to the first on Tab and from the first to the last on Shift+Tab, only then, and never with no focusable element |
| FocusTrap.ModalKey | js/tabs.js:328-340 | a hidden dialog ignores every key; Escape closes iff the dialog is open; Tab's focus move is TrapTab's |
| FocusTrap.TrapRoundTrip | js/tabs.js:335-338 | wrapping forward and back returns to the same element, and interior elements never wrap |
| UriComponent.Utf8Decodes | js/tabs.js:352 | the UTF-8 encoding of every scalar value decodes back to that value, with a lead byte announcing the right length |
| UriComponent.Encode | js/charalist.js:30 | the encoded text consists of unreserved characters and `%` only |
| UriComponent.Decode | js/tabs.js:352 | a successful decode is never longer than its input |
| UriComponent.DecodeFailsOnEscape | js/tabs.js:352 | decoding can only fail on text that contains a `%` |
| UriComponent.DecodeEncode | js/tabs.js:352 | decoding what was encoded gives back the original string |
| UriComponent.DecodePlain | js/tabs.js:352 | text without `%` decodes to itself |
| UriComponent.EncodeFreeOfDelimiters | js/charalist.js:30 | an encoded key contains none of the fragment delimiters `# & ? =` |
| HashRouter.FragmentOf | js/charalist.js:32 | the fragment is empty or the suffix starting at the first `#`, which must be followed by something |
| HashRouter.FragmentOfJoin | js/charalist.js:32 | a `#`-free path followed by a fragment yields that fragment |
| HashRouter.StripHash | js/tabs.js:347 | a single leading `#` is removed and nothing else changes |
| HashRouter.Segments | js/tabs.js:349 | splitting on `&` and `?` yields at least one part, none containing either separator |
| HashRouter.SegmentFields | js/tabs.js:351 | the key is the text before the first `=` and the value the text between the first and a second `=`, or empty |
| HashRouter.Entry | js/tabs.js:351-352 | a part yields its decoded key and value, or fails exactly when either does not decode |
| HashRouter.ParseHashMulti | js/tabs.js:346-355 | parsing fails iff some non-empty segment fails to decode, and otherwise every non-empty segment's key is in the map |
| HashRouter.CollectDefined | js/tabs.js:349-353 | parsing fails iff some non-empty part fails to decode |
| HashRouter.CollectHasKey | js/tabs.js:349-353 | every non-empty part's key is in the parsed map |
| HashRouter.CollectLastWins | js/tabs.js:349-353 | a key repeated in several parts keeps the value of the last part |
| HashRouter.CollectKeySource | js/tabs.js:349-353 | every key of the map comes, with its value, from some non-empty part |
| HashRouter.CharParam | js/tabs.js:116 | a found `char=` value is non-empty and contains no `&` |
| HashRouter.CharParamAtStart | js/tabs.js:116 | a fragment that starts with `char=v` followed by `&` or nothing yields `v` |
| HashRouter.FirstKeyMatch | js/tabs.js:119-121 | the result is the first card matching the key, or none when no card does |
| HashRouter.DeepLink | js/tabs.js:116-122 | no `char=` means no action; an undecodable value is the thrown error; a click lands on the first card matching the decoded key, and no card is clicked exactly when no card matches it |
| HashRouter.TryOpenByChar | js/tabs.js:363-372 | an empty key opens nothing; otherwise the first card whose id, name or English name equals the key is opened, and none only when none matches |
| HashRouter.OpenFromInitialHash | js/tabs.js:374-397 | a bad escape in the boot fragment throws; the chars tab is activated iff `tab=chars`; the card opened is TryOpenByChar's; the address is cleaned to `pathname#tab=chars` iff a card opened, and otherwise the page watches for the list |
| DeepLink.ParseCardLink | js/charalist.js:27-33 | the fragment of any character link parses to exactly `tab=chars` and `char=` the character's key |
| DeepLink.CardLinkCharParam | js/charalist.js:27-33 | the `char=` value found in a character link is the encoded key |
| DeepLink.TabFragmentHasNoChar | js/tabs.js:24-25 | no fragment that selectTab writes contains a `char=` parameter |
| DeepLink.TabFragmentParses | js/tabs.js:24-25 | the fragment selectTab writes parses to the one parameter `tab` |
| DeepLink.CardLinkOpens | js/tabs.js:374-386 | following a character link to a page whose cards are built from its members activates the chars tab and opens a card matching the character's id at or before that member's |
| BasePath.StripDotSteps | js/anday.js:14 | the result is a suffix with no leading `./` or `../`, and what was removed is a run of such steps |
| BasePath.WithBase | js/anday.js:9-15 | an empty path gives the empty string; a path starting with a scheme or the base is kept; any other path is the base plus the path without its leading dot steps; a non-empty result is always based |
| BasePath.WithBaseKeepsLeadingSlash | js/anday.js:12-14 | a root-relative path outside the base gets the base prefixed and so contains a double slash |
| BasePath.WithBaseIdempotent | js/anday.js:9-15 | applying `withBase` to its own result changes nothing |
| CharaList.SlugWorldToPage | js/charalist.js:23-25 | a known world maps to its page, and `index` is returned exactly for worlds not listed (prototype names such as `constructor` aside, see Left out) |
| CharaList.SlugInjective | js/charalist.js:14-21 | distinct known worlds map to distinct pages |
| CharaList.LinkWorld | js/charalist.js:28 | the world is the record's truthy world, else its first tag, else empty |
| CharaList.BuildHref | js/charalist.js:27-33 | a link is the page of its world (the item's `world`, else its first tag) as `/world/<page>.html`, then `#tab=chars&char=`, then a value that decodes back to the id, or the name when the id is missing |
| CharaList.FacetRunWorld | js/charalist.js:36-48 | the world facet is the first tag whenever some tag is a world candidate, and empty otherwise |
| CharaList.FacetRunRest | js/charalist.js:36-48 | the remaining tags are those that are neither facets nor a world candidate the world slot took: the first candidate when `tags[0]` is non-empty, every candidate when it is empty |
| CharaList.SplitFacets | js/charalist.js:36-48 | the world is the first tag when any tag qualifies and empty otherwise; the rest keeps tags in their order and contains no facet tag |
| CharaList.SplitFacetsSpec | js/charalist.js:36-48 | gender, hair, eye and height are the last matching tags, with the prefix removed; the rest is the tags that are neither facets nor a world candidate the world slot took (the first candidate when `tags[0]` is non-empty, every candidate when it is empty) |
| CharaList.EmptyFirstTagRest | js/charalist.js:39-44 | with an empty first tag the world stays empty and the rest is exactly the tags that are neither facets nor world candidates |
| CharaList.FacetKindsDisjoint | js/charalist.js:40-43 | a tag can be of at most one facet kind |
| CharaList.Normalise | js/charalist.js:131-139 | name falls back to title and image to `image` via `??`; the href is the truthy href or `./<id or name>.html`; tags and facets come from splitFacets |
| CharaList.NormaliseAll | js/charalist.js:131 | each record is normalised, in order |
| CharaList.GroupMembers | js/charalist.js:127 | the members of a group are copied in order with the group's title |
| CharaList.GroupOrder | js/charalist.js:125-129 | a grouped file lists each group's members in order, with the group title |
| CharaList.LoadLists | js/charalist.js:120-141 | loading succeeds iff every file loads |
| CharaList.LoadAll | js/charalist.js:119-143 | the whole load fails iff one file fails |
| CharaList.LoadAllOrder | js/charalist.js:142 | the flattened list keeps the files' order and each file's order |
| CharaList.CollectTags | js/charalist.js:112-116 | the collected tags are the records' tags in the order they are first seen, each once |
| CharaList.CollectTagsSpec | js/charalist.js:112-116 | a tag is collected iff some record carries it, and no tag is collected twice |
| CharaList.CardOf | js/charalist.js:154-160 | a card's facet data equal the record's facets |
| CharaList.CardTagsRoundTrip | js/charalist.js:99 | joining the tags with `,` and splitting again gives them back when none is empty or contains a comma |
| CharaList.SelectedTags | js/charalist.js:82 | every selected tag is the value of a pressed chip, every pressed chip's value is selected, and the values keep the chips' order; with none pressed there are none |
| CharaList.ClearFilter | js/charalist.js:202-206 | clearing keeps the chips and un-presses all of them |
| CharaList.ClearShowsAll | js/charalist.js:202-206 | after clearing, every card is visible |
| CharaList.Visible | js/charalist.js:99-107 | a visible card carries every selected tag as a non-empty comma-separated piece of its `data-tags`, and with every selector on "any" that is also enough |
| CharaList.FilterMonotone | js/charalist.js:99-107 | choosing fewer tags or blanking facets never hides a visible card |
| CharaList.OwnValuesShow | js/charalist.js:99-107 | a card stays visible when the facets are set to its own values and only its own tags are selected |
| LazyImage.MakeImg | js/charalist.js:227-241 | the address is parked in data-src with no tries; without an observer the image is hydrated at once and has a src iff the address is truthy |
| LazyImage.Hydrate | js/charalist.js:243-249 | hydrating sets the flag, changes nothing once the flag is set, and otherwise copies a non-empty data-src into src |
| LazyImage.HydrateOnce | js/charalist.js:243-249 | hydrating a second time changes nothing |
| LazyImage.RetryImg | js/charalist.js:251-261 | a retry is scheduled iff fewer than two tries were made, and then counts one more try and waits 300 ms per try |
| LazyImage.Reload | js/charalist.js:256-259 | as written, reloading a hydrated image leaves it with no src |
| LazyImage.ReloadFixed | js/charalist.js:256-259 | the intended reload puts a non-empty address back into src |
| LazyImage.OnError | js/charalist.js:233 | an error counts a try while fewer than two were made and otherwise changes nothing |
| LazyImage.ErrorsCapped | js/charalist.js:252-254 | however many errors arrive, the try count stops at two |
| LazyImage.RetryDelays | js/charalist.js:256-260 | a fresh image's retries wait 300 ms and 600 ms, and a third error schedules nothing |
| LazyImage.RetryLosesSource | js/charalist.js:243-261 | as written, one error on a hydrated image loses its src; with the intended reload it keeps it |
| LazyImage.ErrorsKeepSource | js/charalist.js:251-261 | with the intended reload, an image showing its address still shows it after any number of errors |
| ListPages.Newest | js/shelf.js:84 | the sorted list is a permutation of the input, ordered newest date string first |
| ListPages.NewestFirst | js/shelf.js:84 | no item's date string sorts after the first item's |
| ListPages.ApplyFilter | js/shelf.js:72-75 | the empty tag keeps every item; otherwise exactly the items carrying the tag remain, with their multiplicities and in their order |
| ListPages.TagUnion | js/shelf.js:87-88 | the tab tags have no duplicates |
| ListPages.TagUnionMembers | js/shelf.js:87-88 | a tag gets a tab iff some item carries it |
| ListPages.EmptyHidden | js/shelf.js:69 | the empty message is hidden iff something is shown |
| ListPages.EmptyStateIff | js/shelf.js:69-75 | the empty message shows iff there are no items at all or the tag is one no item carries |
| ListPages.RenderTabs | js/shelf.js:13-31 | the All tab comes first with the empty value, then one tab per tag in order; a tab is selected iff its value is the current tag |
| ListPages.OneTabSelected | js/shelf.js:19 | with distinct non-empty tags, exactly one tab is selected iff the current tag is empty or has a tab, and otherwise none is |
| ListPages.Remark | js/shelf.js:25 | after a tab click a tab is selected iff its caption is the clicked value or, for the empty value, the All caption |
| ListPages.RemarkAgrees | js/shelf.js:96-99 | re-marking by caption selects the same tabs as rendering afresh for that tag, provided no tag is empty or named like the All tab |
| ListPages.TagParam | js/shelf.js:22 | an empty value removes the `tag` parameter and reading it back gives the value |
| ListPages.Init | js/shelf.js:77-95 | the start view shows the items newest first, filtered by the `?tag=` value, under a tab row built from every tag with that value selected; without a tag parameter every item shows, with one exactly the items carrying the tag, and the empty message is hidden iff something shows |
| ListPages.Navigate | js/shelf.js:20-25 | a tab click re-marks the tabs by the clicked value and shows the sorted list filtered by it: all items for the empty tag, and otherwise exactly those carrying the tag, in their order and with their multiplicities |
| ListPages.NavigateLikeReload | js/shelf.js:20-25 | clicking a tab yields the same view as loading the page with that `?tag=` |
| Shelf.Load | js/shelf.js:77-95 | the shelf shows stories newest date first, every story without a tag and exactly the tagged stories with one, under the tab row of all tags with the `?tag=` value selected |
| Shelf.BookClass | js/shelf.js:39-41 | the class attribute is `book`, the world class if any and the size class, separated by spaces |
| Shelf.BookClassTokens | js/shelf.js:39-41 | splitting the class attribute on spaces gives back exactly those classes, `size-std` when no size is given |
| BlogList.Load | js/blog-list.js:76-92 | the index shows posts newest date first, every post without a tag and exactly the tagged posts with one, under the tab row of all tags with the `?tag=` value selected |
| BlogList.StripSlashes | js/blog-list.js:43 | what remains is a suffix not starting with `/`, and only slashes were removed |
| BlogList.LinkTarget | js/blog-list.js:43 | a truthy path is joined without its leading slashes; otherwise the link is `posts/<encoded slug>.html` resolved against the base |
| BlogList.PostFileRoundTrip | js/blog-list.js:43 | the slug part of the post file name has no `/` and decodes back to the slug's string |
| BlogList.StrippedPathIsLocal | js/blog-list.js:43 | a stripped path never looks protocol-relative, so joinBase always resolves it against the base |
| BlogList.CardTextOf | js/blog-list.js:44-57 | heading and aria-label are never empty and are equal iff the post has a title; untitled posts show `(無題)` and `記事`; the excerpt is desc, else excerpt, else empty |
| SiteBase.Norm | js/main.js:5 | the result starts and ends with `/`, contains the input after at most one added leading slash, and leaves `/x/` unchanged |
| SiteBase.NormIdempotent | js/main.js:5 | normalising twice is normalising once |
| SiteBase.SegmentsEmpty | js/main.js:9 | a path has no segments iff it consists of slashes only |
| SiteBase.SiteBaseOf | js/main.js:2-11 | the base always starts and ends with `/`; a truthy `data-base` is normalised; otherwise it is `/` iff the path has no segment, and else one segment between slashes |
| SiteBase.SiteBaseFromPath | js/main.js:9-10 | under `/<repo>/...` the base is `/<repo>/` |
| SiteBase.JoinBase | js/main.js:13-20 | an empty path gives the empty string; an absolute or protocol-relative URL is kept; anything else is resolved against the base |
| SiteBase.JoinBaseIdempotent | js/main.js:13-20 | when the resolver returns absolute URLs, joining twice equals joining once |
| SiteBase.CurrentPage | js/main.js:23-26 | the page is a non-empty name without `/`, `index.html` when the path has no segment |
| SiteBase.CurrentPageOf | js/main.js:23-26 | a path ending in a file name yields that name in lower case |
| SiteBase.CurrentPageOfDir | js/main.js:23-26 | a path ending in `/<name>/` also yields that name in lower case, because `filter(Boolean)` drops the empty piece after the trailing slash |
| SiteBase.NavActiveIff | js/main.js:51-57 | a link is marked active iff its last path piece equals the current page, ignoring case; a link ending in `/` never is |
| SiteBase.SrcsetEntries | js/main.js:37-46 | there is one rewritten entry per comma-separated piece |
| SiteBase.EntryRewrite | js/main.js:42-44 | an entry `path size` becomes the joined path, a space and the size |
| SiteBase.EntryRewriteBare | js/main.js:42-44 | an entry that is a path with no size becomes the joined path alone, with no trailing space |
| SiteBase.SplitCommaSpace | js/main.js:46 | a `, `-join of comma-free entries splits on commas back into the first entry followed by each other entry with its leading space, so into exactly as many pieces as there were entries |
| SiteBase.RewriteSrcset | js/main.js:37-48 | when the resolver's output has no comma, the rewritten srcset splits on commas back into the rewritten entries, one per comma piece of the original, each after the first preceded by the space of `, ` |

## Left out

- DOM construction, `innerHTML`, CSS classes and styles beyond the values listed above; elements are records of the values written into them.
- `fetch`, `res.ok` and JSON parsing: a file is `Some(json)` or `None`. The shelf's and the blog's fetch-failure messages are not modelled.
- `history.pushState`/`replaceState`, the `popstate` event and `location`: the fragment or query that results is returned, and the pathname is a parameter.
- The MutationObserver, its five-second timeout, the IntersectionObserver and `setTimeout`: `OpenFromInitialHash` reports that it would watch, and a retry returns its delay.
- `refreshLazy` and the observer callback only call `observe` or `hydrateImg`, which is modelled.
- js/charalist.js line 170 assigns `img.src` directly after `makeImg`, which bypasses the lazy loading. The DOM order of those two writes is not modelled.
- `openModal`, the dialog body, `scrollIntoView` and the scroll-to-top button of js/main.js: these are DOM effects with no logic beyond what is modelled.
- `loadFragment` (js/main.js:65-80) and its caller are not modelled. Read as written, the caller passes the slot element itself as `targetSel` (js/main.js:87-88). `document.querySelector` turns it into the string `[object HTML…Element]`, which is not a valid selector, so the call should throw. `Promise.all(jobs)` would then reject, and `highlightActiveNav` would not run on a page that has a header or footer slot. `SiteBase.NavActive` models only the match rule that `highlightActiveNav` applies once it runs.
- `new URL(path, base)` is the `Resolver` parameter. `CSS.escape` in `tryOpenByChar`'s selector is taken as exact matching.
- `localeCompare`: `ListPages.Newest` uses code-point order on the date strings. The Japanese-collation sort of the tag list is not modelled, so `ListPages.TagUnion` keeps first-seen order.
- `ListPages.Newest`: `Array.prototype.sort`'s stability is not stated; the contract gives a permutation in descending order only.
- `renderFacetOptions` and the `renderTagChips` DOM (sorted option lists): only the selected values reach the filter, and that is modelled.
- The date formatting of js/shelf.js (`yy-mm-dd`) and of js/blog-list.js (`Intl.DateTimeFormat`), and the shelf title's `textContent` of `null`: presentation only.
- The shelf book's `href` is `joinBase(s.path)`, which is `SiteBase.JoinBase` itself.
- `toLowerCase` is modelled for ASCII letters only, and string lengths count Unicode scalar values, not UTF-16 code units.
- JavaScript `null` and `undefined` are both `None`; `String(None)` is `"undefined"`. Prototype keys are not modelled: neither `__proto__` in the parsed fragment map nor the names `WORLD_TO_PAGE[worldName]` finds on `Object.prototype` (js/charalist.js:23-24), where a world named `constructor` gives the page `function Object() { [native code] }` and `__proto__` gives `[object Object]` instead of `index`.
- CharaList.SlugWorldToPage: returns `index` for every world not in the table, including `constructor`, `__proto__` and the other names `Object.prototype` defines, which the source maps to the string of the inherited property; `WorldToPage` is a Dafny map and has no prototype.
- `splitFacets`' unusual default parameter `tags = [] = {}` only matters when no argument is passed, which never happens.
- `data-tries` is stored as a string in the source and as a `nat` here.
- `BasePath.WithBase`: the regular-expression check `^(https?:|/torinosu/)` is modelled as two prefix tests.

## Findings

| source | as written | input that shows it | evidently intended | confidence | as-written member | corrected member |
|---|---|---|---|---|---|---|
| js/charalist.js:243-261 | after a failed load, the retry removes `src` and calls `hydrateImg`, which returns at once because `data-hydrated` is still `1` | a hydrated image with a non-empty `data-src`, no tries yet, and one `error` event | the retry restores `src` from `data-src` so that the image is requested again | not executed | LazyImage.RetryLosesSource | LazyImage.ErrorsKeepSource |

=== FILE: base_path.dfy ===
/**
 `withBase` of js/anday.js: image paths in the character data are written
 relative to the data files (`../img/a.png`, `./img/a.png`) and are rewritten
 to absolute paths under the deployment root `/torinosu/`.
 */
module BasePath {

  import opened JsValues
  import opened Strings

  /** `BASE_PATH` */
  const Base: string := "/torinosu/"

  /** A run of `./` and `../` steps, as `^(\.\/|\.\.\/)+` repeats them. */
  predicate IsDotRun(s: string)
    decreases |s|
  {
    |s| == 0
    || (StartsWith(s, "./") && IsDotRun(s[2..]))
    || (StartsWith(s, "../") && IsDotRun(s[3..]))
  }

  /** Starts with a `./` or `../` step. */
  predicate StartsWithDotStep(s: string)
  {
    StartsWith(s, "./") || StartsWith(s, "../")
  }

  /**
   `p.replace(/^(\.\/|\.\.\/)+/, '')`: the two steps can never both match at
   one position, so the greedy repetition removes the longest leading run.
   */
  function StripDotSteps(p: string): (r: string)
    ensures !StartsWithDotStep(r)
    ensures |r| <= |p| && r == p[|p| - |r|..] && IsDotRun(p[..|p| - |r|])
    decreases |p|
  {
    if StartsWith(p, "./") then
      var r := StripDotSteps(p[2..]);
      DotRunStep(p, 2, |p| - |r|);
      r
    else if StartsWith(p, "../") then
      var r := StripDotSteps(p[3..]);
      DotRunStep(p, 3, |p| - |r|);
      r
    else
      assert IsDotRun(p[..0]);
      p
  }

  lemma DotRunStep(p: string, d: nat, k: nat)
    requires (d == 2 && StartsWith(p, "./")) || (d == 3 && StartsWith(p, "../"))
    requires d <= k <= |p| && IsDotRun(p[d..][..k - d])
    ensures IsDotRun(p[..k])
  {
    assert p[..k][d..] == p[d..][..k - d];
    assert p[..k][..d] == p[..d];
  }

  /** Paths `withBase` hands back untouched: absolute URLs and paths already under the root. */
  predicate AlreadyBased(p: string)
  {
    StartsWith(p, "http:") || StartsWith(p, "https:") || StartsWith(p, Base)
  }

  /** `withBase(path)`; a missing path is `None`. */
  function WithBase(path: Option<string>): (r: string)
    ensures r == "" <==> !Truthy(path)
    ensures Truthy(path) && AlreadyBased(path.value) ==> r == path.value
    ensures Truthy(path) && !AlreadyBased(path.value) ==>
      && StartsWith(r, Base)
      && var rest := r[|Base|..];
      && |rest| <= |path.value|
      && rest == path.value[|path.value| - |rest|..]
      && IsDotRun(path.value[..|path.value| - |rest|])
      && !StartsWithDotStep(rest)
    ensures Truthy(path) ==> AlreadyBased(r)
  {
    if !Truthy(path) then ""
    else if AlreadyBased(path.value) then path.value
    else
      var rest := StripDotSteps(path.value);
      var r := Base + rest;
      assert r[..|Base|] == Base;
      assert r[|Base|..] == rest;
      r
  }

  /** Applying `withBase` to its own result changes nothing. */
  lemma WithBaseIdempotent(path: Option<string>)
    ensures WithBase(Some(WithBase(path))) == WithBase(path)
  {
  }

  /** A path starting with `/` has no scheme and no dot step. */
  lemma SlashFirst(p: string)
    requires |p| > 0 && p[0] == '/'
    ensures !StartsWith(p, "http:") && !StartsWith(p, "https:")
    ensures !StartsWithDotStep(p)
  {
    assert |p| < 2 || p[..2][0] == '/';
    assert |p| < 3 || p[..3][0] == '/';
    assert |p| < 5 || p[..5][0] == '/';
    assert |p| < 6 || p[..6][0] == '/';
  }

  /** Without a leading dot step there is nothing to strip. */
  lemma StripNothing(p: string)
    requires !StartsWithDotStep(p)
    ensures StripDotSteps(p) == p
  {
  }

  /** A leading `/` is not a dot step, so it survives and the result has a doubled slash. */
  lemma WithBaseKeepsLeadingSlash(p: string)
    requires StartsWith(p, "/") && !StartsWith(p, Base)
    ensures WithBase(Some(p)) == Base + p
    ensures StartsWith(WithBase(Some(p)), "/torinosu//")
  {
    assert p[..1][0] == p[0];
    SlashFirst(p);
    StripNothing(p);
    var r := Base + p;
    assert r[..11] == Base + [p[0]];
  }
}

=== FILE: blog_list.dfy ===
/**
 The blog index (js/blog-list.js): the list, tabs and empty state come from
 the shared list-page logic with "全記事" as the all-items text; what is
 particular to the blog is where a card links to and the texts a card falls
 back on.
 */
module BlogList {

  import opened JsValues
  import opened Strings
  import UriComponent
  import SiteBase
  import ListPages
  import Seqs

  /** A record of `posts.json`. */
  datatype Post = Post(
    path: Option<string>,
    slug: Option<string>,
    title: Option<string>,
    date: Option<string>,
    desc: Option<string>,
    excerpt: Option<string>,
    tags: Option<seq<string>>)

  /** The text of the all-items tab. */
  const AllPosts: string := "全記事"

  /** `p.tags || []` */
  function TagsOf(p: Post): seq<string>
  {
    Coalesce(p.tags, [])
  }

  /** `p.date`, the key the list is sorted on. */
  function DateOf(p: Post): Option<string>
  {
    p.date
  }

  /**
   The index as `init()` leaves it for the `?tag=` parameter: newest first,
   only the items carrying the tag, and a tab row for every tag.
   */
  function Load(posts: seq<Post>, tagParam: Option<string>): (v: ListPages.View<Post>)
    ensures v.emptyHidden <==> v.shown != []
    ensures v.tabs == ListPages.RenderTabs(AllPosts, ListPages.TagUnion(ListPages.Newest(posts, DateOf), TagsOf), Or(tagParam, ""))
    ensures forall i, j :: 0 <= i < j < |v.shown| ==> Seqs.LexLe(StringOf(DateOf(v.shown[j])), StringOf(DateOf(v.shown[i])))
    ensures !Truthy(tagParam) ==> multiset(v.shown) == multiset(posts)
    ensures Truthy(tagParam) ==> forall p ::
      multiset(v.shown)[p] == if tagParam.value in TagsOf(p) then multiset(posts)[p] else 0
    ensures Truthy(tagParam) ==> forall p :: p in v.shown <==> p in posts && tagParam.value in TagsOf(p)
  {
    var v := ListPages.Init(AllPosts, posts, DateOf, TagsOf, tagParam);
    if Truthy(tagParam) then
      ListPages.TaggedMembers(v.shown, posts, tagParam.value, TagsOf);
      v
    else v
  }

  /** `s.replace(/^\/+/, '')`: the path without its leading slashes. */
  function StripSlashes(s: string): (r: string)
    ensures |r| <= |s| && r == s[|s| - |r|..]
    ensures |r| == 0 || r[0] != '/'
    ensures forall i :: 0 <= i < |s| - |r| ==> s[i] == '/'
    decreases |s|
  {
    if |s| > 0 && s[0] == '/' then StripSlashes(s[1..]) else s
  }

  /** The page of a post without a path: `posts/<encoded slug>.html`. */
  function PostFile(slug: Option<string>): string
  {
    "posts/" + UriComponent.Encode(StringOf(slug)) + ".html"
  }

  /**
   The link of a card: the post's path without its leading slashes when it
   has one, else its page under `posts/`, either joined with the site base.
   */
  function LinkTarget(resolve: SiteBase.Resolver, baseUrl: string, p: Post): (r: string)
    ensures Truthy(p.path) ==> r == SiteBase.JoinBase(resolve, baseUrl, Some(StripSlashes(p.path.value)))
    ensures !Truthy(p.path) ==> r == resolve(PostFile(p.slug), baseUrl)
  {
    if Truthy(p.path) then SiteBase.JoinBase(resolve, baseUrl, Some(StripSlashes(p.path.value)))
    else
      PostFileRelative(p.slug);
      SiteBase.JoinBase(resolve, baseUrl, Some(PostFile(p.slug)))
  }

  /** A post's page is a relative path, so `joinBase` resolves it against the base. */
  lemma PostFileRelative(slug: Option<string>)
    ensures PostFile(slug) != "" && !SiteBase.IsAbsoluteUrl(PostFile(slug))
  {
    var e := UriComponent.Encode(StringOf(slug));
    assert PostFile(slug) == "posts/" + e + ".html";
    assert ("posts/" + e + ".html")[0] == 'p';
    SiteBase.LetterFirstIsRelative(PostFile(slug));
  }

  /**
   The page of a post without a path stays inside `posts/`, and its name
   decodes back to the slug.
   */
  lemma PostFileRoundTrip(slug: Option<string>)
    ensures exists e :: (PostFile(slug) == "posts/" + e + ".html" && Free(e, {'/'})
                          && UriComponent.Decode(e) == Some(StringOf(slug)))
  {
    var e := UriComponent.Encode(StringOf(slug));
    UriComponent.DecodeEncode(StringOf(slug));
    assert Free(e, {'/'}) by {
      forall i | 0 <= i < |e| ensures e[i] != '/' {
        assert UriComponent.Unreserved(e[i]) || e[i] == '%';
      }
    }
    assert PostFile(slug) == "posts/" + e + ".html";
  }

  /** A path's leading slashes never survive: a post path is never taken as protocol-relative. */
  lemma StrippedPathIsLocal(path: string)
    ensures !StartsWith(Lower(StripSlashes(path)), "//")
  {
    var r := StripSlashes(path);
    if |r| > 0 {
      assert Lower(r)[0] != "//"[0];
      FirstDiffers(Lower(r), "//");
    }
  }

  /** The texts of a card: the heading, the `aria-label` of its link and the excerpt. */
  datatype CardText = CardText(heading: string, ariaLabel: string, excerpt: string)

  /** `p.title || '(無題)'`, `p.title || '記事'` and `p.desc || p.excerpt || ''`. */
  function CardTextOf(p: Post): (t: CardText)
    ensures t.heading != "" && t.ariaLabel != ""
    ensures t.heading == t.ariaLabel <==> Truthy(p.title)
    ensures Truthy(p.title) ==> t.heading == p.title.value
    ensures !Truthy(p.title) ==> t.heading == "(無題)" && t.ariaLabel == "記事"
    ensures Truthy(p.desc) ==> t.excerpt == p.desc.value
    ensures !Truthy(p.desc) ==> t.excerpt == Or(p.excerpt, "")
  {
    CardText(Or(p.title, "(無題)"), Or(p.title, "記事"), Or(p.desc, Or(p.excerpt, "")))
  }
}

=== FILE: char_buttons.dfy ===
/**
 `createCharButton` of the two world pages: the character button is modelled
 as the record of the values the function writes into it. js/tabs.js keeps a
 one-line name label and optionally rewrites the image path through a path
 helper; js/anday.js writes two label lines and rewrites the image path with
 `withBase`.
 */
module CharButtons {

  import opened JsValues
  import BasePath

  /** A member record of a world page's character data (missing fields are `None`). */
  datatype Member = Member(
    id: Option<string>,
    name: Option<string>,
    nameEn: Option<string>,
    img: Option<string>,
    focusY: Option<string>)

  /**
   What `createCharButton` writes: `data-id`, `data-name`, the optional
   `data-name-en` (neither version writes it), the `--focus-y` style, the image
   `src` and `alt`, and the text of the label lines in order.
   */
  datatype CharButton = CharButton(
    dataId: string,
    dataName: string,
    dataNameEn: Option<string>,
    focusY: Option<string>,
    src: string,
    alt: string,
    labels: seq<string>)

  /**
   js/tabs.js `createCharButton(m, jbase)`: `jbase` is `None` when the caller
   passes something that is not a function, and then the image path is kept.
   */
  function CreateTabs(m: Member, jbase: Option<string -> string>): (b: CharButton)
    ensures b.dataId == Or(m.id, "") && b.dataName == Or(m.name, "")
    ensures b.alt == b.dataName && b.labels == [b.dataName]
    ensures b.dataNameEn.None?
    ensures b.focusY.Some? <==> Truthy(m.focusY)
    ensures b.focusY.Some? ==> b.focusY == m.focusY
    ensures jbase.None? ==> b.src == Or(m.img, "")
    ensures jbase.Some? ==> b.src == jbase.value(Or(m.img, ""))
  {
    var fixed := if jbase.Some? then jbase.value(Or(m.img, "")) else Or(m.img, "");
    CharButton(
      Or(m.id, ""), Or(m.name, ""), None,
      if Truthy(m.focusY) then m.focusY else None,
      Or(Some(fixed), ""), Or(m.name, ""), [Or(m.name, "")])
  }

  /** js/anday.js `createCharButton(m)`. */
  function CreateAnday(m: Member): (b: CharButton)
    ensures b.dataId == Or(m.id, "") && b.dataName == Or(m.name, "")
    ensures b.alt == b.dataName && b.labels == [b.dataName, Or(m.nameEn, "")]
    ensures b.dataNameEn.None? && b.focusY.None?
    ensures b.src == BasePath.WithBase(m.img)
    ensures b.src == "" <==> !Truthy(m.img)
    ensures Truthy(m.img) ==> BasePath.AlreadyBased(b.src)
  {
    CharButton(
      Or(m.id, ""), Or(m.name, ""), None, None,
      BasePath.WithBase(m.img), Or(m.name, ""), [Or(m.name, ""), Or(m.nameEn, "")])
  }

  /**
   The card a fragment key opens right after the list is rendered
   (js/tabs.js and js/anday.js, the `char=` match): a non-empty `data-id` equal
   to the key, or a `data-name` equal to it.
   */
  predicate KeyMatches(b: CharButton, key: string)
  {
    (b.dataId != "" && b.dataId == key) || b.dataName == key
  }

  /**
   The card `tryOpenByChar(key)` opens: one whose `data-id`, `data-name` or
   `data-name-en` equals the key.
   */
  predicate OpenMatches(b: CharButton, key: string)
  {
    b.dataId == key || b.dataName == key || b.dataNameEn == Some(key)
  }

  /**
   On the buttons both versions build, the two matching rules agree on every
   non-empty key, and a member is found by its id or its name.
   */
  lemma MatchRulesAgree(m: Member, jbase: Option<string -> string>, key: string)
    requires key != ""
    ensures KeyMatches(CreateTabs(m, jbase), key) <==> OpenMatches(CreateTabs(m, jbase), key)
    ensures KeyMatches(CreateAnday(m), key) <==> OpenMatches(CreateAnday(m), key)
    ensures KeyMatches(CreateAnday(m), key) <==> (m.id == Some(key) || m.name == Some(key))
  {
  }
}

=== FILE: chara_list.dfy ===
/**
 The character catalogue (js/charalist.js): the records of every world's
 character file are normalised and split into facets, the cards carry the
 facet values and the remaining tags, the facet selectors and tag chips filter
 the cards, and each card links to its world page with a `#tab=chars&char=`
 fragment.
 */
module CharaList {

  import opened JsValues
  import opened Strings
  import opened Seqs
  import UriComponent

  // ----- world pages and links -----

  /** `WORLD_TO_PAGE` */
  const WorldToPage: map<string, string> := map[
    "DraconisUtopia" := "draconis",
    "黒色の喰" := "kurokura",
    "龍のコトダマ" := "ryukoto",
    "安寧のデイドリーム" := "anday",
    "MissingMemory" := "mm",
    "高次元資料館" := "siryou"]

  /** `slugWorldToPage(world)`: the listed page, `"index"` for any other world. */
  function SlugWorldToPage(world: string): (page: string)
    ensures world in WorldToPage ==> page == WorldToPage[world]
    ensures page == "index" <==> world !in WorldToPage
  {
    if world in WorldToPage then WorldToPage[world] else "index"
  }

  /** Different listed worlds have different pages, so a page names its world. */
  lemma SlugInjective(w1: string, w2: string)
    requires w1 in WorldToPage && w2 in WorldToPage && w1 != w2
    ensures SlugWorldToPage(w1) != SlugWorldToPage(w2)
  {
  }

  /** `item.world || (item.tags?.[0] || "")` */
  function LinkWorld(world: Option<string>, tags: Option<seq<string>>): (w: string)
    ensures Truthy(world) ==> w == world.value
    ensures !Truthy(world) && tags.Some? && |tags.value| > 0 ==> w == tags.value[0]
    ensures !Truthy(world) && (tags.None? || |tags.value| == 0) ==> w == ""
  {
    if Truthy(world) then world.value
    else if tags.Some? && |tags.value| > 0 then tags.value[0]
    else ""
  }

  /** `item.id || item.name`, as the string `encodeURIComponent` receives. */
  function LinkKey(id: Option<string>, name: Option<string>): string
  {
    StringOf(if Truthy(id) then id else name)
  }

  /** The world page of a card link. */
  function LinkPath(page: string): string
  {
    "/world/" + page + ".html"
  }

  /** Where a card link's fragment starts: the character tab, then the `char` parameter. */
  const FragmentStart := "#tab=chars&char="

  /**
   The shape of a card link for key `k`: a `/world/` path without `#`, then
   `FragmentStart`, then a `char` value that decodes back to `k`.
   */
  predicate CardLink(r: string, k: string)
  {
    exists n :: 7 < n <= |r| - |FragmentStart| && r[..7] == "/world/" && Free(r[..n], {'#'})
      && r[n..n + |FragmentStart|] == FragmentStart
      && UriComponent.Decode(r[n + |FragmentStart|..]) == Some(k)
  }

  /** `buildHref(item)`: a card link whose `char` value decodes to `item.id || item.name`. */
  function BuildHref(world: Option<string>, tags: Option<seq<string>>, id: Option<string>, name: Option<string>): (r: string)
    ensures CardLink(r, LinkKey(id, name))
    ensures StartsWith(r, LinkPath(SlugWorldToPage(LinkWorld(world, tags))) + "#")
  {
    var page := SlugWorldToPage(LinkWorld(world, tags));
    var key := UriComponent.Encode(LinkKey(id, name));
    PagePlain(LinkWorld(world, tags));
    LinkPathPlain(page);
    LinkPathPrefix(page);
    UriComponent.DecodeEncode(LinkKey(id, name));
    HrefShape(LinkPath(page), key, LinkKey(id, name));
    HrefPrefix(LinkPath(page), key);
    LinkPath(page) + FragmentStart + key
  }

  /** A card link starts with its path and the `#` that opens the fragment. */
  lemma HrefPrefix(path: string, key: string)
    ensures StartsWith(path + FragmentStart + key, path + "#")
  {
    var r := path + FragmentStart + key;
    Seqs.ConcatParts(path, FragmentStart, key);
    assert r[..|path| + 1] == path + "#";
  }

  /** A card link's path starts with `/world/`. */
  lemma LinkPathPrefix(page: string)
    ensures |LinkPath(page)| > 7 && LinkPath(page)[..7] == "/world/"
  {
  }

  /** A `#`-free `/world/` path, `FragmentStart` and a value that decodes to `k`, joined. */
  lemma HrefShape(path: string, key: string, k: string)
    requires |path| > 7 && path[..7] == "/world/" && Free(path, {'#'})
    requires UriComponent.Decode(key) == Some(k)
    ensures CardLink(path + FragmentStart + key, k)
  {
    var r := path + FragmentStart + key;
    Seqs.ConcatParts(path, FragmentStart, key);
    assert r[..7] == r[..|path|][..7];
    var n := |path|;
    assert r[n..n + |FragmentStart|] == FragmentStart;
  }

  /** No page name holds a `#`. */
  lemma PagePlain(world: string)
    ensures Free(SlugWorldToPage(world), {'#'})
  {
  }

  /** A card link's path has no `#`, so the fragment starts at `FragmentStart`. */
  lemma LinkPathPlain(page: string)
    requires Free(page, {'#'})
    ensures Free(LinkPath(page), {'#'})
  {
    var p := LinkPath(page);
    forall i | 0 <= i < |p| ensures p[i] != '#' {
      if i < 7 {
        assert p[i] == "/world/"[i];
      } else if i < 7 + |page| {
        assert p[i] == page[i - 7];
      } else {
        assert p[i] == ".html"[i - 7 - |page|];
      }
    }
  }

  // ----- facets -----

  const Male := "男"
  const Female := "女"
  const Unknown := "性別不明"
  const HairPrefix := "髪色："
  const EyePrefix := "瞳色："
  const HeightPrefix := "身長："
  /** The full-width colon that marks a `key：value` tag. */
  const Colon := "："

  predicate IsGender(t: string)
  {
    t == Male || t == Female || t == Unknown
  }

  /** A tag one of the four facet slots consumes. */
  predicate IsFacetTag(t: string)
  {
    IsGender(t) || StartsWith(t, HairPrefix) || StartsWith(t, EyePrefix) || StartsWith(t, HeightPrefix)
  }

  /** A tag that sets the world slot while it is still empty: non-empty, no colon, not a facet tag. */
  predicate IsWorldCandidate(t: string)
  {
    !IsFacetTag(t) && t != "" && !Contains(t, Colon)
  }

  datatype Facets = Facets(gender: string, hair: string, eye: string, height: string, world: string, rest: seq<string>)

  /** One iteration of the loop of `splitFacets`; `first` is `tags[0]`. */
  function FacetStep(f: Facets, t: string, first: string): Facets
  {
    if IsGender(t) then f.(gender := t)
    else if StartsWith(t, HairPrefix) then f.(hair := t[|HairPrefix|..])
    else if StartsWith(t, EyePrefix) then f.(eye := t[|EyePrefix|..])
    else if StartsWith(t, HeightPrefix) then f.(height := t[|HeightPrefix|..])
    else if f.world == "" && t != "" && !Contains(t, Colon) then f.(world := first)
    else f.(rest := f.rest + [t])
  }

  /** The loop of `splitFacets` over `ts`, in order. */
  function FacetRun(ts: seq<string>, first: string): Facets
    decreases |ts|
  {
    if |ts| == 0 then Facets("", "", "", "", "", [])
    else FacetStep(FacetRun(ts[..|ts| - 1], first), ts[|ts| - 1], first)
  }

  /**
   `splitFacets(tags)`: the world slot is `tags[0]` as soon as some tag is a
   world candidate, and the remaining tags keep their order and hold no facet
   tag. `SplitFacetsSpec` gives the other four slots.
   */
  function SplitFacets(tags: seq<string>): (f: Facets)
    ensures f.world == (if HasCandidate(tags) then tags[0] else "")
    ensures IsSubseq(f.rest, tags)
    ensures forall k :: 0 <= k < |f.rest| ==> !IsFacetTag(f.rest[k])
  {
    var first := if |tags| > 0 then tags[0] else "";
    FacetRunWorld(tags, first);
    FacetRunRest(tags, first);
    RestSpecShape(tags, first);
    FacetRun(tags, first)
  }

  /** The last tag of `ts` a predicate accepts. */
  function LastWhere(ts: seq<string>, p: string -> bool): (r: Option<string>)
    ensures r.Some? ==> r.value in ts && p(r.value)
    ensures r.None? ==> forall k :: 0 <= k < |ts| ==> !p(ts[k])
    decreases |ts|
  {
    if |ts| == 0 then None
    else if p(ts[|ts| - 1]) then Some(ts[|ts| - 1])
    else LastWhere(ts[..|ts| - 1], p)
  }

  /** Some tag of `ts` is a world candidate. */
  predicate HasCandidate(ts: seq<string>)
  {
    exists k :: 0 <= k < |ts| && IsWorldCandidate(ts[k])
  }

  /** The index of the first world candidate. */
  function FirstCandidate(ts: seq<string>): (c: nat)
    requires HasCandidate(ts)
    ensures c < |ts| && IsWorldCandidate(ts[c])
    ensures forall k :: 0 <= k < c ==> !IsWorldCandidate(ts[k])
    decreases |ts|
  {
    if IsWorldCandidate(ts[0]) then 0
    else
      assert HasCandidate(ts[1..]) by {
        var k :| 0 <= k < |ts| && IsWorldCandidate(ts[k]);
        assert ts[1..][k - 1] == ts[k];
      }
      1 + FirstCandidate(ts[1..])
  }

  function NotFacet(t: string): bool { !IsFacetTag(t) }
  function Plain(t: string): bool { !IsFacetTag(t) && !IsWorldCandidate(t) }
  function Gender(t: string): bool { IsGender(t) }
  function Hair(t: string): bool { StartsWith(t, HairPrefix) }
  function Eye(t: string): bool { StartsWith(t, EyePrefix) }
  function Height(t: string): bool { StartsWith(t, HeightPrefix) }

  /** The value a prefix facet stores for the last tag with that prefix. */
  function Stripped(last: Option<string>, prefix: string): string
  {
    if last.Some? && |prefix| <= |last.value| then last.value[|prefix|..] else ""
  }

  /** The remaining tags, defined without the loop: the first world candidate is dropped when `first` is non-empty, every candidate is dropped otherwise. */
  function RestSpec(ts: seq<string>, first: string): seq<string>
  {
    if first == "" || !HasCandidate(ts) then
      if first == "" then Filter(ts, Plain) else Filter(ts, NotFacet)
    else
      var c := FirstCandidate(ts);
      Filter(ts[..c], NotFacet) + Filter(ts[c + 1..], NotFacet)
  }

  lemma {:induction false} FacetRunWorld(ts: seq<string>, first: string)
    ensures FacetRun(ts, first).world == if HasCandidate(ts) then first else ""
    decreases |ts|
  {
    if |ts| > 0 {
      var init := ts[..|ts| - 1];
      FacetRunWorld(init, first);
      CandidateExtend(init, ts[|ts| - 1]);
      assert ts == init + [ts[|ts| - 1]];
      ColonTest(ts[|ts| - 1]);
    }
  }

  /** The loop's colon test is the candidate's. */
  lemma ColonTest(t: string)
    ensures IsWorldCandidate(t) <==> !IsFacetTag(t) && t != "" && !Contains(t, Colon)
  {
  }

  lemma CandidateExtend(ts: seq<string>, t: string)
    ensures HasCandidate(ts + [t]) <==> HasCandidate(ts) || IsWorldCandidate(t)
  {
    if HasCandidate(ts) {
      var k :| 0 <= k < |ts| && IsWorldCandidate(ts[k]);
      assert (ts + [t])[k] == ts[k];
    }
    if IsWorldCandidate(t) {
      assert (ts + [t])[|ts|] == t;
    }
    if HasCandidate(ts + [t]) {
      var k :| 0 <= k < |ts + [t]| && IsWorldCandidate((ts + [t])[k]);
      if k < |ts| {
        assert ts[k] == (ts + [t])[k];
      }
    }
  }

  lemma FirstCandidateExtend(ts: seq<string>, t: string)
    requires HasCandidate(ts)
    ensures HasCandidate(ts + [t]) && FirstCandidate(ts + [t]) == FirstCandidate(ts)
  {
    CandidateExtend(ts, t);
    var c := FirstCandidate(ts);
    assert (ts + [t])[c] == ts[c];
    assert forall k :: 0 <= k < c ==> (ts + [t])[k] == ts[k];
  }

  /** The loop state after a prefix, as far as the remaining tags and the world slot go. */
  predicate RestInvariant(f: Facets, init: seq<string>, first: string)
  {
    f.rest == RestSpec(init, first) && f.world == (if HasCandidate(init) then first else "")
  }

  /** A step when `tags[0]` is empty: every candidate is dropped. */
  lemma RestStepNoFirst(f: Facets, init: seq<string>, t: string)
    requires RestInvariant(f, init, "")
    ensures FacetStep(f, t, "").rest == RestSpec(init + [t], "")
  {
    FilterAppend(init, t, Plain);
  }

  /** Once the world slot is set, a step keeps exactly the tags that are not facet tags. */
  lemma StepKeepsNonFacet(f: Facets, t: string, first: string)
    requires f.world != ""
    ensures FacetStep(f, t, first).rest == f.rest + (if NotFacet(t) then [t] else [])
  {
  }

  /** With a non-empty `tags[0]` and a candidate, the remaining tags are those around the first candidate. */
  lemma RestAround(ts: seq<string>, first: string)
    requires first != "" && HasCandidate(ts)
    ensures RestSpec(ts, first)
      == Filter(ts[..FirstCandidate(ts)], NotFacet) + Filter(ts[FirstCandidate(ts) + 1..], NotFacet)
  {
  }

  /** After the first candidate, one more tag is kept exactly when it is not a facet tag. */
  lemma RestAppendAfterWorld(init: seq<string>, t: string, first: string)
    requires first != "" && HasCandidate(init)
    ensures RestSpec(init + [t], first) == RestSpec(init, first) + (if NotFacet(t) then [t] else [])
  {
    var ts := init + [t];
    FirstCandidateExtend(init, t);
    var c := FirstCandidate(init);
    var keep := if NotFacet(t) then [t] else [];
    assert ts[..c] == init[..c];
    assert ts[c + 1..] == init[c + 1..] + [t];
    FilterAppend(init[c + 1..], t, NotFacet);
    RestAround(init, first);
    RestAround(ts, first);
    var a, b := Filter(init[..c], NotFacet), Filter(init[c + 1..], NotFacet);
    assert RestSpec(ts, first) == a + (b + keep);
    AppendAssoc(a, b, keep);
  }

  /** A step after the world slot was set: only facet tags are dropped. */
  lemma RestStepAfterWorld(f: Facets, init: seq<string>, t: string, first: string)
    requires first != "" && HasCandidate(init) && RestInvariant(f, init, first)
    ensures FacetStep(f, t, first).rest == RestSpec(init + [t], first)
  {
    StepKeepsNonFacet(f, t, first);
    RestAppendAfterWorld(init, t, first);
  }

  /** The step that sets the world slot drops its tag. */
  lemma RestStepSetsWorld(f: Facets, init: seq<string>, t: string, first: string)
    requires first != "" && !HasCandidate(init) && IsWorldCandidate(t) && RestInvariant(f, init, first)
    ensures FacetStep(f, t, first).rest == RestSpec(init + [t], first)
  {
    var ts := init + [t];
    CandidateExtend(init, t);
    assert ts[|init|] == t;
    var c := FirstCandidate(ts);
    assert c == |init|;
    assert ts[..c] == init;
    assert ts[c + 1..] == [];
  }

  /** A step before any candidate that is not one. */
  lemma RestStepBeforeWorld(f: Facets, init: seq<string>, t: string, first: string)
    requires first != "" && !HasCandidate(init) && !IsWorldCandidate(t) && RestInvariant(f, init, first)
    ensures FacetStep(f, t, first).rest == RestSpec(init + [t], first)
  {
    CandidateExtend(init, t);
    FilterAppend(init, t, NotFacet);
  }

  /** The remaining tags of the loop agree with their definition without the loop. */
  lemma {:induction false} FacetRunRest(ts: seq<string>, first: string)
    ensures FacetRun(ts, first).rest == RestSpec(ts, first)
    decreases |ts|
  {
    if |ts| > 0 {
      var init := ts[..|ts| - 1];
      var t := ts[|ts| - 1];
      var f := FacetRun(init, first);
      assert ts == init + [t];
      FacetRunRest(init, first);
      FacetRunWorld(init, first);
      if first == "" {
        RestStepNoFirst(f, init, t);
      } else if HasCandidate(init) {
        RestStepAfterWorld(f, init, t, first);
      } else if IsWorldCandidate(t) {
        RestStepSetsWorld(f, init, t, first);
      } else {
        RestStepBeforeWorld(f, init, t, first);
      }
    }
  }

  /** The facet slot a tag feeds, if any: at most one. */
  lemma FacetKindsDisjoint(t: string)
    ensures IsGender(t) ==> !StartsWith(t, HairPrefix) && !StartsWith(t, EyePrefix) && !StartsWith(t, HeightPrefix)
    ensures StartsWith(t, HairPrefix) ==> !StartsWith(t, EyePrefix) && !StartsWith(t, HeightPrefix)
    ensures StartsWith(t, EyePrefix) ==> !StartsWith(t, HeightPrefix)
  {
    assert HairPrefix[0] == '髪' && EyePrefix[0] == '瞳' && HeightPrefix[0] == '身';
    assert |HairPrefix| == 3 && |EyePrefix| == 3 && |HeightPrefix| == 3;
    assert Male[0] == '男' && Female[0] == '女' && Unknown[0] == '性';
    if StartsWith(t, HairPrefix) || StartsWith(t, EyePrefix) || StartsWith(t, HeightPrefix) {
      assert |t| >= 3;
      assert t[0] == t[..3][0];
    }
  }

  /** Each facet slot holds the value of the last tag that feeds it. */
  lemma {:induction false} FacetRunSlots(ts: seq<string>, first: string)
    ensures FacetRun(ts, first).gender == Or(LastWhere(ts, Gender), "")
    ensures FacetRun(ts, first).hair == Stripped(LastWhere(ts, Hair), HairPrefix)
    ensures FacetRun(ts, first).eye == Stripped(LastWhere(ts, Eye), EyePrefix)
    ensures FacetRun(ts, first).height == Stripped(LastWhere(ts, Height), HeightPrefix)
    decreases |ts|
  {
    if |ts| > 0 {
      FacetRunSlots(ts[..|ts| - 1], first);
      FacetKindsDisjoint(ts[|ts| - 1]);
    }
  }

  /**
   `splitFacets` partitions the tags: the gender slot and the three prefix
   slots take the last tag that feeds them (prefix removed), the world slot is
   `tags[0]` as soon as some tag is a world candidate, and the remaining tags
   are the others in their original order.
   */
  lemma SplitFacetsSpec(tags: seq<string>)
    ensures var f := SplitFacets(tags);
      && f.gender == Or(LastWhere(tags, Gender), "")
      && f.hair == Stripped(LastWhere(tags, Hair), HairPrefix)
      && f.eye == Stripped(LastWhere(tags, Eye), EyePrefix)
      && f.height == Stripped(LastWhere(tags, Height), HeightPrefix)
      && f.rest == RestSpec(tags, if |tags| > 0 then tags[0] else "")
  {
    var first := if |tags| > 0 then tags[0] else "";
    FacetRunSlots(tags, first);
    FacetRunRest(tags, first);
  }

  /**
   When the first tag is empty, taking a world candidate leaves the world
   empty, so every later candidate is taken and dropped as well: the rest is
   the tags that are neither facets nor world candidates.
   */
  lemma EmptyFirstTagRest(tags: seq<string>)
    requires |tags| > 0 && tags[0] == ""
    ensures SplitFacets(tags).world == ""
    ensures SplitFacets(tags).rest == Filter(tags, Plain)
    ensures forall k :: 0 <= k < |SplitFacets(tags).rest| ==> !IsWorldCandidate(SplitFacets(tags).rest[k])
  {
    SplitFacetsSpec(tags);
  }

  lemma RestSpecShape(ts: seq<string>, first: string)
    ensures IsSubseq(RestSpec(ts, first), ts)
    ensures forall k :: 0 <= k < |RestSpec(ts, first)| ==> !IsFacetTag(RestSpec(ts, first)[k])
  {
    if first == "" {
      FilterSubseq(ts, Plain);
    } else if !HasCandidate(ts) {
      FilterSubseq(ts, NotFacet);
    } else {
      RestSpecSplitShape(ts, FirstCandidate(ts));
    }
  }

  lemma RestSpecSplitShape(ts: seq<string>, c: nat)
    requires c < |ts|
    ensures IsSubseq(Filter(ts[..c], NotFacet) + Filter(ts[c + 1..], NotFacet), ts)
    ensures var r := Filter(ts[..c], NotFacet) + Filter(ts[c + 1..], NotFacet);
      forall k :: 0 <= k < |r| ==> !IsFacetTag(r[k])
  {
    var a := Filter(ts[..c], NotFacet);
    var b := Filter(ts[c + 1..], NotFacet);
    FilterSubseq(ts[..c], NotFacet);
    FilterSubseq(ts[c + 1..], NotFacet);
    SubseqSkip(a, b, ts[..c], ts[c], ts[c + 1..]);
    assert ts == ts[..c] + [ts[c]] + ts[c + 1..];
    forall k | 0 <= k < |a + b| ensures !IsFacetTag((a + b)[k]) {
      if k >= |a| {
        assert (a + b)[k] == b[k - |a|];
      }
    }
  }

  lemma {:induction false} SubseqSkip<T>(a: seq<T>, b: seq<T>, xs: seq<T>, x: T, ys: seq<T>)
    requires IsSubseq(a, xs) && IsSubseq(b, ys)
    ensures IsSubseq(a + b, xs + [x] + ys)
    decreases |xs|
  {
    if |xs| == 0 {
      assert xs + [x] + ys == [x] + ys;
      assert ([x] + ys)[1..] == ys;
      assert a == [];
      assert a + b == b;
    } else {
      var s := xs + [x] + ys;
      assert s[0] == xs[0] && s[1..] == xs[1..] + [x] + ys;
      if |a| > 0 && a[0] == xs[0] && IsSubseq(a[1..], xs[1..]) {
        SubseqSkip(a[1..], b, xs[1..], x, ys);
        assert (a + b)[0] == a[0] && (a + b)[1..] == a[1..] + b;
      } else {
        SubseqSkip(a, b, xs[1..], x, ys);
        if |a + b| > 0 {
          assert IsSubseq(a + b, s[1..]);
        }
      }
    }
  }

  // ----- records -----

  /** A character record as a data file writes it (missing fields are `None`; `tags` is `None` unless it is an array). */
  datatype Raw = Raw(
    id: Option<string>, name: Option<string>, title: Option<string>,
    img: Option<string>, image: Option<string>, href: Option<string>,
    tags: Option<seq<string>>, group: Option<string>)

  /** A normalised record: the fields the catalogue reads. */
  datatype Chara = Chara(
    id: Option<string>, name: string, img: string, href: string, group: Option<string>,
    tags: seq<string>, gender: string, hair: string, eye: string, height: string, world: string)

  /** `a ?? b` */
  function OrElse(a: Option<string>, b: Option<string>): Option<string>
  {
    if a.Some? then a else b
  }

  /** The record built from one raw record inside `loadAll`. */
  function Normalise(raw: Raw): (c: Chara)
    ensures c.name == Coalesce(OrElse(raw.name, raw.title), "")
    ensures c.img == Coalesce(OrElse(raw.img, raw.image), "")
    ensures Truthy(raw.href) ==> c.href == raw.href.value
    ensures !Truthy(raw.href) ==> c.href == "./" + Or(raw.id, c.name) + ".html"
    ensures c.id == raw.id && c.group == raw.group
    ensures var f := SplitFacets(Coalesce(raw.tags, []));
      c.tags == f.rest && c.gender == f.gender && c.hair == f.hair && c.eye == f.eye
      && c.height == f.height && c.world == f.world
  {
    var name := Coalesce(OrElse(raw.name, raw.title), "");
    var img := Coalesce(OrElse(raw.img, raw.image), "");
    var href := if Truthy(raw.href) then raw.href.value else "./" + Or(raw.id, name) + ".html";
    var tags := if raw.tags.Some? then raw.tags.value else [];
    var f := SplitFacets(tags);
    Chara(raw.id, name, img, href, raw.group, f.rest, f.gender, f.hair, f.eye, f.height, f.world)
  }

  /** The normalised records of a list of raw records, in order. */
  function NormaliseAll(raws: seq<Raw>): (cs: seq<Chara>)
    ensures |cs| == |raws|
    ensures forall k :: 0 <= k < |raws| ==> cs[k] == Normalise(raws[k])
    decreases |raws|
  {
    if |raws| == 0 then [] else [Normalise(raws[0])] + NormaliseAll(raws[1..])
  }

  datatype Group = Group(title: Option<string>, members: Option<seq<Raw>>)

  /** The shapes a character file may have. */
  datatype Json =
    | JArray(items: seq<Raw>)
    | JObject(groups: Option<seq<Group>>, members: Option<seq<Raw>>,
              chars: Option<seq<Raw>>, characters: Option<seq<Raw>>, itemList: Option<seq<Raw>>,
              list: Option<seq<Raw>>, data: Option<seq<Raw>>)

  /** `(g.members || []).map(m => ({ ...m, group: g.title }))` */
  function GroupMembers(g: Group): (rs: seq<Raw>)
    ensures |rs| == |Coalesce(g.members, [])|
    ensures forall j :: 0 <= j < |rs| ==> rs[j] == Coalesce(g.members, [])[j].(group := g.title)
  {
    var ms := Coalesce(g.members, []);
    seq(|ms|, j requires 0 <= j < |ms| => ms[j].(group := g.title))
  }

  function GroupLists(gs: seq<Group>): (xss: seq<seq<Raw>>)
    ensures |xss| == |gs|
    ensures forall k :: 0 <= k < |gs| ==> xss[k] == GroupMembers(gs[k])
    decreases |gs|
  {
    if |gs| == 0 then [] else [GroupMembers(gs[0])] + GroupLists(gs[1..])
  }

  /** The raw records of one file, by the first shape that fits. */
  function Items(j: Json): seq<Raw>
  {
    match j
    case JArray(items) => items
    case JObject(groups, members, chars, characters, itemList, list, data) =>
      if groups.Some? then Flatten(GroupLists(groups.value))
      else if members.Some? then members.value
      else if chars.Some? then chars.value
      else if characters.Some? then characters.value
      else if itemList.Some? then itemList.value
      else if list.Some? then list.value
      else Coalesce(data, [])
  }

  /** Group-shaped files list members group by group, each member carrying its group's title. */
  lemma GroupOrder(gs: seq<Group>, k: nat, j: nat)
    requires k < |gs| && j < |Coalesce(gs[k].members, [])|
    ensures var items := Items(JObject(Some(gs), None, None, None, None, None, None));
      var at := Offset(GroupLists(gs), k) + j;
      at < |items| && items[at] == Coalesce(gs[k].members, [])[j].(group := gs[k].title)
  {
    var xss := GroupLists(gs);
    assert Items(JObject(Some(gs), None, None, None, None, None, None)) == Flatten(xss);
    assert xss[k] == GroupMembers(gs[k]);
    FlattenIndex(xss, k, j);
  }

  /** The normalised records of each file; `None` when some file could not be fetched. */
  function LoadLists(files: seq<Option<Json>>): (r: Option<seq<seq<Chara>>>)
    ensures r.Some? <==> forall k :: 0 <= k < |files| ==> files[k].Some?
    ensures r.Some? ==>
      && |r.value| == |files|
      && forall k :: 0 <= k < |files| ==> r.value[k] == NormaliseAll(Items(files[k].value))
    decreases |files|
  {
    if |files| == 0 then Some([])
    else match files[0]
      case None => None
      case Some(j) =>
        match LoadLists(files[1..])
        case None => None
        case Some(rest) => Some([NormaliseAll(Items(j))] + rest)
  }

  /** `loadAll()`: every file's records, file after file; a failed fetch rejects the whole load. */
  function LoadAll(files: seq<Option<Json>>): (r: Option<seq<Chara>>)
    ensures r.Some? <==> forall k :: 0 <= k < |files| ==> files[k].Some?
  {
    match LoadLists(files)
    case None => None
    case Some(lists) => Some(Flatten(lists))
  }

  /** The records of one file appear in the catalogue at that file's offset, in file order. */
  lemma LoadAllOrder(files: seq<Option<Json>>, k: nat, j: nat)
    requires LoadAll(files).Some? && k < |files|
    requires j < |Items(files[k].value)|
    ensures var lists := LoadLists(files).value;
      var at := Offset(lists, k) + j;
      at < |LoadAll(files).value| && LoadAll(files).value[at] == Normalise(Items(files[k].value)[j])
  {
    LoadAllFlat(files);
    LoadedAt(files, k, j);
    FlattenIndex(LoadLists(files).value, k, j);
  }

  /** A successful load is the flattened per-file lists. */
  lemma LoadAllFlat(files: seq<Option<Json>>)
    requires LoadAll(files).Some?
    ensures LoadLists(files).Some? && LoadAll(files).value == Flatten(LoadLists(files).value)
  {
  }

  /** Record `j` of file `k` is the normalised raw record `j` of that file. */
  lemma LoadedAt(files: seq<Option<Json>>, k: nat, j: nat)
    requires LoadLists(files).Some? && k < |files|
    requires j < |Items(files[k].value)|
    ensures k < |LoadLists(files).value| && j < |LoadLists(files).value[k]|
    ensures LoadLists(files).value[k][j] == Normalise(Items(files[k].value)[j])
  {
  }

  // ----- tags and cards -----

  function TagLists(list: seq<Chara>): (xss: seq<seq<string>>)
    ensures |xss| == |list|
    ensures forall k :: 0 <= k < |list| ==> xss[k] == list[k].tags
    decreases |list|
  {
    if |list| == 0 then [] else [list[0].tags] + TagLists(list[1..])
  }

  /**
   `collectTags(list)`: the records' tags in the order the `Set` first sees
   them, each once.
   */
  function CollectTags(list: seq<Chara>): (r: seq<string>)
    ensures FirstSeen(Flatten(TagLists(list)), r)
  {
    Dedup(Flatten(TagLists(list)))
  }

  /** The collected tags are exactly the tags some record carries, each once. */
  lemma CollectTagsSpec(list: seq<Chara>, t: string)
    ensures t in CollectTags(list) <==> exists k :: 0 <= k < |list| && t in list[k].tags
    ensures NoDup(CollectTags(list))
  {
    var all := Flatten(TagLists(list));
    FlattenMember(TagLists(list), t);
    if t in all {
      var i :| 0 <= i < |all| && all[i] == t;
      assert all[i] in CollectTags(list);
    }
  }

  /** The data attributes of a catalogue card. */
  datatype Card = Card(id: string, tags: string, world: string, gender: string, hair: string, eye: string, height: string)

  /** The card `renderGrid` builds for a record. */
  function CardOf(m: Chara): (c: Card)
    ensures c.world == m.world && c.gender == m.gender && c.hair == m.hair
    ensures c.eye == m.eye && c.height == m.height
  {
    Card(Or(m.id, ""), Join(m.tags, ","), m.world, m.gender, m.hair, m.eye, m.height)
  }

  /** `(c.dataset.tags || '').split(',').filter(Boolean)` */
  function CardTags(c: Card): seq<string>
  {
    NonEmpty(Split(c.tags, {','}))
  }

  lemma {:induction false} NonEmptyAll(xs: seq<string>)
    requires forall k :: 0 <= k < |xs| ==> xs[k] != ""
    ensures NonEmpty(xs) == xs
    decreases |xs|
  {
    if |xs| > 0 {
      NonEmptyAll(xs[1..]);
    }
  }

  /** A card reads back its record's tags when they are non-empty and free of commas. */
  lemma CardTagsRoundTrip(m: Chara)
    requires forall k :: 0 <= k < |m.tags| ==> m.tags[k] != "" && Free(m.tags[k], {','})
    ensures CardTags(CardOf(m)) == m.tags
  {
    if |m.tags| == 0 {
      assert Split("", {','}) == [""];
    } else {
      SplitJoin(m.tags, ',');
      NonEmptyAll(m.tags);
    }
  }

  /** The facet selector values (`""` is "any"). */
  datatype FacetChoice = FacetChoice(world: string, gender: string, hair: string, eye: string, height: string)

  /** A selector accepts a field when it is empty or equal to it. */
  predicate Accepts(sel: string, field: string)
  {
    sel == "" || sel == field
  }

  /**
   The visibility test of `applyFilter` for one card: every selector accepts
   the card's field, and every selected tag is a non-empty comma-separated
   piece of the card's `data-tags`.
   */
  function Visible(c: Card, f: FacetChoice, selected: seq<string>): (v: bool)
    ensures v ==> forall k :: 0 <= k < |selected| ==> selected[k] != "" && selected[k] in Split(c.tags, {','})
    ensures f == FacetChoice("", "", "", "", "") ==>
      (v <==> forall k :: 0 <= k < |selected| ==> selected[k] != "" && selected[k] in Split(c.tags, {','}))
  {
    && Accepts(f.world, c.world) && Accepts(f.gender, c.gender) && Accepts(f.hair, c.hair)
    && Accepts(f.eye, c.eye) && Accepts(f.height, c.height)
    && forall k :: 0 <= k < |selected| ==> selected[k] in CardTags(c)
  }

  /** The filter controls: the selectors and the pressed state of each chip. */
  datatype Controls = Controls(facet: FacetChoice, chips: seq<string>, pressed: seq<bool>)

  /** `currentSelectedTags()`: the values of the pressed chips, in chip order. */
  function SelectedTags(chips: seq<string>, pressed: seq<bool>): (r: seq<string>)
    requires |chips| == |pressed|
    ensures forall k :: 0 <= k < |r| ==> exists i :: 0 <= i < |chips| && pressed[i] && chips[i] == r[k]
    ensures forall k :: 0 <= k < |chips| && pressed[k] ==> chips[k] in r
    ensures IsSubseq(r, chips)
    ensures (forall k :: 0 <= k < |pressed| ==> !pressed[k]) ==> r == []
    decreases |chips|
  {
    if |chips| == 0 then []
    else
      var rest := SelectedTags(chips[1..], pressed[1..]);
      SelectedStep(chips, pressed, rest);
      (if pressed[0] then [chips[0]] else []) + rest
  }

  /** The first chip's value, if pressed, in front of values of pressed later chips. */
  lemma SelectedStep(chips: seq<string>, pressed: seq<bool>, rest: seq<string>)
    requires |chips| == |pressed| > 0
    requires forall k :: 0 <= k < |rest| ==> exists i :: 0 <= i < |chips[1..]| && pressed[1..][i] && chips[1..][i] == rest[k]
    requires IsSubseq(rest, chips[1..])
    ensures var r := (if pressed[0] then [chips[0]] else []) + rest;
      && (forall k :: 0 <= k < |r| ==> exists i :: 0 <= i < |chips| && pressed[i] && chips[i] == r[k])
      && IsSubseq(r, chips)
  {
    var r := (if pressed[0] then [chips[0]] else []) + rest;
    forall k | 0 <= k < |r| ensures exists i :: 0 <= i < |chips| && pressed[i] && chips[i] == r[k] {
      if pressed[0] && k == 0 {
        assert pressed[0] && chips[0] == r[k];
      } else {
        var k' := if pressed[0] then k - 1 else k;
        assert r[k] == rest[k'];
        var i :| 0 <= i < |chips[1..]| && pressed[1..][i] && chips[1..][i] == rest[k'];
        assert pressed[i + 1] && chips[i + 1] == r[k];
      }
    }
    if pressed[0] {
      assert r[1..] == rest;
    } else {
      assert r == rest;
    }
  }

  /** The "clear" button: every chip released, every selector back to "any". */
  function ClearFilter(ctl: Controls): (r: Controls)
    ensures r.chips == ctl.chips && |r.pressed| == |ctl.pressed|
    ensures forall k :: 0 <= k < |r.pressed| ==> !r.pressed[k]
  {
    Controls(FacetChoice("", "", "", "", ""), ctl.chips, seq(|ctl.pressed|, k => false))
  }

  /** After clearing, every card is shown. */
  lemma ClearShowsAll(ctl: Controls, c: Card)
    requires |ctl.chips| == |ctl.pressed|
    ensures var r := ClearFilter(ctl); Visible(c, r.facet, SelectedTags(r.chips, r.pressed))
  {
  }

  /** Pressing more chips or setting a selector never shows a card that was hidden. */
  lemma FilterMonotone(c: Card, f: FacetChoice, g: FacetChoice, fewer: seq<string>, more: seq<string>)
    requires forall k :: 0 <= k < |fewer| ==> fewer[k] in more
    requires Accepts(f.world, g.world) && Accepts(f.gender, g.gender) && Accepts(f.hair, g.hair)
    requires Accepts(f.eye, g.eye) && Accepts(f.height, g.height)
    ensures Visible(c, g, more) ==> Visible(c, f, fewer)
  {
  }

  /** A card is shown when the selectors hold its own values and the chips are among its tags. */
  lemma OwnValuesShow(m: Chara, selected: seq<string>)
    requires forall k :: 0 <= k < |m.tags| ==> m.tags[k] != "" && Free(m.tags[k], {','})
    requires forall k :: 0 <= k < |selected| ==> selected[k] in m.tags
    ensures Visible(CardOf(m), FacetChoice(m.world, m.gender, m.hair, m.eye, m.height), selected)
  {
    CardTagsRoundTrip(m);
  }

  /** The link a card opens: `buildHref(m)` of the normalised record. */
  function CardHref(m: Chara): string
  {
    BuildHref(Some(m.world), Some(m.tags), m.id, Some(m.name))
  }
}

=== FILE: deep_link.dfy ===
/**
 The catalogue's card links and the world pages' fragment router read
 together: the fragment `buildHref` writes parses back to the character tab
 and the record's key, and the world page opens the card built from the same
 record. The fragment the tab controller writes carries no `char=` parameter.
 */
module DeepLink {

  import opened JsValues
  import opened Strings
  import Seqs
  import UriComponent
  import HashRouter
  import CharaList
  import CharButtons
  import Tabs

  /** The fragment separators cannot occur in encoded text. */
  lemma EncodedFree(s: string)
    ensures Free(UriComponent.Encode(s), {'&', '?'})
    ensures Free(UriComponent.Encode(s), {'='})
    ensures Free(UriComponent.Encode(s), {'#'})
    ensures Free(UriComponent.Encode(s), {'&'})
  {
    UriComponent.EncodeFreeOfDelimiters(s);
  }

  /** The fragment of a card link is `#tab=chars&char=` and the encoded key. */
  lemma HrefFragment(world: Option<string>, tags: Option<seq<string>>, id: Option<string>, name: Option<string>)
    ensures HashRouter.FragmentOf(CharaList.BuildHref(world, tags, id, name))
      == CharaList.FragmentStart + UriComponent.Encode(CharaList.LinkKey(id, name))
  {
    var page := CharaList.SlugWorldToPage(CharaList.LinkWorld(world, tags));
    var path := CharaList.LinkPath(page);
    var e := UriComponent.Encode(CharaList.LinkKey(id, name));
    var frag := CharaList.FragmentStart + e;
    CharaList.PagePlain(CharaList.LinkWorld(world, tags));
    CharaList.LinkPathPlain(page);
    assert frag[0] == '#' && |frag| > 1;
    HashRouter.FragmentOfJoin(path, frag);
    Seqs.AppendAssoc(path, CharaList.FragmentStart, e);
  }

  lemma FragmentBody(e: string)
    ensures HashRouter.StripHash(CharaList.FragmentStart + e) == "tab=chars" + ['&'] + ("char=" + e)
  {
    var f := CharaList.FragmentStart + e;
    assert StartsWith(f, "#") by {
      assert f[..1] == "#";
    }
    assert f[1..] == "tab=chars" + ['&'] + ("char=" + e);
  }

  /** A card link's fragment has two segments: the tab and the `char` parameter. */
  lemma HrefSegments(e: string)
    requires Free(e, {'&', '?'})
    ensures HashRouter.Segments(CharaList.FragmentStart + e) == ["tab=chars", "char=" + e]
  {
    FragmentBody(e);
    assert Free("tab=chars", {'&', '?'});
    assert Free("char=" + e, {'&', '?'}) by {
      var c := "char=" + e;
      forall i | 0 <= i < |c| ensures c[i] !in {'&', '?'} {
        if i >= 5 {
          assert c[i] == e[i - 5];
        }
      }
    }
    SplitFreePrefix("tab=chars", '&', "char=" + e, {'&', '?'});
    SplitFreePrefix("char=" + e, '&', "", {'&', '?'});
  }

  /** A segment `k=v` with `=`-free parts has key `k` and value `v`. */
  lemma PairFields(k: string, v: string)
    requires Free(k, {'='}) && Free(v, {'='})
    ensures HashRouter.KeyOf(k + "=" + v) == k && HashRouter.ValueOf(k + "=" + v) == v
  {
    SplitFreePrefix(k, '=', v, {'='});
    SplitFreePrefix(v, '=', "", {'='});
    assert k + "=" + v == k + ['='] + v;
  }

  /** A plain segment `k=v` decodes to the pair. */
  lemma PlainEntry(k: string, v: string)
    requires Free(k, {'=', '%'}) && Free(v, {'=', '%'})
    ensures HashRouter.Entry(k + "=" + v) == Some((k, v))
  {
    PairFields(k, v);
    UriComponent.DecodePlain(k);
    UriComponent.DecodePlain(v);
  }

  lemma TabEntry()
    ensures HashRouter.Entry("tab=chars") == Some(("tab", "chars"))
  {
    PlainEntry("tab", "chars");
    assert "tab" + "=" + "chars" == "tab=chars";
  }

  lemma CharEntry(key: string)
    ensures HashRouter.Entry("char=" + UriComponent.Encode(key)) == Some(("char", key))
  {
    var e := UriComponent.Encode(key);
    var p := "char" + "=" + e;
    assert p == "char=" + e;
    EncodedFree(key);
    PairFields("char", e);
    UriComponent.DecodePlain("char");
    UriComponent.DecodeEncode(key);
    assert HashRouter.KeyOf(p) == "char" && HashRouter.ValueOf(p) == e;
  }

  /** Two non-empty segments that decode give a map with both pairs, the second written last. */
  lemma CollectTwo(a: string, b: string)
    requires a != "" && b != "" && HashRouter.Entry(a).Some? && HashRouter.Entry(b).Some?
    ensures HashRouter.Collect([a, b]) ==
      Some(map[][HashRouter.Entry(a).value.0 := HashRouter.Entry(a).value.1][HashRouter.Entry(b).value.0 := HashRouter.Entry(b).value.1])
  {
    assert [a][..0] == [];
    assert HashRouter.Collect([a]) == Some(map[][HashRouter.Entry(a).value.0 := HashRouter.Entry(a).value.1]);
    assert [a, b][..1] == [a];
  }

  /**
   The writer/reader pair: parsing the fragment of a card link yields exactly
   `tab = "chars"` and `char =` the record's key (`id || name`).
   */
  lemma ParseCardLink(world: Option<string>, tags: Option<seq<string>>, id: Option<string>, name: Option<string>)
    ensures HashRouter.ParseHashMulti(HashRouter.FragmentOf(CharaList.BuildHref(world, tags, id, name)))
      == Some(map["tab" := "chars", "char" := CharaList.LinkKey(id, name)])
  {
    var key := CharaList.LinkKey(id, name);
    var e := UriComponent.Encode(key);
    HrefFragment(world, tags, id, name);
    EncodedFree(key);
    HrefSegments(e);
    TabEntry();
    CharEntry(key);
    CollectTwo("tab=chars", "char=" + e);
    assert map[]["tab" := "chars"]["char" := key] == map["tab" := "chars", "char" := key];
  }

  /** Position `i` of `x` cannot start a `char=` match: no `c` there, or no `=` four places on. */
  predicate NoMatchAt(x: string, i: nat)
    requires i < |x|
  {
    x[i] != 'c' || (i + 4 < |x| && x[i + 4] != '=')
  }

  /** Text no position of which can start a `char=` match is skipped by the scan. */
  lemma {:induction false} CharParamSkip(x: string, rest: string)
    requires forall i: nat :: i < |x| ==> NoMatchAt(x, i)
    ensures HashRouter.CharParam(x + rest) == HashRouter.CharParam(rest)
    decreases |x|
  {
    if |x| > 0 {
      var h := x + rest;
      assert NoMatchAt(x, 0);
      assert h[0] == x[0];
      if 4 < |x| {
        assert h[4] == x[4];
      }
      assert !StartsWith(h, "char=") by {
        if |h| >= 5 {
          assert h[..5][0] == h[0] && h[..5][4] == h[4];
          assert "char="[0] == 'c' && "char="[4] == '=';
        }
      }
      assert h[1..] == x[1..] + rest;
      forall i: nat | i < |x[1..]| ensures NoMatchAt(x[1..], i) {
        assert x[1..][i] == x[i + 1];
        assert NoMatchAt(x, i + 1);
        if i + 5 < |x| {
          assert x[1..][i + 4] == x[i + 5];
        }
      }
      CharParamSkip(x[1..], rest);
    } else {
      assert x + rest == rest;
    }
  }

  lemma FragmentStartSkips()
    ensures var x := "#tab=chars&";
      forall i: nat :: i < |x| ==> NoMatchAt(x, i)
  {
  }

  /** Encoding keeps a non-empty text non-empty. */
  lemma EncodeNonEmpty(key: string)
    requires key != ""
    ensures UriComponent.Encode(key) != ""
  {
    assert UriComponent.Encode(key) == UriComponent.EncodeChar(key[0]) + UriComponent.Encode(key[1..]);
  }

  lemma FragmentCharParam(e: string)
    requires e != "" && Free(e, {'&'})
    ensures HashRouter.CharParam(CharaList.FragmentStart + e) == Some(e)
  {
    FragmentStartSkips();
    CharParamSkip("#tab=chars&", "char=" + e);
    assert CharaList.FragmentStart + e == "#tab=chars&" + ("char=" + e);
    HashRouter.CharParamAtStart(e, "");
    assert "char=" + e + "" == "char=" + e;
  }

  /** The rendered-list match sees the record's encoded key in a card link. */
  lemma CardLinkCharParam(world: Option<string>, tags: Option<seq<string>>, id: Option<string>, name: Option<string>)
    requires CharaList.LinkKey(id, name) != ""
    ensures HashRouter.CharParam(HashRouter.FragmentOf(CharaList.BuildHref(world, tags, id, name)))
      == Some(UriComponent.Encode(CharaList.LinkKey(id, name)))
  {
    var key := CharaList.LinkKey(id, name);
    HrefFragment(world, tags, id, name);
    EncodedFree(key);
    EncodeNonEmpty(key);
    FragmentCharParam(UriComponent.Encode(key));
  }

  lemma TabFragmentSkips(v: string)
    requires v == "chars" || v == "world"
    ensures var h := "#tab=" + v;
      forall i: nat :: i < |h| ==> NoMatchAt(h, i)
  {
  }

  /**
   The fragment the tab controller writes has no `char=` value. The controller
   only runs on a page with a `[data-tabs]` element; without one the fragment
   is left as loaded.
   */
  lemma TabFragmentHasNoChar(tabIds: seq<string>, panelLabels: seq<Option<string>>, nextId: string)
    ensures HashRouter.CharParam(Tabs.SelectTab(tabIds, panelLabels, nextId).hash).None?
  {
    var h := Tabs.SelectTab(tabIds, panelLabels, nextId).hash;
    var v := if nextId == Tabs.CharsTab then "chars" else "world";
    assert h == "#tab=" + v;
    TabFragmentSkips(v);
    CharParamSkip(h, "");
    assert h + "" == h;
  }

  /** The fragment the tab controller writes parses to the tab alone. */
  lemma TabFragmentParses(tabIds: seq<string>, panelLabels: seq<Option<string>>, nextId: string)
    ensures HashRouter.ParseHashMulti(Tabs.SelectTab(tabIds, panelLabels, nextId).hash)
      == Some(map["tab" := if nextId == Tabs.CharsTab then "chars" else "world"])
  {
    var h := Tabs.SelectTab(tabIds, panelLabels, nextId).hash;
    var v := if nextId == Tabs.CharsTab then "chars" else "world";
    assert h == "#tab=" + v;
    TabSegments(v);
    TabPairEntry(v);
    CollectOne("tab=" + v);
    assert map[]["tab" := v] == map["tab" := v];
  }

  lemma TabPairEntry(v: string)
    requires v == "chars" || v == "world"
    ensures HashRouter.Entry("tab=" + v) == Some(("tab", v))
  {
    PlainEntry("tab", v);
    assert "tab" + "=" + v == "tab=" + v;
  }

  /** One non-empty segment that decodes gives a map with its pair alone. */
  lemma CollectOne(a: string)
    requires a != "" && HashRouter.Entry(a).Some?
    ensures HashRouter.Collect([a]) == Some(map[][HashRouter.Entry(a).value.0 := HashRouter.Entry(a).value.1])
  {
    assert [a][..0] == [];
  }

  lemma TabSegments(v: string)
    requires v == "chars" || v == "world"
    ensures HashRouter.Segments("#tab=" + v) == ["tab=" + v]
  {
    var h := "#tab=" + v;
    assert StartsWith(h, "#") by {
      assert h[..1] == "#";
    }
    assert h[1..] == "tab=" + v;
    assert Free("tab=" + v, {'&', '?'});
    SplitFreePrefix("tab=" + v, '&', "", {'&', '?'});
  }

  /**
   Following a card link to a world page: when the page has a card built from
   a member with the record's id, the boot fragment selects the character tab
   and opens a card no later than that one, whose id, name or English name is
   the record's key.
   */
  lemma CardLinkOpens(
    world: Option<string>, tags: Option<seq<string>>, id: Option<string>, name: Option<string>,
    pathname: string, members: seq<CharButtons.Member>, cards: seq<CharButtons.CharButton>, i: nat)
    requires Truthy(id)
    requires |cards| == |members| && i < |members| && members[i].id == id
    requires forall k :: 0 <= k < |members| ==> cards[k] == CharButtons.CreateAnday(members[k])
    ensures var boot := HashRouter.OpenFromInitialHash(
        HashRouter.FragmentOf(CharaList.BuildHref(world, tags, id, name)), pathname, cards);
      && boot.Booted? && boot.clickCharsTab
      && boot.card.Some? && boot.card.value <= i
      && CharButtons.OpenMatches(cards[boot.card.value], id.value)
      && boot.address == Some(pathname + "#tab=chars")
  {
    ParseCardLink(world, tags, id, name);
    var key := id.value;
    assert CharaList.LinkKey(id, name) == key;
    assert CharButtons.OpenMatches(cards[i], key);
    BootOpens(HashRouter.FragmentOf(CharaList.BuildHref(world, tags, id, name)), pathname, cards, key, i);
  }

  /** A boot fragment `tab=chars&char=<key>` opens the first card matching `key`, at or before any matching card `i`. */
  lemma BootOpens(frag: string, pathname: string, cards: seq<CharButtons.CharButton>, key: string, i: nat)
    requires HashRouter.ParseHashMulti(frag) == Some(map["tab" := "chars", "char" := key])
    requires key != "" && i < |cards| && CharButtons.OpenMatches(cards[i], key)
    ensures var boot := HashRouter.OpenFromInitialHash(frag, pathname, cards);
      && boot.Booted? && boot.clickCharsTab
      && boot.card.Some? && boot.card.value <= i
      && CharButtons.OpenMatches(cards[boot.card.value], key)
      && boot.address == Some(pathname + "#tab=chars")
  {
    var params := map["tab" := "chars", "char" := key];
    assert HashRouter.Param(params, "char") == Some(key);
    assert HashRouter.Param(params, "tab") == Some("chars");
  }
}

=== FILE: focus_trap.dfy ===
/**
 The key handler of the character dialog (js/tabs.js, js/anday.js): Escape
 closes it and Tab keeps focus inside it by wrapping from the last focusable
 element to the first, and Shift+Tab from the first to the last. Focusable
 elements are numbered in document order; the focused element is given by its
 number, or `None` when it is not one of them.
 */
module FocusTrap {

  import opened JsValues

  /**
   The element Tab moves focus to when the handler steps in (and cancels the
   browser's own move); `None` when the browser's default applies.
   */
  function TrapTab(count: nat, active: Option<nat>, shift: bool): (r: Option<nat>)
    ensures r.Some? ==> r.value < count
    ensures count == 0 ==> r.None?
    ensures count > 0 && shift && active == Some(0) ==> r == Some(count - 1)
    ensures count > 0 && !shift && active == Some(count - 1) ==> r == Some(0)
    ensures r.Some? <==> count > 0 && (if shift then active == Some(0) else active == Some(count - 1))
  {
    if count == 0 then None
    else if shift && active == Some(0) then Some(count - 1)
    else if !shift && active == Some(count - 1) then Some(0)
    else None
  }

  /** What one key press does to the dialog. */
  datatype Effect = Effect(close: bool, focus: Option<nat>)

  /** The keydown listener: nothing while the dialog is hidden. */
  function ModalKey(hidden: bool, key: string, shift: bool, count: nat, active: Option<nat>): (e: Effect)
    ensures hidden ==> e == Effect(false, None)
    ensures e.close <==> !hidden && key == "Escape"
    ensures e.focus.Some? ==> !hidden && key == "Tab" && e.focus.value < count
    ensures !hidden && key == "Tab" ==> e.focus == TrapTab(count, active, shift)
  {
    if hidden then Effect(false, None)
    else Effect(key == "Escape", if key == "Tab" then TrapTab(count, active, shift) else None)
  }

  /** Wrapping forward from the last element and back again returns to it. */
  lemma TrapRoundTrip(count: nat)
    requires count > 0
    ensures TrapTab(count, Some(count - 1), false) == Some(0)
    ensures TrapTab(count, Some(0), true) == Some(count - 1)
    ensures forall i: nat :: 0 < i < count - 1 ==>
      TrapTab(count, Some(i), false).None? && TrapTab(count, Some(i), true).None?
  {
  }
}

=== FILE: hash_router.dfy ===
/**
 The fragment mini-router of the world pages (js/tabs.js and js/anday.js hold
 identical copies): `parseHashMulti` reads `#k=v&k2=v2?k3=v3` into a key/value
 map, the `char=` match picks the card a link points at, and
 `openFromInitialHash` opens that card from the fragment the page was loaded with.
 */
module HashRouter {

  import opened JsValues
  import opened Strings
  import UriComponent
  import CharButtons

  /**
   `location.hash` of an address: from the first `#` to the end, or `""` when
   there is no `#` or nothing follows it.
   */
  function FragmentOf(url: string): (h: string)
    ensures h == "" || (h[0] == '#' && |h| > 1)
    ensures h != "" ==> |h| <= |url| && h == url[|url| - |h|..] && Free(url[..|url| - |h|], {'#'})
    ensures h == "" ==> Free(url, {'#'}) || url[|url| - 1] == '#'
  {
    var head := Split(url, {'#'})[0];
    SplitHead(url, {'#'});
    if |head| == |url| then ""
    else if |head| + 1 == |url| then ""
    else
      var h := url[|head|..];
      assert url[..|url| - |h|] == head;
      h
  }

  /** The fragment of an address whose path has no `#`. */
  lemma FragmentOfJoin(path: string, frag: string)
    requires Free(path, {'#'}) && |frag| > 1 && frag[0] == '#'
    ensures FragmentOf(path + frag) == frag
  {
    SplitFreePrefix(path, '#', frag[1..], {'#'});
    assert path + frag == path + ['#'] + frag[1..];
    assert (path + frag)[|path|..] == frag;
  }

  /** `.replace(/^#/, '')`: at most one leading `#` goes. */
  function StripHash(s: string): (r: string)
    ensures StartsWith(s, "#") ==> s == "#" + r
    ensures !StartsWith(s, "#") ==> r == s
  {
    if StartsWith(s, "#") then
      assert s == "#" + s[1..];
      s[1..]
    else s
  }

  /** `s.split(/[&?]/)` of the fragment without its `#`. */
  function Segments(hash: string): (parts: seq<string>)
    ensures |parts| >= 1
    ensures forall k :: 0 <= k < |parts| ==> Free(parts[k], {'&', '?'})
  {
    Split(StripHash(hash), {'&', '?'})
  }

  /** `const [k, v = ''] = part.split('=')`: the key. */
  function KeyOf(part: string): string
  {
    Split(part, {'='})[0]
  }

  /** `const [k, v = ''] = part.split('=')`: the value, `""` when there is no `=`. */
  function ValueOf(part: string): string
  {
    var kv := Split(part, {'='});
    if |kv| > 1 then kv[1] else ""
  }

  /**
   The key is the text before the first `=`; the value is the text between the
   first and the second `=`, and empty when the segment has no `=`.
   */
  lemma SegmentFields(part: string)
    ensures var k := KeyOf(part);
      && |k| <= |part| && k == part[..|k|] && Free(k, {'='})
      && (|k| == |part| || part[|k|] == '=')
      && (|k| == |part| ==> ValueOf(part) == "")
      && (|k| < |part| ==>
            var rest := part[|k| + 1..];
            var v := ValueOf(part);
            |v| <= |rest| && v == rest[..|v|] && Free(v, {'='}) && (|v| == |rest| || rest[|v|] == '='))
  {
    var kv := Split(part, {'='});
    SplitHead(part, {'='});
    if |kv| > 1 {
      var rest := part[|kv[0]| + 1..];
      SplitHead(rest, {'='});
      assert ValueOf(part) == Split(rest, {'='})[0];
    }
  }

  /** One segment decoded, key first; `None` when `decodeURIComponent` throws. */
  function Entry(part: string): (e: Option<(string, string)>)
    ensures e.Some? <==> UriComponent.Decode(KeyOf(part)).Some? && UriComponent.Decode(ValueOf(part)).Some?
    ensures e.Some? ==> e.value == (UriComponent.Decode(KeyOf(part)).value, UriComponent.Decode(ValueOf(part)).value)
  {
    match UriComponent.Decode(KeyOf(part))
    case None => None
    case Some(k) =>
      match UriComponent.Decode(ValueOf(part))
      case None => None
      case Some(v) => Some((k, v))
  }

  /** The loop of `parseHashMulti` over the segments: empty ones skipped, later keys overwrite. */
  function Collect(parts: seq<string>): Option<map<string, string>>
    decreases |parts|
  {
    if |parts| == 0 then Some(map[])
    else
      var part := parts[|parts| - 1];
      match Collect(parts[..|parts| - 1])
      case None => None
      case Some(out) =>
        if part == "" then Some(out)
        else match Entry(part)
          case None => None
          case Some((k, v)) => Some(out[k := v])
  }

  /**
   `parseHashMulti(hash)`; `None` where it throws `URIError`, which is exactly
   when some non-empty segment fails to decode. Otherwise the key of every
   non-empty segment is in the map.
   */
  function ParseHashMulti(hash: string): (r: Option<map<string, string>>)
    ensures r.Some? <==> AllDecode(Segments(hash))
    ensures r.Some? ==> forall i :: 0 <= i < |Segments(hash)| && Segments(hash)[i] != "" ==>
      Entry(Segments(hash)[i]).Some? && Entry(Segments(hash)[i]).value.0 in r.value
  {
    var parts := Segments(hash);
    CollectDefined(parts);
    if Collect(parts).Some? then
      forall i | 0 <= i < |parts| && parts[i] != ""
        ensures Entry(parts[i]).Some? && Entry(parts[i]).value.0 in Collect(parts).value
      {
        CollectHasKey(parts, i);
      }
      Collect(parts)
    else
      Collect(parts)
  }

  /** Every non-empty segment decodes. */
  predicate AllDecode(parts: seq<string>)
  {
    forall i :: 0 <= i < |parts| && parts[i] != "" ==> Entry(parts[i]).Some?
  }

  /** The parse succeeds exactly when every non-empty segment decodes. */
  lemma {:induction false} CollectDefined(parts: seq<string>)
    ensures Collect(parts).Some? <==> AllDecode(parts)
    decreases |parts|
  {
    if |parts| > 0 {
      var init := parts[..|parts| - 1];
      CollectDefined(init);
      assert forall i :: 0 <= i < |init| ==> init[i] == parts[i];
    }
  }

  /** The key of a non-empty segment is in the map. */
  lemma {:induction false} CollectHasKey(parts: seq<string>, i: nat)
    requires Collect(parts).Some? && i < |parts| && parts[i] != ""
    ensures Entry(parts[i]).Some? && Entry(parts[i]).value.0 in Collect(parts).value
    decreases |parts|
  {
    var init := parts[..|parts| - 1];
    CollectLast(parts);
    if i < |init| {
      assert init[i] == parts[i];
      CollectHasKey(init, i);
    }
  }

  /** One step of the loop: a successful parse extends the parse of the earlier segments. */
  lemma CollectLast(parts: seq<string>)
    requires |parts| > 0 && Collect(parts).Some?
    ensures var init := parts[..|parts| - 1]; var last := parts[|parts| - 1];
      && Collect(init).Some?
      && (last == "" ==> Collect(parts) == Collect(init))
      && (last != "" ==>
            Entry(last).Some? && Collect(parts).value == Collect(init).value[Entry(last).value.0 := Entry(last).value.1])
  {
  }

  /** A segment whose key no later segment repeats gives the key its value: the last one wins. */
  lemma {:induction false} CollectLastWins(parts: seq<string>, i: nat)
    requires Collect(parts).Some? && i < |parts| && parts[i] != "" && Entry(parts[i]).Some?
    requires forall j :: i < j < |parts| && parts[j] != "" ==>
      Entry(parts[j]).Some? && Entry(parts[j]).value.0 != Entry(parts[i]).value.0
    ensures Entry(parts[i]).value.0 in Collect(parts).value
    ensures Collect(parts).value[Entry(parts[i]).value.0] == Entry(parts[i]).value.1
    decreases |parts|
  {
    CollectHasKey(parts, i);
    var init := parts[..|parts| - 1];
    if i < |init| {
      assert init[i] == parts[i];
      forall j | i < j < |init| && init[j] != ""
        ensures Entry(init[j]).Some? && Entry(init[j]).value.0 != Entry(init[i]).value.0
      {
        assert init[j] == parts[j];
      }
      CollectLastWins(init, i);
    }
  }

  /** Every key in the map comes from some non-empty segment, with that segment's value. */
  lemma {:induction false} CollectKeySource(parts: seq<string>, k: string) returns (i: nat)
    requires Collect(parts).Some? && k in Collect(parts).value
    ensures i < |parts| && parts[i] != "" && Entry(parts[i]) == Some((k, Collect(parts).value[k]))
    decreases |parts|
  {
    var init := parts[..|parts| - 1];
    var last := parts[|parts| - 1];
    if last != "" && Entry(last).value.0 == k {
      i := |parts| - 1;
    } else {
      i := CollectKeySource(init, k);
      assert init[i] == parts[i];
    }
  }

  /** `hash.match(/char=([^&]+)/)`: the text after the leftmost `char=` that is followed by something other than `&`. */
  function CharParam(h: string): (r: Option<string>)
    ensures r.Some? ==> r.value != "" && Free(r.value, {'&'})
    decreases |h|
  {
    if |h| == 0 then None
    else if StartsWith(h, "char=") && |h| > 5 && h[5] != '&' then
      var v := Split(h[5..], {'&'})[0];
      SplitHead(h[5..], {'&'});
      assert v[0] == h[5];
      Some(v)
    else CharParam(h[1..])
  }

  /** A `&`-free value followed by nothing or by `&` is the first piece of the split. */
  lemma FreeValueHead(v: string, rest: string)
    requires Free(v, {'&'})
    requires rest == "" || rest[0] == '&'
    ensures Split(v + rest, {'&'})[0] == v
  {
    if rest == "" {
      assert v + rest == v;
      SplitFreePrefix(v, '&', "", {'&'});
    } else {
      assert v + rest == v + ['&'] + rest[1..];
      SplitFreePrefix(v, '&', rest[1..], {'&'});
    }
  }

  /** A leading `char=` with a value is the match. */
  lemma CharParamAtStart(v: string, rest: string)
    requires v != "" && Free(v, {'&'})
    requires rest == "" || rest[0] == '&'
    ensures CharParam("char=" + v + rest) == Some(v)
  {
    var h := "char=" + v + rest;
    assert h[..5] == "char=";
    assert h[5..] == v + rest;
    assert h[5] == v[0];
    FreeValueHead(v, rest);
    CharParamHere(h);
  }

  /** Where `char=` and a value start the text, the match is the value up to the first `&`. */
  lemma CharParamHere(h: string)
    requires StartsWith(h, "char=") && |h| > 5 && h[5] != '&'
    ensures CharParam(h) == Some(Split(h[5..], {'&'})[0])
  {
  }

  /** What the `char=` match after rendering does. */
  datatype LinkOutcome = NoParam | BadEscape | Clicked(index: nat) | NoCard

  /** The first card the rendered-list match accepts. */
  function FirstKeyMatch(cards: seq<CharButtons.CharButton>, key: string): (r: Option<nat>)
    ensures r.Some? ==> r.value < |cards| && CharButtons.KeyMatches(cards[r.value], key)
    ensures r.Some? ==> forall j :: 0 <= j < r.value ==> !CharButtons.KeyMatches(cards[j], key)
    ensures r.None? ==> forall j :: 0 <= j < |cards| ==> !CharButtons.KeyMatches(cards[j], key)
    decreases |cards|
  {
    if |cards| == 0 then None
    else if CharButtons.KeyMatches(cards[0], key) then Some(0)
    else match FirstKeyMatch(cards[1..], key)
      case None => None
      case Some(j) => Some(j + 1)
  }

  /**
   The match after a world page renders its cards (js/tabs.js, js/anday.js):
   a `char=` value is decoded (a bad escape aborts rendering into the error
   message) and the first card whose non-empty id or whose name equals it is clicked.
   */
  function DeepLink(hash: string, cards: seq<CharButtons.CharButton>): (o: LinkOutcome)
    ensures o.NoParam? <==> CharParam(hash).None?
    ensures o.BadEscape? <==> CharParam(hash).Some? && UriComponent.Decode(CharParam(hash).value).None?
    ensures o.Clicked? ==>
      && o.index < |cards|
      && CharButtons.KeyMatches(cards[o.index], UriComponent.Decode(CharParam(hash).value).value)
    ensures o.Clicked? ==>
      forall j :: 0 <= j < o.index ==> !CharButtons.KeyMatches(cards[j], UriComponent.Decode(CharParam(hash).value).value)
    ensures CharParam(hash).Some? && UriComponent.Decode(CharParam(hash).value).Some? ==>
      (o.NoCard? <==>
        forall j :: 0 <= j < |cards| ==> !CharButtons.KeyMatches(cards[j], UriComponent.Decode(CharParam(hash).value).value))
  {
    match CharParam(hash)
    case None => NoParam
    case Some(raw) =>
      match UriComponent.Decode(raw)
      case None => BadEscape
      case Some(key) =>
        match FirstKeyMatch(cards, key)
        case None => NoCard
        case Some(i) => Clicked(i)
  }

  /**
   `tryOpenByChar(id)`: the first card whose id, name or English name equals
   `id`; nothing for a missing or empty id.
   */
  function TryOpenByChar(id: Option<string>, cards: seq<CharButtons.CharButton>): (r: Option<nat>)
    ensures !Truthy(id) ==> r.None?
    ensures r.Some? ==> r.value < |cards| && CharButtons.OpenMatches(cards[r.value], id.value)
    ensures r.Some? ==> forall j :: 0 <= j < r.value ==> !CharButtons.OpenMatches(cards[j], id.value)
    ensures Truthy(id) && r.None? ==> forall j :: 0 <= j < |cards| ==> !CharButtons.OpenMatches(cards[j], id.value)
    decreases |cards|
  {
    if !Truthy(id) || |cards| == 0 then None
    else if CharButtons.OpenMatches(cards[0], id.value) then Some(0)
    else match TryOpenByChar(id, cards[1..])
      case None => None
      case Some(j) => Some(j + 1)
  }

  /** The value `params[key]` reads: `undefined` for a missing key. */
  function Param(params: map<string, string>, key: string): Option<string>
  {
    if key in params then Some(params[key]) else None
  }

  /**
   What `openFromInitialHash` does with the boot fragment: click the character
   tab, open a card now and rewrite the address to `pathname#tab=chars`, or keep
   watching the page for the card to appear.
   */
  datatype Boot =
    | Threw
    | Booted(clickCharsTab: bool, card: Option<nat>, address: Option<string>, watch: bool)

  function OpenFromInitialHash(bootHash: string, pathname: string, cards: seq<CharButtons.CharButton>): (b: Boot)
    ensures b.Threw? <==> ParseHashMulti(bootHash).None?
    ensures b.Booted? ==> (b.clickCharsTab <==> Param(ParseHashMulti(bootHash).value, "tab") == Some("chars"))
    ensures b.Booted? ==> b.card == TryOpenByChar(Param(ParseHashMulti(bootHash).value, "char"), cards)
    ensures b.Booted? ==> (b.address.Some? <==> b.card.Some?) && (b.watch <==> b.card.None?)
    ensures b.Booted? && b.address.Some? ==> b.address.value == pathname + "#tab=chars"
  {
    match ParseHashMulti(bootHash)
    case None => Threw
    case Some(params) =>
      var card := TryOpenByChar(Param(params, "char"), cards);
      Booted(
        Param(params, "tab") == Some("chars"),
        card,
        if card.Some? then Some(pathname + "#tab=chars") else None,
        card.None?)
  }
}

=== FILE: html_escape.dfy ===
/**
 The `esc` helper of the character galleries (js/tabs.js and js/anday.js):
 four global replacements, `&` first, that make text safe inside an HTML
 attribute or element, and the reverse chain of replacements that undoes them.
 */
module HtmlEscape {

  import opened JsValues
  import opened Strings
  import Seqs

  /** The characters `esc` rewrites. */
  predicate Special(c: char)
  {
    c == '&' || c == '<' || c == '>' || c == '"'
  }

  /** The character reference `esc` writes for a special character. */
  function Entity(c: char): (e: string)
    requires Special(c)
    ensures |e| >= 4 && e[0] == '&' && e[|e| - 1] == ';'
    ensures forall i :: 1 <= i < |e| ==> e[i] != '&' && !Special(e[i])
  {
    if c == '&' then "&amp;" else if c == '<' then "&lt;" else if c == '>' then "&gt;" else "&quot;"
  }

  /** `s.replace(/c/g, rep)` for a one-character pattern. */
  function ReplaceChar(s: string, c: char, rep: string): (r: string)
    decreases |s|
  {
    if |s| == 0 then "" else (if s[0] == c then rep else [s[0]]) + ReplaceChar(s[1..], c, rep)
  }

  /**
   `esc(s)`: `(s ?? '').toString()` followed by the four replacements in the
   order the source applies them. The chain is one per-character substitution,
   a missing value gives the empty string, and no `<`, `>` or `"` is left.
   */
  function Esc(s: Option<string>): (r: string)
    ensures r == Escaped(Coalesce(s, ""), {'&', '<', '>', '"'})
    ensures s.None? ==> r == ""
    ensures forall i :: 0 <= i < |r| ==> r[i] != '<' && r[i] != '>' && r[i] != '"'
  {
    var t := Coalesce(s, "");
    EscapedNone(t);
    EscapePass(t, {}, '&');
    assert {} + {'&'} == {'&'};
    EscapePass(t, {'&'}, '<');
    assert {'&'} + {'<'} == {'&', '<'};
    EscapePass(t, {'&', '<'}, '>');
    assert {'&', '<'} + {'>'} == {'&', '<', '>'};
    EscapePass(t, {'&', '<', '>'}, '"');
    assert {'&', '<', '>'} + {'"'} == {'&', '<', '>', '"'};
    EscapedFree(t);
    ReplaceChar(ReplaceChar(ReplaceChar(ReplaceChar(t, '&', "&amp;"), '<', "&lt;"), '>', "&gt;"), '"', "&quot;")
  }

  /**
   The text after the passes for the characters in `done`: those characters are
   written as references, every other character as itself.
   */
  function Escaped(s: string, done: set<char>): string
    decreases |s|
  {
    if |s| == 0 then ""
    else (if s[0] in done && Special(s[0]) then Entity(s[0]) else [s[0]]) + Escaped(s[1..], done)
  }

  lemma {:induction false} ReplaceCharAppend(a: string, b: string, c: char, rep: string)
    ensures ReplaceChar(a + b, c, rep) == ReplaceChar(a, c, rep) + ReplaceChar(b, c, rep)
    decreases |a|
  {
    if |a| == 0 {
      assert a + b == b;
    } else {
      assert (a + b)[0] == a[0];
      assert (a + b)[1..] == a[1..] + b;
      ReplaceCharAppend(a[1..], b, c, rep);
    }
  }

  lemma {:induction false} ReplaceCharAbsent(a: string, c: char, rep: string)
    requires forall i :: 0 <= i < |a| ==> a[i] != c
    ensures ReplaceChar(a, c, rep) == a
    decreases |a|
  {
    if |a| > 0 {
      ReplaceCharAbsent(a[1..], c, rep);
    }
  }

  /** One replacement pass adds one character to the set already written as references. */
  lemma {:induction false} EscapePass(s: string, done: set<char>, c: char)
    requires Special(c) && c !in done
    requires if c == '&' then done == {} else '&' in done
    ensures ReplaceChar(Escaped(s, done), c, Entity(c)) == Escaped(s, done + {c})
    decreases |s|
  {
    if |s| > 0 {
      var head := if s[0] in done && Special(s[0]) then Entity(s[0]) else [s[0]];
      ReplaceCharAppend(head, Escaped(s[1..], done), c, Entity(c));
      EscapePass(s[1..], done, c);
      if s[0] in done && Special(s[0]) {
        ReplaceCharAbsent(head, c, Entity(c));
      } else {
        assert ReplaceChar(head, c, Entity(c)) == if s[0] == c then Entity(c) else head;
      }
    }
  }

  lemma {:induction false} EscapedNone(s: string)
    ensures Escaped(s, {}) == s
    decreases |s|
  {
    if |s| > 0 {
      EscapedNone(s[1..]);
      assert s == [s[0]] + s[1..];
    }
  }

  lemma {:induction false} EscapedFree(s: string)
    ensures forall i :: 0 <= i < |Escaped(s, {'&', '<', '>', '"'})| ==>
      var c := Escaped(s, {'&', '<', '>', '"'})[i]; c != '<' && c != '>' && c != '"'
    decreases |s|
  {
    if |s| > 0 {
      EscapedFree(s[1..]);
    }
  }

  /** `s.replace(/pat/g, rep)` for a literal pattern: leftmost, non-overlapping matches. */
  function ReplaceText(s: string, pat: string, rep: string): string
    requires |pat| > 0
    decreases |s|
  {
    if |s| == 0 then ""
    else if StartsWith(s, pat) then rep + ReplaceText(s[|pat|..], pat, rep)
    else [s[0]] + ReplaceText(s[1..], pat, rep)
  }

  /** The reverse chain: `&quot;`, `&gt;`, `&lt;`, then `&amp;` back to their characters. */
  function Unescape(s: string): string
  {
    ReplaceText(ReplaceText(ReplaceText(ReplaceText(s, "&quot;", "\""), "&gt;", ">"), "&lt;", "<"), "&amp;", "&")
  }

  lemma {:induction false} ReplaceTextSkip(u: string, rest: string, pat: string, rep: string)
    requires |pat| > 0 && pat[0] == '&'
    requires forall i :: 0 <= i < |u| ==> u[i] != '&'
    ensures ReplaceText(u + rest, pat, rep) == u + ReplaceText(rest, pat, rep)
    decreases |u|
  {
    if |u| > 0 {
      assert !StartsWith(u + rest, pat) by {
        if |pat| <= |u + rest| {
          assert (u + rest)[..|pat|][0] == u[0] != pat[0];
        }
      }
      assert (u + rest)[1..] == u[1..] + rest;
      ReplaceTextSkip(u[1..], rest, pat, rep);
      assert u == [u[0]] + u[1..];
    } else {
      assert u + rest == rest;
    }
  }

  /** The text after the reverse passes for the characters in `undone`. */
  function Partly(s: string, undone: set<char>): string
    decreases |s|
  {
    if |s| == 0 then ""
    else (if Special(s[0]) && s[0] !in undone then Entity(s[0]) else [s[0]]) + Partly(s[1..], undone)
  }

  /** A reference is replaced where the pattern names it. */
  lemma ReplaceTextMatch(e: string, tail: string, rep: string)
    requires |e| > 0
    ensures ReplaceText(e + tail, e, rep) == rep + ReplaceText(tail, e, rep)
  {
    assert (e + tail)[..|e|] == e;
    assert (e + tail)[|e|..] == tail;
  }

  /** References of different characters differ in the character after `&`. */
  lemma EntityNamesDiffer(d: char, c: char)
    requires Special(d) && Special(c) && d != c
    ensures Entity(d)[1] != Entity(c)[1]
  {
  }

  /** A reference to another character is passed over whole: the two differ right after `&`. */
  lemma ReplaceTextOther(d: char, c: char, tail: string, rep: string)
    requires Special(d) && Special(c) && d != c
    ensures ReplaceText(Entity(d) + tail, Entity(c), rep) == Entity(d) + ReplaceText(tail, Entity(c), rep)
  {
    var h, e := Entity(d), Entity(c);
    EntityNamesDiffer(d, c);
    assert !StartsWith(h + tail, e) by {
      if |e| <= |h + tail| {
        assert (h + tail)[..|e|][1] == h[1];
      }
    }
    assert ReplaceText(h + tail, e, rep) == [h[0]] + ReplaceText((h + tail)[1..], e, rep);
    assert (h + tail)[1..] == h[1..] + tail;
    ReplaceTextSkip(h[1..], tail, e, rep);
    assert h == [h[0]] + h[1..];
    Seqs.AppendAssoc([h[0]], h[1..], ReplaceText(tail, e, rep));
  }

  /** One reverse pass turns the references of one more character back into the character. */
  lemma {:induction false} UnescapePass(s: string, undone: set<char>, c: char)
    requires Special(c) && c !in undone && '&' !in undone
    ensures ReplaceText(Partly(s, undone), Entity(c), [c]) == Partly(s, undone + {c})
    decreases |s|
  {
    if |s| > 0 {
      var tail := Partly(s[1..], undone);
      UnescapePass(s[1..], undone, c);
      if s[0] == c {
        ReplaceTextMatch(Entity(c), tail, [c]);
      } else if Special(s[0]) && s[0] !in undone {
        ReplaceTextOther(s[0], c, tail, [c]);
      } else {
        ReplaceTextSkip([s[0]], tail, Entity(c), [c]);
      }
    }
  }

  lemma {:induction false} PartlyAll(s: string)
    ensures Partly(s, {'"', '>', '<', '&'}) == s
    decreases |s|
  {
    if |s| > 0 {
      PartlyAll(s[1..]);
      assert s == [s[0]] + s[1..];
    }
  }

  lemma {:induction false} PartlyNoneIsEscaped(s: string)
    ensures Partly(s, {}) == Escaped(s, {'&', '<', '>', '"'})
    decreases |s|
  {
    if |s| > 0 {
      PartlyNoneIsEscaped(s[1..]);
    }
  }

  /** Undoing the references in the order `&quot;`, `&gt;`, `&lt;`, `&amp;` recovers the input of `esc`. */
  lemma UnescapeEsc(s: Option<string>)
    ensures Unescape(Esc(s)) == Coalesce(s, "")
  {
    var t := Coalesce(s, "");
    PartlyNoneIsEscaped(t);
    UnescapePass(t, {}, '"');
    assert {} + {'"'} == {'"'};
    UnescapePass(t, {'"'}, '>');
    assert {'"'} + {'>'} == {'"', '>'};
    UnescapePass(t, {'"', '>'}, '<');
    assert {'"', '>'} + {'<'} == {'"', '>', '<'};
    UnescapePass(t, {'"', '>', '<'}, '&');
    assert {'"', '>', '<'} + {'&'} == {'"', '>', '<', '&'};
    PartlyAll(t);
  }
}

=== FILE: js_values.dfy ===
/**
 JavaScript values as the site's scripts see them in parsed JSON and the DOM:
 an optional field (absent, `null` or `undefined` is `None`) and the truthiness
 rules of `||`, `??` and `String(x)` on such fields.
 */
module JsValues {

  /** A field that may be missing from a JSON record or a DOM attribute. */
  datatype Option<+T> = None | Some(value: T)

  /** `x || d` on an optional string: the empty string is falsy like a missing value. */
  function Or(x: Option<string>, d: string): (r: string)
    ensures x.Some? && x.value != "" ==> r == x.value
    ensures x.None? || x.value == "" ==> r == d
  {
    match x
    case Some(s) => if s != "" then s else d
    case None => d
  }

  /** `x || ''`: the field's text, or the empty string when it is missing. */
  function OrEmpty(x: Option<string>): (r: string)
    ensures x.Some? ==> r == x.value
    ensures x.None? ==> r == ""
  {
    Or(x, "")
  }

  /**
   `x ?? d`: only a missing value falls back; the empty string is kept. On an
   array field it is also `x || d`, since every array is truthy.
   */
  function Coalesce<T>(x: Option<T>, d: T): (r: T)
    ensures x.Some? ==> r == x.value
    ensures x.None? ==> r == d
  {
    match x
    case Some(s) => s
    case None => d
  }

  /** `String(x)`: a missing value prints as "undefined". */
  function StringOf(x: Option<string>): (r: string)
    ensures x.Some? ==> r == x.value
    ensures x.None? ==> r == "undefined"
  {
    Coalesce(x, "undefined")
  }

  /** True when the field holds a non-empty string (JS truthiness of a string field). */
  predicate Truthy(x: Option<string>)
  {
    x.Some? && x.value != ""
  }
}

=== FILE: lazy_image.dfy ===
/**
 The lazily loaded card images of the character list (js/charalist.js): an
 image starts with its address parked in `data-src`, is hydrated once (the
 `data-hydrated` flag) when it becomes visible, and on a load error is retried
 at most twice, each retry removing `src` and hydrating again after a delay.
 The timers and the intersection observer are not modelled; a retry returns
 the delay it schedules.
 */
module LazyImage {

  import opened JsValues

  /** The image's state: `data-src`, the hydrated flag, the `src` attribute and `data-tries`. */
  datatype Img = Img(dataSrc: string, hydrated: bool, src: Option<string>, tries: nat)

  /**
   `makeImg(src, alt)`: the address goes into `data-src`; without an
   intersection observer the image is hydrated at once.
   */
  function MakeImg(src: Option<string>, observer: bool): (img: Img)
    ensures img.dataSrc == Or(src, "") && img.tries == 0
    ensures img.hydrated <==> !observer
    ensures observer ==> img.src.None?
    ensures !observer ==> (img.src.Some? <==> Truthy(src))
    ensures img.src.Some? ==> img.src == src
  {
    var img := Img(Or(src, ""), false, None, 0);
    if observer then img else Hydrate(img)
  }

  /**
   `hydrateImg(img)`: does nothing once the flag is set; otherwise sets the
   flag and copies a non-empty `data-src` into `src`.
   */
  function Hydrate(img: Img): (r: Img)
    ensures r.hydrated
    ensures r.dataSrc == img.dataSrc && r.tries == img.tries
    ensures img.hydrated ==> r == img
    ensures !img.hydrated && img.dataSrc != "" ==> r.src == Some(img.dataSrc)
    ensures !img.hydrated && img.dataSrc == "" ==> r.src == img.src
  {
    if img.hydrated then img
    else
      var flagged := img.(hydrated := true);
      if flagged.dataSrc == "" then flagged else flagged.(src := Some(flagged.dataSrc))
  }

  /** Hydrating is one-shot: a second call changes nothing. */
  lemma HydrateOnce(img: Img)
    ensures Hydrate(Hydrate(img)) == Hydrate(img)
  {
  }

  /** What `retryImg` leaves behind: the new state and the delay it schedules, if any. */
  datatype Retry = Retry(img: Img, delay: Option<nat>)

  /** The most retries of one image. */
  const MaxTries: nat := 2

  /**
   `retryImg(img)`: at `MaxTries` tries it gives up; below that it counts one
   more try and schedules the reload after `300 * tries` milliseconds (the
   new count).
   */
  function RetryImg(img: Img): (r: Retry)
    ensures r.img.dataSrc == img.dataSrc && r.img.hydrated == img.hydrated && r.img.src == img.src
    ensures r.delay.Some? <==> img.tries < MaxTries
    ensures r.delay.Some? ==> r.img.tries == img.tries + 1 && r.delay.value == 300 * r.img.tries
    ensures r.delay.None? ==> r.img == img
  {
    if img.tries >= MaxTries then Retry(img, None)
    else Retry(img.(tries := img.tries + 1), Some(300 * (img.tries + 1)))
  }

  /** The scheduled reload as written: remove `src`, then call `hydrateImg`. */
  function Reload(img: Img): (r: Img)
    ensures r.dataSrc == img.dataSrc && r.tries == img.tries && r.hydrated
    ensures img.hydrated ==> r.src.None?
  {
    Hydrate(img.(src := None))
  }

  /**
   The reload as intended: clearing the flag along with `src` lets the second
   `hydrateImg` call put the address back.
   */
  function ReloadFixed(img: Img): (r: Img)
    ensures r.dataSrc == img.dataSrc && r.tries == img.tries && r.hydrated
    ensures img.dataSrc != "" ==> r.src == Some(img.dataSrc)
    ensures img.dataSrc == "" ==> r.src.None?
  {
    Hydrate(img.(src := None, hydrated := false))
  }

  /**
   An `error` event: `retryImg` and, when it scheduled one, the reload once
   the timers have run. `fixed` selects the intended reload.
   */
  function OnError(img: Img, fixed: bool): (r: Img)
    ensures r.dataSrc == img.dataSrc
    ensures img.tries < MaxTries ==> r.tries == img.tries + 1
    ensures img.tries >= MaxTries ==> r == img
  {
    var step := RetryImg(img);
    if step.delay.None? then step.img
    else if fixed then ReloadFixed(step.img) else Reload(step.img)
  }

  /** `n` error events in a row. */
  function Errors(img: Img, n: nat, fixed: bool): Img
    decreases n
  {
    if n == 0 then img else Errors(OnError(img, fixed), n - 1, fixed)
  }

  /** However many errors arrive, an image is retried at most `MaxTries` times. */
  lemma {:induction false} ErrorsCapped(img: Img, n: nat, fixed: bool)
    requires img.tries <= MaxTries
    ensures Errors(img, n, fixed).tries == if img.tries + n <= MaxTries then img.tries + n else MaxTries
    ensures Errors(img, n, fixed).dataSrc == img.dataSrc
    decreases n
  {
    if n > 0 {
      ErrorsCapped(OnError(img, fixed), n - 1, fixed);
    }
  }

  /** A fresh image's retries wait 300 ms and then 600 ms; a third error schedules nothing. */
  lemma RetryDelays(img: Img)
    requires img.tries == 0
    ensures RetryImg(img).delay == Some(300)
    ensures RetryImg(RetryImg(img).img).delay == Some(600)
    ensures RetryImg(RetryImg(RetryImg(img).img).img).delay.None?
  {
  }

  /**
   As written, an error on a hydrated image with an address leaves it without
   `src` after the retry: the flag is still set, so the reload's
   `hydrateImg` returns at once.
   */
  lemma RetryLosesSource(img: Img)
    requires img.hydrated && img.dataSrc != "" && img.tries < MaxTries
    ensures OnError(img, false).src.None?
    ensures OnError(img, true).src == Some(img.dataSrc)
  {
  }

  /** With the intended reload, an image that has an address has it in `src` after every error. */
  lemma {:induction false} ErrorsKeepSource(img: Img, n: nat)
    requires img.dataSrc != "" && img.src == Some(img.dataSrc)
    ensures Errors(img, n, true).src == Some(img.dataSrc)
    decreases n
  {
    if n > 0 {
      ErrorsKeepSource(OnError(img, true), n - 1);
    }
  }
}

=== FILE: list_pages.dfy ===
/**
 The logic the story shelf (js/shelf.js) and the blog index (js/blog-list.js)
 share: the newest-first order, the tag filter, the tag union behind the tab
 row, the empty-state flag, and the tab row with its `aria-selected` marks.
 Items are of any type; the caller supplies an item's date and tag list
 (`x.tags || []`).
 */
module ListPages {

  import opened JsValues
  import opened Seqs

  /**
   `list.slice().sort((a, b) => String(b.date).localeCompare(String(a.date)))`
   with code-point order: a reordering of the list, latest date first.
   */
  function Newest<T>(list: seq<T>, dateOf: T -> Option<string>): (r: seq<T>)
    ensures multiset(r) == multiset(list)
    ensures forall i, j :: 0 <= i < j < |r| ==> LexLe(StringOf(dateOf(r[j])), StringOf(dateOf(r[i])))
  {
    SortDesc(list, x => StringOf(dateOf(x)))
  }

  /** The first item of the ordered list has a date at least that of every item. */
  lemma NewestFirst<T>(list: seq<T>, dateOf: T -> Option<string>, x: T)
    requires x in list
    ensures |Newest(list, dateOf)| > 0
    ensures LexLe(StringOf(dateOf(x)), StringOf(dateOf(Newest(list, dateOf)[0])))
  {
    var r := Newest(list, dateOf);
    assert x in multiset(list);
    assert x in r;
    var j :| 0 <= j < |r| && r[j] == x;
    if j == 0 {
      LexLeRefl(StringOf(dateOf(x)));
    }
  }

  lemma {:induction false} LexLeRefl(a: string)
    ensures LexLe(a, a)
    decreases |a|
  {
    if |a| > 0 {
      LexLeRefl(a[1..]);
    }
  }

  /** Each item's key is at most that of every item before it. */
  predicate Descending<T>(xs: seq<T>, key: T -> string)
  {
    forall i, j :: 0 <= i < j < |xs| ==> LexLe(key(xs[j]), key(xs[i]))
  }

  /** Every element of a subsequence is an element of the whole. */
  lemma {:induction false} SubseqIn<T>(a: seq<T>, b: seq<T>)
    requires IsSubseq(a, b)
    ensures forall k :: 0 <= k < |a| ==> a[k] in b
    decreases |b|
  {
    if |a| > 0 {
      if a[0] == b[0] && IsSubseq(a[1..], b[1..]) {
        SubseqIn(a[1..], b[1..]);
        forall k | 0 <= k < |a| ensures a[k] in b {
          if k > 0 {
            assert a[k] == a[1..][k - 1];
            assert a[k] in b[1..];
          }
        }
      } else {
        SubseqIn(a, b[1..]);
        forall k | 0 <= k < |a| ensures a[k] in b {
          assert a[k] in b[1..];
        }
      }
    }
  }

  /** Counts that keep exactly the tagged items give membership of exactly the tagged items. */
  lemma TaggedMembers<T>(shown: seq<T>, list: seq<T>, tag: string, tagsOf: T -> seq<string>)
    requires forall x :: multiset(shown)[x] == if tag in tagsOf(x) then multiset(list)[x] else 0
    ensures forall x :: x in shown <==> x in list && tag in tagsOf(x)
  {
    forall x ensures x in shown <==> x in list && tag in tagsOf(x) {
      assert x in shown <==> multiset(shown)[x] > 0;
      assert x in list <==> multiset(list)[x] > 0;
    }
  }

  /** Keeping some items of a list in their order keeps it descending. */
  lemma {:induction false} SubseqDescending<T>(a: seq<T>, b: seq<T>, key: T -> string)
    requires IsSubseq(a, b) && Descending(b, key)
    ensures Descending(a, key)
    decreases |b|
  {
    if |a| > 0 {
      assert Descending(b[1..], key) by {
        forall i, j | 0 <= i < j < |b[1..]| ensures LexLe(key(b[1..][j]), key(b[1..][i])) {
          assert b[1..][i] == b[i + 1] && b[1..][j] == b[j + 1];
        }
      }
      if a[0] == b[0] && IsSubseq(a[1..], b[1..]) {
        SubseqDescending(a[1..], b[1..], key);
        SubseqIn(a[1..], b[1..]);
        forall i, j | 0 <= i < j < |a| ensures LexLe(key(a[j]), key(a[i])) {
          assert a[j] == a[1..][j - 1];
          if i == 0 {
            var m :| 0 <= m < |b[1..]| && b[1..][m] == a[j];
            assert b[m + 1] == a[j];
          } else {
            assert a[i] == a[1..][i - 1];
          }
        }
      } else {
        SubseqDescending(a, b[1..], key);
      }
    }
  }

  /**
   `applyFilter(tag)`: every item for the empty tag; otherwise every copy of
   each item whose tags include the tag, in the original order.
   */
  function ApplyFilter<T(==,!new)>(all: seq<T>, tag: string, tagsOf: T -> seq<string>): (r: seq<T>)
    ensures tag == "" ==> r == all
    ensures tag != "" ==> forall x :: x in r <==> x in all && tag in tagsOf(x)
    ensures tag != "" ==> forall x :: multiset(r)[x] == if tag in tagsOf(x) then multiset(all)[x] else 0
    ensures IsSubseq(r, all)
  {
    if tag == "" then
      FilterSpec(all, x => true);
      all
    else
      FilterSpec(all, x => tag in tagsOf(x));
      FilterCount(all, x => tag in tagsOf(x));
      Filter(all, x => tag in tagsOf(x))
  }

  /**
   The tags of the tab row: each tag of any item once. The page then sorts
   them by Japanese collation, which is not modelled; this is first-seen order.
   */
  function TagUnion<T>(all: seq<T>, tagsOf: T -> seq<string>): (r: seq<string>)
    ensures NoDup(r)
  {
    Dedup(Flatten(seq(|all|, i requires 0 <= i < |all| => tagsOf(all[i]))))
  }

  /** A tag is in the union exactly when some item carries it. */
  lemma TagUnionMembers<T>(all: seq<T>, tagsOf: T -> seq<string>, t: string)
    ensures t in TagUnion(all, tagsOf) <==> exists i :: 0 <= i < |all| && t in tagsOf(all[i])
  {
    var lists := seq(|all|, i requires 0 <= i < |all| => tagsOf(all[i]));
    var flat := Flatten(lists);
    FlattenMember(lists, t);
    if t in flat {
      var k :| 0 <= k < |lists| && t in lists[k];
      assert t in tagsOf(all[k]);
    }
    if exists i :: 0 <= i < |all| && t in tagsOf(all[i]) {
      var i :| 0 <= i < |all| && t in tagsOf(all[i]);
      assert t in lists[i];
    }
  }

  /** `#empty` is hidden exactly when something is listed. */
  function EmptyHidden<T>(shown: seq<T>): (hidden: bool)
    ensures hidden <==> shown != []
  {
    |shown| != 0
  }

  /**
   The empty state shows exactly when there is nothing at all, or a tag is
   selected that no item carries.
   */
  lemma EmptyStateIff<T(!new)>(all: seq<T>, tag: string, tagsOf: T -> seq<string>)
    ensures !EmptyHidden(ApplyFilter(all, tag, tagsOf)) <==> all == [] || (tag != "" && tag !in TagUnion(all, tagsOf))
  {
    var r := ApplyFilter(all, tag, tagsOf);
    TagUnionMembers(all, tagsOf, tag);
    if tag != "" && tag in TagUnion(all, tagsOf) {
      var i :| 0 <= i < |all| && tag in tagsOf(all[i]);
      assert all[i] in r;
    }
    if tag != "" && r != [] {
      assert r[0] in r;
      var i :| 0 <= i < |all| && all[i] == r[0];
      assert tag in tagsOf(all[i]);
    }
  }

  /** A tab button: its text, its value and whether `aria-selected` is "true". */
  datatype TabButton = TabButton(text: string, value: string, selected: bool)

  /** `mk(label, value)`: an empty caption shows the all-items text. */
  function MakeTab(caption: string, value: string, allLabel: string, current: string): (b: TabButton)
  {
    TabButton(Or(Some(caption), allLabel), value, value == current)
  }

  /**
   `renderTabs(tags, current)`: the all-items button with value `""`, then one
   button per tag; a button is selected when its value is the current tag.
   */
  function RenderTabs(allLabel: string, tags: seq<string>, current: string): (r: seq<TabButton>)
    ensures |r| == |tags| + 1
    ensures r[0].value == "" && (r[0].selected <==> current == "")
    ensures allLabel != "" ==> r[0].text == allLabel
    ensures forall k :: 0 <= k < |tags| ==> r[k + 1].value == tags[k] && (r[k + 1].selected <==> tags[k] == current)
    ensures forall k :: 0 <= k < |tags| && tags[k] != "" ==> r[k + 1].text == tags[k]
  {
    [MakeTab(allLabel, "", allLabel, current)]
      + seq(|tags|, k requires 0 <= k < |tags| => MakeTab(tags[k], tags[k], allLabel, current))
  }

  /** Exactly one button of the row is selected. */
  predicate OneSelected(tabs: seq<TabButton>)
  {
    exists k :: 0 <= k < |tabs| && tabs[k].selected && forall j :: 0 <= j < |tabs| && tabs[j].selected ==> j == k
  }

  /**
   With distinct non-empty tags, exactly one tab is selected when the current
   tag is empty or one of the tags, and none is otherwise.
   */
  lemma OneTabSelected(allLabel: string, tags: seq<string>, current: string)
    requires NoDup(tags) && "" !in tags
    ensures OneSelected(RenderTabs(allLabel, tags, current)) <==> current == "" || current in tags
    ensures !(current == "" || current in tags) ==> forall j :: 0 <= j < |tags| + 1 ==> !RenderTabs(allLabel, tags, current)[j].selected
  {
    var r := RenderTabs(allLabel, tags, current);
    if current == "" {
      forall j | 0 < j < |r| ensures !r[j].selected {
        assert tags[j - 1] != "";
      }
      assert r[0].selected;
    } else if current in tags {
      var k :| 0 <= k < |tags| && tags[k] == current;
      forall j | 0 <= j < |r| && j != k + 1 ensures !r[j].selected {
        if j > 0 {
          assert tags[j - 1] != current;
        }
      }
      assert r[k + 1].selected;
    } else {
      forall j | 0 <= j < |r| ensures !r[j].selected {
        if j > 0 {
          assert tags[j - 1] != current;
        }
      }
    }
  }

  /**
   The re-marking after a click or a history step: a button is selected when
   its text is the tag, or the all-items text for the empty tag.
   */
  function Remark(tabs: seq<TabButton>, tag: string, allLabel: string): (r: seq<TabButton>)
    ensures |r| == |tabs|
    ensures forall k :: 0 <= k < |tabs| ==>
      r[k].text == tabs[k].text && r[k].value == tabs[k].value && (r[k].selected <==> tabs[k].text == Or(Some(tag), allLabel))
  {
    seq(|tabs|, k requires 0 <= k < |tabs| => tabs[k].(selected := tabs[k].text == Or(Some(tag), allLabel)))
  }

  /**
   Re-marking by text agrees with a fresh render for the new tag, as long as
   no tag reads like the all-items button and the new tag is not that text.
   */
  lemma RemarkAgrees(allLabel: string, tags: seq<string>, current: string, tag: string)
    requires allLabel != "" && "" !in tags && allLabel !in tags && tag != allLabel
    ensures Remark(RenderTabs(allLabel, tags, current), tag, allLabel) == RenderTabs(allLabel, tags, tag)
  {
    var r := RenderTabs(allLabel, tags, current);
    var a := Remark(r, tag, allLabel);
    var b := RenderTabs(allLabel, tags, tag);
    var marked := Or(Some(tag), allLabel);
    assert marked == if tag == "" then allLabel else tag;
    forall k | 0 <= k < |a| ensures a[k] == b[k] {
      assert a[k].text == r[k].text && a[k].value == r[k].value && (a[k].selected <==> r[k].text == marked);
      if k == 0 {
        assert r[0].text == allLabel && b[0].text == allLabel;
      } else {
        var t := tags[k - 1];
        assert t in tags;
        assert r[k].text == t && r[k].value == t && b[k].text == t && b[k].value == t;
        assert b[k].selected <==> t == tag;
      }
    }
  }

  /** The `tag` query parameter a tab click writes: set for a tag, deleted for the all-items tab. */
  function TagParam(value: string): (p: Option<string>)
    ensures p.None? <==> value == ""
    ensures Or(p, "") == value
  {
    if value != "" then Some(value) else None
  }

  /** What the page shows: the tab row, the listed items and whether `#empty` is hidden. */
  datatype View<T> = View(tabs: seq<TabButton>, shown: seq<T>, emptyHidden: bool)

  /**
   `init()` once the list has arrived: the list in newest-first order, the
   tab row for the tag union, and the items for the `?tag=` parameter.
   */
  function Init<T(==,!new)>(allLabel: string, list: seq<T>, dateOf: T -> Option<string>,
                           tagsOf: T -> seq<string>, tagParam: Option<string>): (v: View<T>)
    ensures v.emptyHidden <==> v.shown != []
    ensures v.tabs == RenderTabs(allLabel, TagUnion(Newest(list, dateOf), tagsOf), Or(tagParam, ""))
    ensures v.shown == ApplyFilter(Newest(list, dateOf), Or(tagParam, ""), tagsOf)
    ensures Descending(v.shown, x => StringOf(dateOf(x)))
    ensures !Truthy(tagParam) ==> multiset(v.shown) == multiset(list)
    ensures Truthy(tagParam) ==> forall x ::
      multiset(v.shown)[x] == if tagParam.value in tagsOf(x) then multiset(list)[x] else 0
  {
    var all := Newest(list, dateOf);
    var tag := Or(tagParam, "");
    var shown := ApplyFilter(all, tag, tagsOf);
    SubseqDescending(shown, all, x => StringOf(dateOf(x)));
    View(RenderTabs(allLabel, TagUnion(all, tagsOf), tag), shown, EmptyHidden(shown))
  }

  /**
   A tab click or a history step to `tag`: the tabs re-marked by their text
   and the items for the tag.
   */
  function Navigate<T(==,!new)>(allLabel: string, all: seq<T>, tagsOf: T -> seq<string>,
                               tabs: seq<TabButton>, tag: string): (v: View<T>)
    ensures v.tabs == Remark(tabs, tag, allLabel)
    ensures v.emptyHidden <==> v.shown != []
    ensures v.shown == ApplyFilter(all, tag, tagsOf)
    ensures tag == "" ==> v.shown == all
    ensures tag != "" ==> forall x :: multiset(v.shown)[x] == if tag in tagsOf(x) then multiset(all)[x] else 0
    ensures IsSubseq(v.shown, all)
  {
    var shown := ApplyFilter(all, tag, tagsOf);
    View(Remark(tabs, tag, allLabel), shown, EmptyHidden(shown))
  }

  /**
   Clicking a tab, or stepping through history to the address a click wrote,
   shows what loading the page at that address shows, as long as no item has
   an empty tag or one that reads like the all-items button.
   */
  lemma NavigateLikeReload<T(!new)>(allLabel: string, list: seq<T>, dateOf: T -> Option<string>,
                                      tagsOf: T -> seq<string>, tagParam: Option<string>, tag: string)
    requires allLabel != "" && tag != allLabel
    requires forall i :: 0 <= i < |list| ==> "" !in tagsOf(list[i]) && allLabel !in tagsOf(list[i])
    ensures Navigate(allLabel, Newest(list, dateOf), tagsOf, Init(allLabel, list, dateOf, tagsOf, tagParam).tabs, tag)
         == Init(allLabel, list, dateOf, tagsOf, TagParam(tag))
  {
    var all := Newest(list, dateOf);
    var tags := TagUnion(all, tagsOf);
    TagUnionMembers(all, tagsOf, "");
    TagUnionMembers(all, tagsOf, allLabel);
    forall i | 0 <= i < |all| ensures "" !in tagsOf(all[i]) && allLabel !in tagsOf(all[i]) {
      assert all[i] in multiset(list);
    }
    RemarkAgrees(allLabel, tags, Or(tagParam, ""), tag);
  }
}

=== FILE: seqs.dfy ===
/**
 Sequence operations the list pages and the character catalogue share:
 `filter`, flattening, the insertion-ordered union a JavaScript `Set` builds,
 and a newest-first sort on a string key.
 */
module Seqs {

  /** `xs.filter(f)` */
  function Filter<T>(xs: seq<T>, f: T -> bool): (r: seq<T>)
    ensures |r| <= |xs|
    ensures forall k :: 0 <= k < |r| ==> f(r[k])
    decreases |xs|
  {
    if |xs| == 0 then []
    else (if f(xs[0]) then [xs[0]] else []) + Filter(xs[1..], f)
  }

  /** `a` is `b` with some elements deleted and the rest kept in order. */
  predicate IsSubseq<T(==)>(a: seq<T>, b: seq<T>)
    decreases |b|
  {
    |a| == 0 || (|b| > 0 && ((a[0] == b[0] && IsSubseq(a[1..], b[1..])) || IsSubseq(a, b[1..])))
  }

  /** Filtering keeps exactly the elements that pass, in their original order. */
  lemma FilterSpec<T>(xs: seq<T>, f: T -> bool)
    ensures forall x :: x in Filter(xs, f) <==> x in xs && f(x)
    ensures IsSubseq(Filter(xs, f), xs)
    ensures (forall k :: 0 <= k < |xs| ==> f(xs[k])) ==> Filter(xs, f) == xs
  {
    FilterMember(xs, f);
    FilterSubseq(xs, f);
    FilterAll(xs, f);
  }

  lemma {:induction false} FilterMember<T>(xs: seq<T>, f: T -> bool)
    ensures forall x :: x in Filter(xs, f) <==> x in xs && f(x)
    decreases |xs|
  {
    if |xs| > 0 {
      FilterMember(xs[1..], f);
      assert Filter(xs, f) == (if f(xs[0]) then [xs[0]] else []) + Filter(xs[1..], f);
      assert xs == [xs[0]] + xs[1..];
    }
  }

  lemma {:induction false} FilterSubseq<T>(xs: seq<T>, f: T -> bool)
    ensures IsSubseq(Filter(xs, f), xs)
    decreases |xs|
  {
    if |xs| > 0 {
      FilterSubseq(xs[1..], f);
      var r := Filter(xs, f);
      if f(xs[0]) {
        assert r == [xs[0]] + Filter(xs[1..], f);
        assert r[1..] == Filter(xs[1..], f);
      } else {
        assert r == Filter(xs[1..], f);
      }
    }
  }

  lemma {:induction false} FilterAll<T>(xs: seq<T>, f: T -> bool)
    ensures (forall k :: 0 <= k < |xs| ==> f(xs[k])) ==> Filter(xs, f) == xs
    decreases |xs|
  {
    if |xs| > 0 {
      FilterAll(xs[1..], f);
      if forall k :: 0 <= k < |xs| ==> f(xs[k]) {
        assert forall k :: 0 <= k < |xs[1..]| ==> f(xs[1..][k]) by {
          forall k | 0 <= k < |xs[1..]| ensures f(xs[1..][k]) {
            assert xs[1..][k] == xs[k + 1];
          }
        }
        assert xs == [xs[0]] + xs[1..];
      }
    }
  }

  /** Filtering keeps every copy of an element that passes and none of one that fails. */
  lemma {:induction false} FilterCount<T>(xs: seq<T>, f: T -> bool)
    ensures forall x :: multiset(Filter(xs, f))[x] == if f(x) then multiset(xs)[x] else 0
    decreases |xs|
  {
    if |xs| > 0 {
      FilterCount(xs[1..], f);
      var head := if f(xs[0]) then [xs[0]] else [];
      assert Filter(xs, f) == head + Filter(xs[1..], f);
      assert multiset(Filter(xs, f)) == multiset(head) + multiset(Filter(xs[1..], f));
      assert xs == [xs[0]] + xs[1..];
      assert multiset(xs) == multiset{xs[0]} + multiset(xs[1..]);
    }
  }

  /** The three parts of `a + b + c` are found again by slicing at their lengths. */
  lemma ConcatParts<T>(a: seq<T>, b: seq<T>, c: seq<T>)
    ensures (a + b + c)[..|a|] == a
    ensures (a + b + c)[|a|..|a| + |b|] == b
    ensures (a + b + c)[|a| + |b|..] == c
  {
  }

  /** Concatenation is associative. */
  lemma AppendAssoc<T>(a: seq<T>, b: seq<T>, c: seq<T>)
    ensures a + (b + c) == a + b + c
  {
  }

  /** Filtering a sequence extended by one element. */
  lemma {:induction false} FilterAppend<T>(xs: seq<T>, x: T, f: T -> bool)
    ensures Filter(xs + [x], f) == Filter(xs, f) + (if f(x) then [x] else [])
    decreases |xs|
  {
    if |xs| == 0 {
      assert xs + [x] == [x];
    } else {
      assert (xs + [x])[1..] == xs[1..] + [x];
      FilterAppend(xs[1..], x, f);
    }
  }

  /** Concatenation of a list of lists (`flatMap` of the identity). */
  function Flatten<T>(xss: seq<seq<T>>): (r: seq<T>)
    decreases |xss|
  {
    if |xss| == 0 then [] else xss[0] + Flatten(xss[1..])
  }

  lemma {:induction false} FlattenMember<T>(xss: seq<seq<T>>, x: T)
    ensures x in Flatten(xss) <==> exists k :: 0 <= k < |xss| && x in xss[k]
    decreases |xss|
  {
    if |xss| > 0 {
      FlattenMember(xss[1..], x);
      if x in Flatten(xss[1..]) {
        var k :| 0 <= k < |xss[1..]| && x in xss[1..][k];
        assert x in xss[k + 1];
      }
      forall k | 0 <= k < |xss| && x in xss[k] ensures x in Flatten(xss) {
        if k > 0 {
          assert xss[1..][k - 1] == xss[k];
        }
      }
    }
  }

  /** Where the `k`-th list starts in the flattened sequence. */
  function Offset<T>(xss: seq<seq<T>>, k: nat): nat
    requires k <= |xss|
  {
    |Flatten(xss[..k])|
  }

  lemma {:induction false} FlattenAppend<T>(xss: seq<seq<T>>, ys: seq<T>)
    ensures Flatten(xss + [ys]) == Flatten(xss) + ys
    decreases |xss|
  {
    if |xss| == 0 {
      assert xss + [ys] == [ys];
    } else {
      assert (xss + [ys])[1..] == xss[1..] + [ys];
      FlattenAppend(xss[1..], ys);
    }
  }

  /** The `j`-th element of the `k`-th list sits at its list's offset plus `j`. */
  lemma FlattenIndex<T>(xss: seq<seq<T>>, k: nat, j: nat)
    requires k < |xss| && j < |xss[k]|
    ensures Offset(xss, k) + j < |Flatten(xss)|
    ensures Flatten(xss)[Offset(xss, k) + j] == xss[k][j]
  {
    FlattenAppend(xss[..k], xss[k]);
    assert xss[..k + 1] == xss[..k] + [xss[k]];
    FlattenPrefix(xss, k + 1);
  }

  /** The flattening of a prefix is a prefix of the flattening. */
  lemma {:induction false} FlattenPrefix<T>(xss: seq<seq<T>>, k: nat)
    requires k <= |xss|
    ensures Flatten(xss) == Flatten(xss[..k]) + Flatten(xss[k..])
    decreases k
  {
    if k > 0 {
      FlattenPrefix(xss, k - 1);
      FlattenAppend(xss[..k - 1], xss[k - 1]);
      assert xss[..k] == xss[..k - 1] + [xss[k - 1]];
      assert xss[k - 1..] == [xss[k - 1]] + xss[k..];
      assert Flatten(xss[k - 1..]) == xss[k - 1] + Flatten(xss[k..]);
    } else {
      assert xss[..0] == [] && xss[0..] == xss;
    }
  }

  /** No element occurs twice. */
  predicate NoDup<T(==)>(xs: seq<T>)
  {
    forall i, j :: 0 <= i < j < |xs| ==> xs[i] != xs[j]
  }

  /** The position of the first occurrence of `x` in `xs`. */
  function FirstIndex<T(==)>(xs: seq<T>, x: T): (i: nat)
    requires x in xs
    ensures i < |xs| && xs[i] == x
    ensures forall k :: 0 <= k < i ==> xs[k] != x
    decreases |xs|
  {
    if xs[0] == x then 0 else 1 + FirstIndex(xs[1..], x)
  }

  lemma {:induction false} FirstIndexExtend<T>(xs: seq<T>, y: T, x: T)
    requires x in xs
    ensures x in xs + [y] && FirstIndex(xs + [y], x) == FirstIndex(xs, x)
    decreases |xs|
  {
    if xs[0] != x {
      assert (xs + [y])[1..] == xs[1..] + [y];
      FirstIndexExtend(xs[1..], y, x);
    }
  }

  /**
   `[...new Set(xs)]`: every distinct element once, at the place of its first
   occurrence, so the elements appear in first-seen order.
   */
  function Dedup<T(==)>(xs: seq<T>): (r: seq<T>)
    ensures FirstSeen(xs, r)
    decreases |xs|
  {
    if |xs| == 0 then []
    else
      var init := xs[..|xs| - 1];
      var x := xs[|xs| - 1];
      var d := Dedup(init);
      assert xs == init + [x];
      DedupStep(init, x, d);
      if x in d then d else d + [x]
  }

  /** `r` lists the distinct elements of `xs` once each, in the order they are first seen. */
  predicate FirstSeen<T(==)>(xs: seq<T>, r: seq<T>)
  {
    && NoDup(r)
    && (forall k :: 0 <= k < |r| ==> r[k] in xs)
    && (forall k :: 0 <= k < |xs| ==> xs[k] in r)
    && (forall i, j :: 0 <= i < j < |r| ==> r[i] in xs && r[j] in xs && FirstIndex(xs, r[i]) < FirstIndex(xs, r[j]))
  }

  /** One more element keeps the first-seen listing, appended when it is new. */
  lemma DedupStep<T>(init: seq<T>, x: T, d: seq<T>)
    requires FirstSeen(init, d)
    ensures FirstSeen(init + [x], if x in d then d else d + [x])
  {
    var xs := init + [x];
    forall y | y in init ensures y in xs && FirstIndex(xs, y) == FirstIndex(init, y) {
      FirstIndexExtend(init, x, y);
    }
    if x !in d {
      var r := d + [x];
      assert x !in init;
      assert FirstIndex(xs, x) == |init|;
      assert forall i :: 0 <= i < |d| ==> r[i] == d[i] && r[i] in init;
    }
  }

  /** `a` sorts at or before `b` in code-point lexicographic order. */
  predicate LexLe(a: string, b: string)
    decreases |a|
  {
    |a| == 0 || (|b| > 0 && (a[0] < b[0] || (a[0] == b[0] && LexLe(a[1..], b[1..]))))
  }

  lemma {:induction false} LexLeTotal(a: string, b: string)
    ensures LexLe(a, b) || LexLe(b, a)
    decreases |a|
  {
    if |a| > 0 && |b| > 0 && a[0] == b[0] {
      LexLeTotal(a[1..], b[1..]);
    }
  }

  lemma {:induction false} LexLeTrans(a: string, b: string, c: string)
    requires LexLe(a, b) && LexLe(b, c)
    ensures LexLe(a, c)
    decreases |a|
  {
    if |a| > 0 && a[0] == b[0] && b[0] == c[0] {
      LexLeTrans(a[1..], b[1..], c[1..]);
    }
  }

  /** Every element's key is at least that of every later element. */
  predicate SortedDesc<T>(xs: seq<T>, key: T -> string)
  {
    forall i, j :: 0 <= i < j < |xs| ==> LexLe(key(xs[j]), key(xs[i]))
  }

  /** Places `x` before the first element whose key is not above its own. */
  function Insert<T>(x: T, xs: seq<T>, key: T -> string): (r: seq<T>)
    requires SortedDesc(xs, key)
    ensures SortedDesc(r, key)
    ensures multiset(r) == multiset(xs) + multiset{x}
    decreases |xs|
  {
    if |xs| == 0 then [x]
    else if LexLe(key(xs[0]), key(x)) then
      var r := [x] + xs;
      forall j | 0 < j < |r| ensures LexLe(key(r[j]), key(r[0])) {
        if j > 1 {
          LexLeTrans(key(xs[j - 1]), key(xs[0]), key(x));
        }
      }
      r
    else
      var rest := Insert(x, xs[1..], key);
      var r := [xs[0]] + rest;
      LexLeTotal(key(xs[0]), key(x));
      assert xs == [xs[0]] + xs[1..];
      forall j | 0 < j < |r| ensures LexLe(key(r[j]), key(r[0])) {
        assert r[j] in multiset(rest);
        assert r[j] == x || r[j] in multiset(xs[1..]);
        if r[j] != x {
          var k :| 0 <= k < |xs[1..]| && xs[1..][k] == r[j];
          assert xs[k + 1] == r[j];
        }
      }
      r
  }

  /**
   `xs.slice().sort((a, b) => key(b).localeCompare(key(a)))` with code-point
   order: a newest-first permutation of the input, which is left untouched.
   */
  function SortDesc<T>(xs: seq<T>, key: T -> string): (r: seq<T>)
    ensures SortedDesc(r, key)
    ensures multiset(r) == multiset(xs)
    ensures |r| == |xs|
    decreases |xs|
  {
    if |xs| == 0 then []
    else
      assert xs == [xs[0]] + xs[1..];
      Insert(xs[0], SortDesc(xs[1..], key), key)
  }
}

=== FILE: shelf.dfy ===
/**
 The story shelf (js/shelf.js): the list, tabs and empty state come from
 the shared list-page logic with "全作品" as the all-items text; what is
 particular to the shelf is the book's class list.
 */
module Shelf {

  import opened JsValues
  import opened Strings
  import ListPages
  import Seqs

  /** A record of `stories/stories.json`. */
  datatype Story = Story(
    world: Option<string>,
    size: Option<string>,
    path: Option<string>,
    title: Option<string>,
    date: Option<string>,
    tags: Option<seq<string>>)

  /** The text of the all-items tab. */
  const AllWorks: string := "全作品"

  /** `s.tags || []` */
  function TagsOf(s: Story): seq<string>
  {
    Coalesce(s.tags, [])
  }

  /** `s.date`, the key the list is sorted on. */
  function DateOf(s: Story): Option<string>
  {
    s.date
  }

  /**
   The shelf as `init()` leaves it for the `?tag=` parameter: newest first,
   only the items carrying the tag, and a tab row for every tag.
   */
  function Load(list: seq<Story>, tagParam: Option<string>): (v: ListPages.View<Story>)
    ensures v.emptyHidden <==> v.shown != []
    ensures v.tabs == ListPages.RenderTabs(AllWorks, ListPages.TagUnion(ListPages.Newest(list, DateOf), TagsOf), Or(tagParam, ""))
    ensures forall i, j :: 0 <= i < j < |v.shown| ==> Seqs.LexLe(StringOf(DateOf(v.shown[j])), StringOf(DateOf(v.shown[i])))
    ensures !Truthy(tagParam) ==> multiset(v.shown) == multiset(list)
    ensures Truthy(tagParam) ==> forall s ::
      multiset(v.shown)[s] == if tagParam.value in TagsOf(s) then multiset(list)[s] else 0
    ensures Truthy(tagParam) ==> forall s :: s in v.shown <==> s in list && tagParam.value in TagsOf(s)
  {
    var v := ListPages.Init(AllWorks, list, DateOf, TagsOf, tagParam);
    if Truthy(tagParam) then
      ListPages.TaggedMembers(v.shown, list, tagParam.value, TagsOf);
      v
    else v
  }

  /**
   The `className` of a book: `book`, then ` world-<world>` if any, then
   ` size-<size>` or ` size-std`; that is, the classes joined with spaces.
   */
  function BookClass(s: Story): (r: string)
    ensures r == Join(ClassTokens(s), " ")
  {
    ClassJoin(s);
    "book"
      + (if Truthy(s.world) then " world-" + s.world.value else "")
      + (if Truthy(s.size) then " size-" + s.size.value else " size-std")
  }

  /** The classes a book is meant to carry. */
  function ClassTokens(s: Story): seq<string>
  {
    ["book"] + (if Truthy(s.world) then ["world-" + s.world.value] else []) + ["size-" + Or(s.size, "std")]
  }

  /** The size part of the class list is a space and the size class. */
  lemma SizePart(s: Story)
    ensures (if Truthy(s.size) then " size-" + s.size.value else " size-std") == " " + ("size-" + Or(s.size, "std"))
  {
    assert " size-" == " " + "size-";
    Seqs.AppendAssoc(" ", "size-", Or(s.size, "std"));
  }

  /** The world part of the class list of a book with a world is a space and the world class. */
  lemma WorldPart(w: string)
    ensures " world-" + w == " " + ("world-" + w)
  {
    assert " world-" == " " + "world-";
    Seqs.AppendAssoc(" ", "world-", w);
  }

  /** Three strings joined with single spaces, grouped as the class list groups them. */
  lemma SpacedThree(a: string, b: string, c: string)
    ensures a + (" " + b) + (" " + c) == Join([a, b, c], " ")
  {
    JoinSmall(a, b, c, " ");
    Seqs.AppendAssoc(a, " ", b);
    Seqs.AppendAssoc(a + " " + b, " ", c);
  }

  /** Two strings joined with a single space. */
  lemma SpacedTwo(a: string, b: string)
    ensures a + (" " + b) == Join([a, b], " ")
  {
    JoinSmall(a, b, "", " ");
    Seqs.AppendAssoc(a, " ", b);
  }

  /** The pieces `BookClass` concatenates are the classes joined with spaces. */
  lemma ClassJoin(s: Story)
    ensures "book"
      + (if Truthy(s.world) then " world-" + s.world.value else "")
      + (if Truthy(s.size) then " size-" + s.size.value else " size-std")
      == Join(ClassTokens(s), " ")
  {
    var sizeTok := "size-" + Or(s.size, "std");
    SizePart(s);
    if Truthy(s.world) {
      var worldTok := "world-" + s.world.value;
      WorldPart(s.world.value);
      assert ClassTokens(s) == ["book", worldTok, sizeTok];
      SpacedThree("book", worldTok, sizeTok);
    } else {
      assert ClassTokens(s) == ["book", sizeTok];
      SpacedTwo("book", sizeTok);
    }
  }

  lemma ClassTokensFree(s: Story)
    requires Free(Or(s.world, ""), {' '}) && Free(Or(s.size, ""), {' '})
    ensures forall k :: 0 <= k < |ClassTokens(s)| ==> Free(ClassTokens(s)[k], {' '})
  {
    assert Free("size-", {' '}) && Free("std", {' '}) && Free("book", {' '});
    FreeConcat("size-", Or(s.size, "std"), {' '});
    if Truthy(s.world) {
      assert Free("world-", {' '});
      FreeConcat("world-", s.world.value, {' '});
    }
  }

  /**
   When the world and size hold no space, the class list reads back as `book`,
   a world class exactly when there is a world, and one size class.
   */
  lemma BookClassTokens(s: Story)
    requires Free(Or(s.world, ""), {' '}) && Free(Or(s.size, ""), {' '})
    ensures Split(BookClass(s), {' '}) == ClassTokens(s)
  {
    ClassTokensFree(s);
    assert " " == [' '];
    SplitJoin(ClassTokens(s), ' ');
  }
}

=== FILE: site_base.dfy ===
/**
 The site-wide path helpers of js/main.js: the site's base path `SITE_BASE`,
 `joinBase` (whose URL resolution is a parameter), the current page name and
 the active navigation link, and the `srcset` rewriting of `hydrateLinks`.
 The page's `location` enters as its `pathname` and its `origin` plus base.
 */
module SiteBase {

  import opened JsValues
  import opened Strings
  import Seqs

  /** `norm(s)`: a leading `/` added when missing, then a trailing one when missing. */
  function Norm(s: string): (r: string)
    ensures |r| >= 1 && r[0] == '/' && r[|r| - 1] == '/'
    ensures |r| <= |s| + 2
    ensures StartsWith(s, "/") ==> |s| <= |r| && r[..|s|] == s
    ensures !StartsWith(s, "/") ==> |s| < |r| && r[1..|s| + 1] == s
    ensures |s| >= 1 && s[0] == '/' && s[|s| - 1] == '/' ==> r == s
  {
    var t := if StartsWith(s, "/") then s else "/" + s;
    if t[|t| - 1] == '/' then t else t + "/"
  }

  /** Normalising twice is normalising once. */
  lemma NormIdempotent(s: string)
    ensures Norm(Norm(s)) == Norm(s)
  {
  }

  /** The non-empty `/`-separated segments of a path (`split('/').filter(Boolean)`). */
  function Segments(path: string): (segs: seq<string>)
    ensures forall k :: 0 <= k < |segs| ==> segs[k] != "" && Free(segs[k], {'/'})
  {
    NonEmpty(Split(path, {'/'}))
  }

  /** A path has no segments exactly when it is nothing but slashes. */
  lemma {:induction false} SegmentsEmpty(path: string)
    ensures Segments(path) == [] <==> forall i :: 0 <= i < |path| ==> path[i] == '/'
    decreases |path|
  {
    if |path| > 0 {
      SegmentsEmpty(path[1..]);
      var rest := Split(path[1..], {'/'});
      if path[0] == '/' {
        assert Split(path, {'/'}) == [""] + rest;
        assert ([""] + rest)[1..] == rest;
      } else {
        var parts := Split(path, {'/'});
        assert parts[0] == [path[0]] + rest[0];
        assert parts[0] != "";
      }
    }
  }

  /** Splitting a text that ends with a separator and a separator-free tail. */
  lemma {:induction false} SplitLast(x: string, c: char, y: string, seps: set<char>)
    requires Free(y, seps) && c in seps
    ensures |Split(x + [c] + y, seps)| >= 2
    ensures Split(x + [c] + y, seps)[|Split(x + [c] + y, seps)| - 1] == y
    decreases |x|
  {
    if |x| == 0 {
      SplitFreePrefix(x, c, y, seps);
      SplitFreePrefix(y, c, "", seps);
    } else {
      var s := x + [c] + y;
      assert s[1..] == x[1..] + [c] + y;
      SplitLast(x[1..], c, y, seps);
      var rest := Split(s[1..], seps);
      if s[0] in seps {
        assert Split(s, seps) == [""] + rest;
      } else {
        assert Split(s, seps) == [[s[0]] + rest[0]] + rest[1..];
      }
    }
  }

  /** Dropping empty strings commutes with appending a non-empty one. */
  lemma {:induction false} NonEmptyAppend(xs: seq<string>, y: string)
    requires y != ""
    ensures NonEmpty(xs + [y]) == NonEmpty(xs) + [y]
    decreases |xs|
  {
    if |xs| == 0 {
      assert xs + [y] == [y];
      assert [y][1..] == [];
    } else {
      assert (xs + [y])[1..] == xs[1..] + [y];
      NonEmptyAppend(xs[1..], y);
    }
  }

  /** The last segment of a path that ends with `/` and a non-empty name. */
  lemma LastSegment(dir: string, name: string)
    requires name != "" && Free(name, {'/'})
    ensures |Segments(dir + "/" + name)| > 0
    ensures Segments(dir + "/" + name)[|Segments(dir + "/" + name)| - 1] == name
  {
    var parts := Split(dir + "/" + name, {'/'});
    SplitLast(dir, '/', name, {'/'});
    assert parts == parts[..|parts| - 1] + [name];
    NonEmptyAppend(parts[..|parts| - 1], name);
  }

  /**
   `SITE_BASE`: the normalised `data-base` of the root element when it is set,
   else the first segment of the page's path between slashes, else `/`.
   */
  function SiteBaseOf(dataBase: Option<string>, pathname: string): (r: string)
    ensures |r| >= 1 && r[0] == '/' && r[|r| - 1] == '/'
    ensures Truthy(dataBase) ==> r == Norm(dataBase.value)
    ensures !Truthy(dataBase) ==> (r == "/" <==> forall i :: 0 <= i < |pathname| ==> pathname[i] == '/')
    ensures !Truthy(dataBase) && r != "/" ==> |r| >= 3 && Free(r[1..|r| - 1], {'/'})
  {
    if Truthy(dataBase) then Norm(dataBase.value)
    else
      var segs := Segments(pathname);
      SegmentsEmpty(pathname);
      if |segs| > 0 then
        var r := "/" + segs[0] + "/";
        assert r[1..|r| - 1] == segs[0];
        r
      else "/"
  }

  /** Without `data-base`, a page under `/<repo>/` has the base `/<repo>/`. */
  lemma SiteBaseFromPath(repo: string, rest: string)
    requires repo != "" && Free(repo, {'/'})
    ensures SiteBaseOf(None, "/" + repo + "/" + rest) == "/" + repo + "/"
  {
    var path := "/" + repo + "/" + rest;
    SplitFreePrefix("", '/', repo + "/" + rest, {'/'});
    assert "" + ['/'] + (repo + "/" + rest) == path;
    SplitFreePrefix(repo, '/', rest, {'/'});
    assert repo + ['/'] + rest == repo + "/" + rest;
    var tail := Split(rest, {'/'});
    var parts := [""] + ([repo] + tail);
    assert Split(path, {'/'}) == parts;
    assert parts[1..] == [repo] + tail;
    assert ([repo] + tail)[1..] == tail;
    assert NonEmpty(parts) == NonEmpty([repo] + tail);
    assert NonEmpty([repo] + tail) == [repo] + NonEmpty(tail);
  }

  /** `/^(https?:)?\/\//i`: an absolute URL or a protocol-relative one. */
  predicate IsAbsoluteUrl(p: string)
  {
    var l := Lower(p);
    StartsWith(l, "//") || StartsWith(l, "http://") || StartsWith(l, "https://")
  }

  /** A path that starts with a letter other than `h` is neither absolute nor protocol-relative. */
  lemma LetterFirstIsRelative(p: string)
    requires |p| > 0 && 'a' <= p[0] <= 'z' && p[0] != 'h'
    ensures !IsAbsoluteUrl(p)
  {
    var l := Lower(p);
    assert l[0] == p[0];
    assert |l| < 2 || l[..2][0] == p[0];
    assert |l| < 7 || l[..7][0] == p[0];
    assert |l| < 8 || l[..8][0] == p[0];
  }

  /**
   `new URL(path, base).href`, the URL Standard's parser, which is not
   modelled: its arguments are the path and the base URL.
   */
  type Resolver = (string, string) -> string

  /**
   `joinBase(path)` against `baseUrl` (`location.origin + SITE_BASE`): nothing
   for a missing or empty path, an absolute URL unchanged, any other path
   resolved against the base.
   */
  function JoinBase(resolve: Resolver, baseUrl: string, path: Option<string>): (r: string)
    ensures !Truthy(path) ==> r == ""
    ensures Truthy(path) && IsAbsoluteUrl(path.value) ==> r == path.value
    ensures Truthy(path) && !IsAbsoluteUrl(path.value) ==> r == resolve(path.value, baseUrl)
  {
    if !Truthy(path) then ""
    else if IsAbsoluteUrl(path.value) then path.value
    else resolve(path.value, baseUrl)
  }

  /**
   When the resolver yields absolute URLs (as `href` always is), joining an
   already joined path changes nothing.
   */
  lemma JoinBaseIdempotent(resolve: Resolver, baseUrl: string, path: Option<string>)
    requires forall p, b :: IsAbsoluteUrl(resolve(p, b))
    ensures JoinBase(resolve, baseUrl, Some(JoinBase(resolve, baseUrl, path))) == JoinBase(resolve, baseUrl, path)
  {
    if Truthy(path) && !IsAbsoluteUrl(path.value) {
      var r := resolve(path.value, baseUrl);
      assert IsAbsoluteUrl(r);
      assert |Lower(r)| == |r|;
    }
  }

  /**
   `currentPage()`: the last non-empty segment of the path, lower-cased, or
   `index.html` when the path has none.
   */
  function CurrentPage(pathname: string): (r: string)
    ensures r != "" && Free(r, {'/'})
    ensures (forall i :: 0 <= i < |pathname| ==> pathname[i] == '/') ==> r == "index.html"
  {
    var segs := Segments(pathname);
    SegmentsEmpty(pathname);
    var name := if |segs| == 0 then "index.html" else segs[|segs| - 1];
    assert Lower("index.html") == "index.html";
    Lower(name)
  }

  /** The page of a path ending in `/<name>` is that name in lower case. */
  lemma CurrentPageOf(dir: string, name: string)
    requires name != "" && Free(name, {'/'})
    ensures CurrentPage(dir + "/" + name) == Lower(name)
  {
    LastSegment(dir, name);
  }

  /** A trailing separator adds one empty piece at the end. */
  lemma {:induction false} SplitTrailing(x: string, c: char, seps: set<char>)
    requires c in seps
    ensures Split(x + [c], seps) == Split(x, seps) + [""]
    decreases |x|
  {
    if |x| == 0 {
      assert x + [c] == [c];
      assert [c][1..] == "";
    } else {
      assert (x + [c])[1..] == x[1..] + [c];
      SplitTrailing(x[1..], c, seps);
    }
  }

  /** Dropping empty strings ignores a trailing empty one. */
  lemma {:induction false} NonEmptyTrailing(xs: seq<string>)
    ensures NonEmpty(xs + [""]) == NonEmpty(xs)
    decreases |xs|
  {
    if |xs| == 0 {
      assert xs + [""] == [""];
      assert [""][1..] == [];
    } else {
      assert (xs + [""])[1..] == xs[1..] + [""];
      NonEmptyTrailing(xs[1..]);
    }
  }

  /**
   The page of a directory path `…/<name>/` is that name in lower case, not
   `index.html`: the trailing slash only adds an empty segment.
   */
  lemma CurrentPageOfDir(dir: string, name: string)
    requires name != "" && Free(name, {'/'})
    ensures CurrentPage(dir + "/" + name + "/") == Lower(name)
  {
    var p := dir + "/" + name;
    var q := dir + "/" + name + "/";
    assert q == p + ['/'];
    SplitTrailing(p, '/', {'/'});
    NonEmptyTrailing(Split(p, {'/'}));
    assert Segments(q) == Segments(p);
    CurrentPageOf(dir, name);
  }

  /** What `highlightActiveNav` compares: the last `/`-piece of the link, lower-cased. */
  function NavTarget(href: string): (r: string)
    ensures Free(r, {'/'})
  {
    var parts := Split(href, {'/'});
    Lower(parts[|parts| - 1])
  }

  /** A navigation link is marked active when its target names the current page. */
  predicate NavActive(href: string, pathname: string)
  {
    NavTarget(href) == CurrentPage(pathname)
  }

  /** The target of a link `…/<a>` is `a` in lower case. */
  lemma NavTargetOf(dir: string, a: string)
    requires Free(a, {'/'})
    ensures NavTarget(dir + "/" + a) == Lower(a)
  {
    SplitLast(dir, '/', a, {'/'});
    assert dir + ['/'] + a == dir + "/" + a;
  }

  /**
   A link `…/<a>` is active on a page `…/<b>` exactly when the two names agree
   up to case; a link ending in `/` is never active.
   */
  lemma NavActiveIff(hdir: string, a: string, pdir: string, b: string)
    requires a != "" && Free(a, {'/'}) && b != "" && Free(b, {'/'})
    ensures NavActive(hdir + "/" + a, pdir + "/" + b) <==> Lower(a) == Lower(b)
    ensures !NavActive(hdir + "/", pdir + "/" + b)
  {
    NavTargetOf(hdir, a);
    NavTargetOf(hdir, "");
    assert hdir + "/" + "" == hdir + "/";
    CurrentPageOf(pdir, b);
  }

  /** The length of the leading run of characters that are not white space. */
  function WordLength(s: string): (n: nat)
    ensures n <= |s|
    ensures forall i :: 0 <= i < n ==> !IsSpace(s[i])
    ensures n < |s| ==> IsSpace(s[n])
    decreases |s|
  {
    if |s| == 0 || IsSpace(s[0]) then 0 else 1 + WordLength(s[1..])
  }

  /**
   `const [path, size] = entry.split(/\s+/)` on an entry with no white space
   at either end: the first token, and the second one when white space follows
   the first.
   */
  function Tokens(entry: string): (string, Option<string>)
  {
    var n := WordLength(entry);
    if n == |entry| then (entry, None)
    else
      var rest := entry[n..][SpaceLength(entry[n..])..];
      (entry[..n], Some(rest[..WordLength(rest)]))
  }

  /** A srcset entry after rewriting: the joined path, then ` <size>` when a size is given. */
  function RewriteEntry(resolve: Resolver, baseUrl: string, entry: string): string
  {
    var tokens := Tokens(Trim(entry));
    var path, size := tokens.0, tokens.1;
    JoinBase(resolve, baseUrl, Some(path)) + (if Truthy(size) then " " + size.value else "")
  }

  /** The rewritten entries of a `data-srcset` value, one per comma-separated piece. */
  function SrcsetEntries(resolve: Resolver, baseUrl: string, srcset: string): (es: seq<string>)
    ensures |es| == |Split(srcset, {','})|
    ensures forall k :: 0 <= k < |es| ==> es[k] == RewriteEntry(resolve, baseUrl, Split(srcset, {','})[k])
  {
    var parts := Split(srcset, {','});
    seq(|parts|, k requires 0 <= k < |parts| => RewriteEntry(resolve, baseUrl, parts[k]))
  }

  /**
   The `srcset` attribute `hydrateLinks` writes: the entries joined with `, `.
   When the resolver's URLs hold no comma, it has as many comma-separated
   entries as the original.
   */
  function RewriteSrcset(resolve: Resolver, baseUrl: string, srcset: string): (r: string)
    ensures (forall p, b :: Free(resolve(p, b), {','})) ==> |Split(r, {','})| == |Split(srcset, {','})|
    ensures (forall p, b :: Free(resolve(p, b), {','})) ==>
      var es := SrcsetEntries(resolve, baseUrl, srcset);
      Split(r, {','}) == [es[0]] + Spaced(es[1..])
  {
    SrcsetSplitsBack(resolve, baseUrl, srcset);
    Join(SrcsetEntries(resolve, baseUrl, srcset), ", ")
  }

  /** A run of characters with no white space, then white space or nothing. */
  lemma {:induction false} WordPrefix(x: string, y: string)
    requires forall i :: 0 <= i < |x| ==> !IsSpace(x[i])
    requires |y| == 0 || IsSpace(y[0])
    ensures WordLength(x + y) == |x|
    decreases |x|
  {
    if |x| == 0 {
      assert x + y == y;
    } else {
      assert (x + y)[1..] == x[1..] + y;
      WordPrefix(x[1..], y);
    }
  }

  /** A text with no white space at either end is its own trim. */
  lemma TrimNoop(s: string)
    requires |s| > 0 && !IsSpace(s[0]) && !IsSpace(s[|s| - 1])
    ensures Trim(s) == s
  {
    assert SpaceLength(s) == 0;
    assert TrimmedEnd(s) == |s|;
  }

  /** The tokens of `<path> <size>`. */
  lemma TokensOfPair(path: string, size: string)
    requires forall i :: 0 <= i < |path| ==> !IsSpace(path[i])
    requires forall i :: 0 <= i < |size| ==> !IsSpace(size[i])
    ensures Tokens(path + " " + size) == (path, Some(size))
  {
    var e := path + " " + size;
    var sp := " " + size;
    assert e == path + sp;
    WordPrefix(path, sp);
    assert e[|path|..] == sp;
    assert e[..|path|] == path;
    assert sp[1..] == size;
    assert SpaceLength(sp) == 1;
    WordPrefix(size, "");
    assert size + "" == size;
  }

  /** An entry `<path> <size>` becomes the joined path followed by one space and the size. */
  lemma EntryRewrite(resolve: Resolver, baseUrl: string, path: string, size: string)
    requires path != "" && size != ""
    requires forall i :: 0 <= i < |path| ==> !IsSpace(path[i])
    requires forall i :: 0 <= i < |size| ==> !IsSpace(size[i])
    ensures RewriteEntry(resolve, baseUrl, path + " " + size) == JoinBase(resolve, baseUrl, Some(path)) + " " + size
  {
    var e := path + " " + size;
    assert e[0] == path[0] && e[|e| - 1] == size[|size| - 1];
    TrimNoop(e);
    TokensOfPair(path, size);
    var joined := JoinBase(resolve, baseUrl, Some(path));
    assert RewriteEntry(resolve, baseUrl, e) == joined + (" " + size);
    Seqs.AppendAssoc(joined, " ", size);
  }

  /** An entry with no size is the joined path alone: no space is appended. */
  lemma EntryRewriteBare(resolve: Resolver, baseUrl: string, path: string)
    requires path != ""
    requires forall i :: 0 <= i < |path| ==> !IsSpace(path[i])
    ensures RewriteEntry(resolve, baseUrl, path) == JoinBase(resolve, baseUrl, Some(path))
  {
    TrimNoop(path);
    WordPrefix(path, "");
    assert path + "" == path;
    assert Tokens(path) == (path, None);
  }

  /** Whatever a slice of comma-free text holds is comma-free. */
  lemma FreeSlice(s: string, i: nat, j: nat, seps: set<char>)
    requires i <= j <= |s| && Free(s, seps)
    ensures Free(s[i..j], seps)
  {
    assert forall k :: 0 <= k < j - i ==> s[i..j][k] == s[i + k];
  }

  /** The tokens of a comma-free entry are comma-free. */
  lemma TokensFree(t: string)
    requires Free(t, {','})
    ensures Free(Tokens(t).0, {','})
    ensures Tokens(t).1.Some? ==> Free(Tokens(t).1.value, {','})
  {
    var n := WordLength(t);
    if n < |t| {
      FreeSlice(t, 0, n, {','});
      var m := SpaceLength(t[n..]);
      FreeSlice(t, n + m, |t|, {','});
      var rest := t[n..][m..];
      assert rest == t[n + m..];
      FreeSlice(rest, 0, WordLength(rest), {','});
    }
  }

  /** A rewritten entry holds no comma when neither the resolver's URL nor the entry does. */
  lemma EntryFree(resolve: Resolver, baseUrl: string, entry: string)
    requires forall p, b :: Free(resolve(p, b), {','})
    requires Free(entry, {','})
    ensures Free(RewriteEntry(resolve, baseUrl, entry), {','})
  {
    var t := Trim(entry);
    FreeSlice(entry, SpaceLength(entry), SpaceLength(entry) + |t|, {','});
    TokensFree(t);
    var path, size := Tokens(t).0, Tokens(t).1;
    var joined := JoinBase(resolve, baseUrl, Some(path));
    assert Free(joined, {','}) by {
      if path != "" && !IsAbsoluteUrl(path) {
        assert Free(resolve(path, baseUrl), {','});
      }
    }
    var suffix := if Truthy(size) then " " + size.value else "";
    assert Free(suffix, {','}) by {
      if Truthy(size) {
        FreeConcat(" ", size.value, {','});
      }
    }
    FreeConcat(joined, suffix, {','});
    assert RewriteEntry(resolve, baseUrl, entry) == joined + suffix;
  }

  /** Each entry after the first as the join leaves it: preceded by the space of `, `. */
  function Spaced(xs: seq<string>): seq<string>
  {
    seq(|xs|, k requires 0 <= k < |xs| => " " + xs[k])
  }

  /** A leading space merges into the first piece of a split on commas. */
  lemma SplitSpaceFirst(j: string)
    ensures Split(" " + j, {','}) == [" " + Split(j, {','})[0]] + Split(j, {','})[1..]
  {
    assert (" " + j)[1..] == j;
  }

  /**
   Splitting a `, `-join of comma-free pieces on commas gives back the first
   entry and then every other entry with the space the join put before it.
   */
  lemma {:induction false} SplitCommaSpace(es: seq<string>)
    requires |es| >= 1
    requires forall k :: 0 <= k < |es| ==> Free(es[k], {','})
    ensures Split(Join(es, ", "), {','}) == [es[0]] + Spaced(es[1..])
    ensures |Split(Join(es, ", "), {','})| == |es|
    decreases |es|
  {
    if |es| == 1 {
      SplitFreePrefix(es[0], ',', "", {','});
      assert Spaced(es[1..]) == [];
    } else {
      SplitCommaSpace(es[1..]);
      var j := Join(es[1..], ", ");
      assert Join(es, ", ") == es[0] + ", " + j;
      assert ", " == [','] + " ";
      Seqs.AppendAssoc(es[0], [','], " ");
      Seqs.AppendAssoc(es[0] + [','], " ", j);
      SplitFreePrefix(es[0], ',', " " + j, {','});
      SplitSpaceFirst(j);
      var tail := es[1..];
      assert Split(j, {','}) == [tail[0]] + Spaced(tail[1..]);
      assert Spaced(tail) == [" " + tail[0]] + Spaced(tail[1..]);
    }
  }

  /**
   When the resolver's URLs hold no comma, the rewritten entries joined with
   `, ` split back into the entries, one piece per piece of the original.
   */
  lemma SrcsetSplitsBack(resolve: Resolver, baseUrl: string, srcset: string)
    ensures (forall p, b :: Free(resolve(p, b), {','})) ==>
      var es := SrcsetEntries(resolve, baseUrl, srcset);
      && Split(Join(es, ", "), {','}) == [es[0]] + Spaced(es[1..])
      && |Split(Join(es, ", "), {','})| == |Split(srcset, {','})|
  {
    if forall p, b :: Free(resolve(p, b), {','}) {
      var es := SrcsetEntries(resolve, baseUrl, srcset);
      forall k | 0 <= k < |es| ensures Free(es[k], {','}) {
        EntryFree(resolve, baseUrl, Split(srcset, {','})[k]);
      }
      SplitCommaSpace(es);
    }
  }
}

=== FILE: strings.dfy ===
/**
 String operations the scripts take from JavaScript's `String.prototype`:
 prefix and substring tests, `split` on single-character separators, `join`,
 ASCII lower-casing and `trim`. Strings are sequences of Unicode scalar values.
 */
module Strings {

  import opened JsValues

  /** `s.startsWith(p)` */
  predicate StartsWith(s: string, p: string)
  {
    |p| <= |s| && s[..|p|] == p
  }

  /** A text whose first character differs from the prefix's does not start with it. */
  lemma FirstDiffers(s: string, p: string)
    requires |s| > 0 && |p| > 0 && s[0] != p[0]
    ensures !StartsWith(s, p)
  {
    if |p| <= |s| {
      assert s[..|p|][0] == s[0];
    }
  }

  /** `p` occurs in `s` at position `i`. */
  predicate OccursAt(s: string, p: string, i: int)
  {
    0 <= i && i + |p| <= |s| && s[i..i + |p|] == p
  }

  /** `s.includes(p)`, computed by scanning the start positions left to right. */
  predicate Contains(s: string, p: string)
    decreases |s|
  {
    StartsWith(s, p) || (|s| > 0 && Contains(s[1..], p))
  }

  /** `Contains` is the substring test: some start position holds `p`. */
  lemma ContainsIff(s: string, p: string)
    ensures Contains(s, p) <==> exists i :: OccursAt(s, p, i)
  {
    forall i | OccursAt(s, p, i) ensures Contains(s, p) {
      OccursContains(s, p, i);
    }
    if Contains(s, p) {
      ContainsOccurs(s, p);
    }
  }

  lemma {:induction false} OccursContains(s: string, p: string, i: int)
    requires OccursAt(s, p, i)
    ensures Contains(s, p)
    decreases i
  {
    if i == 0 {
      assert StartsWith(s, p);
    } else {
      assert s[1..][i - 1..i - 1 + |p|] == s[i..i + |p|];
      OccursContains(s[1..], p, i - 1);
    }
  }

  lemma {:induction false} ContainsOccurs(s: string, p: string)
    requires Contains(s, p)
    ensures exists i :: OccursAt(s, p, i)
    decreases |s|
  {
    if StartsWith(s, p) {
      assert OccursAt(s, p, 0);
    } else {
      ContainsOccurs(s[1..], p);
      var i :| OccursAt(s[1..], p, i);
      assert s[i + 1..i + 1 + |p|] == s[1..][i..i + |p|];
      assert OccursAt(s, p, i + 1);
    }
  }

  /** The character `c` does not occur in `s`. */
  predicate Free(s: string, seps: set<char>)
  {
    forall i :: 0 <= i < |s| ==> s[i] !in seps
  }

  /** Text made of two pieces without the characters has none of them. */
  lemma FreeConcat(a: string, b: string, seps: set<char>)
    requires Free(a, seps) && Free(b, seps)
    ensures Free(a + b, seps)
  {
    assert forall k :: 0 <= k < |a + b| ==> (a + b)[k] == if k < |a| then a[k] else b[k - |a|];
  }

  /** `[a, b].join(sep)` and `[a, b, c].join(sep)` */
  lemma JoinSmall(a: string, b: string, c: string, sep: string)
    ensures Join([a, b], sep) == a + sep + b
    ensures Join([a, b, c], sep) == a + sep + b + sep + c
  {
    assert [a, b][1..] == [b];
    assert [a, b, c][1..] == [b, c];
    assert [b, c][1..] == [c];
    assert Join([b, c], sep) == b + sep + c;
    assert Join([a, b, c], sep) == a + sep + (b + sep + c);
  }

  /**
   `s.split(re)` where `re` matches exactly one character of `seps`: the pieces
   between separators, empty pieces included, so there is always at least one.
   */
  function Split(s: string, seps: set<char>): (parts: seq<string>)
    ensures |parts| >= 1
    ensures forall k :: 0 <= k < |parts| ==> Free(parts[k], seps)
    decreases |s|
  {
    if |s| == 0 then [""]
    else
      var rest := Split(s[1..], seps);
      if s[0] in seps then [""] + rest
      else [[s[0]] + rest[0]] + rest[1..]
  }

  /** `parts.join(sep)` */
  function Join(parts: seq<string>, sep: string): string
    decreases |parts|
  {
    if |parts| == 0 then ""
    else if |parts| == 1 then parts[0]
    else parts[0] + sep + Join(parts[1..], sep)
  }

  /** Joining the pieces of a one-separator split puts the separators back. */
  lemma {:induction false} JoinSplit(s: string, c: char)
    ensures Join(Split(s, {c}), [c]) == s
    decreases |s|
  {
    if |s| > 0 {
      var rest := Split(s[1..], {c});
      JoinSplit(s[1..], c);
      if s[0] == c {
        assert Split(s, {c}) == [""] + rest;
        assert ([""] + rest)[1..] == rest;
        assert s == [c] + s[1..];
      } else {
        var parts := Split(s, {c});
        assert parts == [[s[0]] + rest[0]] + rest[1..];
        if |rest| == 1 {
          assert s == [s[0]] + s[1..];
        } else {
          assert parts[1..] == rest[1..];
          assert s == [s[0]] + s[1..];
        }
      }
    }
  }

  /** Splitting a piece free of the separators, then a separator, then more text. */
  lemma {:induction false} SplitFreePrefix(x: string, c: char, y: string, seps: set<char>)
    requires Free(x, seps) && c in seps
    ensures Split(x, seps) == [x]
    ensures Split(x + [c] + y, seps) == [x] + Split(y, seps)
    decreases |x|
  {
    if |x| == 0 {
      assert x + [c] + y == [c] + y;
      assert ([c] + y)[1..] == y;
    } else {
      assert (x + [c] + y)[1..] == x[1..] + [c] + y;
      assert x == [x[0]] + x[1..];
      SplitFreePrefix(x[1..], c, y, seps);
    }
  }

  /**
   The first piece of a split is the text before the first separator; when a
   separator is there, the other pieces are the split of the text after it.
   */
  lemma {:induction false} SplitHead(s: string, seps: set<char>)
    ensures |Split(s, seps)[0]| <= |s|
    ensures Split(s, seps)[0] == s[..|Split(s, seps)[0]|]
    ensures |Split(s, seps)| == 1 <==> |Split(s, seps)[0]| == |s|
    ensures |Split(s, seps)| > 1 ==>
      s[|Split(s, seps)[0]|] in seps && Split(s, seps)[1..] == Split(s[|Split(s, seps)[0]| + 1..], seps)
    decreases |s|
  {
    if |s| > 0 {
      SplitHead(s[1..], seps);
      var rest := Split(s[1..], seps);
      if s[0] in seps {
        assert Split(s, seps) == [""] + rest;
      } else {
        var h := [s[0]] + rest[0];
        assert Split(s, seps) == [h] + rest[1..];
        assert s == [s[0]] + s[1..];
        if |rest| > 1 {
          assert s[|h| + 1..] == s[1..][|rest[0]| + 1..];
        }
      }
    }
  }

  /** Splitting a join of separator-free pieces gives the pieces back. */
  lemma {:induction false} SplitJoin(parts: seq<string>, c: char)
    requires |parts| >= 1
    requires forall k :: 0 <= k < |parts| ==> Free(parts[k], {c})
    ensures Split(Join(parts, [c]), {c}) == parts
    decreases |parts|
  {
    if |parts| == 1 {
      SplitFreePrefix(parts[0], c, "", {c});
    } else {
      var tail := parts[1..];
      assert forall k :: 0 <= k < |tail| ==> tail[k] == parts[k + 1];
      SplitJoin(tail, c);
      assert Join(parts, [c]) == parts[0] + [c] + Join(tail, [c]);
      SplitFreePrefix(parts[0], c, Join(tail, [c]), {c});
      assert Split(Join(parts, [c]), {c}) == [parts[0]] + tail;
      assert [parts[0]] + tail == parts;
    }
  }

  /** `xs.filter(Boolean)` on strings: the non-empty ones, in order. */
  function NonEmpty(xs: seq<string>): (r: seq<string>)
    ensures |r| <= |xs|
    ensures forall k :: 0 <= k < |r| ==> r[k] != "" && r[k] in xs
    ensures forall x :: x in xs && x != "" ==> x in r
    decreases |xs|
  {
    if |xs| == 0 then []
    else if xs[0] == "" then NonEmpty(xs[1..])
    else [xs[0]] + NonEmpty(xs[1..])
  }

  /** The last element of `xs` (`xs.pop()` read-only), if any. */
  function Last(xs: seq<string>): Option<string>
  {
    if |xs| == 0 then None else Some(xs[|xs| - 1])
  }

  /** `toLowerCase` restricted to the ASCII letters. */
  function LowerChar(c: char): char
  {
    if 'A' <= c <= 'Z' then (c as int + 32) as char else c
  }

  function Lower(s: string): (r: string)
    ensures |r| == |s|
    ensures forall i :: 0 <= i < |s| ==> r[i] == LowerChar(s[i])
  {
    seq(|s|, i requires 0 <= i < |s| => LowerChar(s[i]))
  }

  /** The characters JavaScript's `\s` and `trim` treat as white space. */
  predicate IsSpace(c: char)
  {
    || c == '\t' || c == '\n' || c == '\U{B}' || c == '\U{C}' || c == '\r' || c == ' '
    || c == '\U{A0}' || c == '\U{1680}' || ('\U{2000}' <= c <= '\U{200A}')
    || c == '\U{2028}' || c == '\U{2029}' || c == '\U{202F}' || c == '\U{205F}'
    || c == '\U{3000}' || c == '\U{FEFF}'
  }

  /** The length of the leading run of white space. */
  function SpaceLength(s: string): (n: nat)
    ensures n <= |s|
    ensures forall i :: 0 <= i < n ==> IsSpace(s[i])
    ensures n < |s| ==> !IsSpace(s[n])
    decreases |s|
  {
    if |s| == 0 || !IsSpace(s[0]) then 0 else 1 + SpaceLength(s[1..])
  }

  /** The length of `s` once its trailing white space is cut off. */
  function TrimmedEnd(s: string): (n: nat)
    ensures n <= |s|
    ensures forall i :: n <= i < |s| ==> IsSpace(s[i])
    ensures n > 0 ==> !IsSpace(s[n - 1])
    decreases |s|
  {
    if |s| == 0 || !IsSpace(s[|s| - 1]) then |s| else TrimmedEnd(s[..|s| - 1])
  }

  /**
   `s.trim()`: the slice of `s` between its leading and its trailing white
   space; empty when `s` is white space only.
   */
  function Trim(s: string): (r: string)
    ensures |r| == 0 || (!IsSpace(r[0]) && !IsSpace(r[|r| - 1]))
    ensures |r| == 0 <==> forall i :: 0 <= i < |s| ==> IsSpace(s[i])
    ensures SpaceLength(s) + |r| <= |s| && r == s[SpaceLength(s)..SpaceLength(s) + |r|]
    ensures forall i :: SpaceLength(s) + |r| <= i < |s| ==> IsSpace(s[i])
  {
    var a, b := SpaceLength(s), TrimmedEnd(s);
    if b <= a then ""
    else
      s[a..b]
  }
}

=== FILE: tabs.dfy ===
/**
 The world/characters tab controller of the world pages (the `initTabs` block,
 identical in js/tabs.js and js/anday.js): selecting a tab by id, the tab chosen
 from the fragment at load, and the arrow/Home/End keyboard rule.
 */
module Tabs {

  import opened JsValues
  import opened Strings
  import opened Seqs

  /** One `role="tab"` element after a selection: its id, `aria-selected` and `tabIndex`. */
  datatype TabState = TabState(id: string, selected: bool, tabIndex: int)

  /**
   What `selectTab(nextId)` leaves behind: the tabs, whether each
   `role="tabpanel"` is hidden, and the fragment written by `history.replaceState`.
   */
  datatype Selection = Selection(tabs: seq<TabState>, panelHidden: seq<bool>, hash: string)

  const CharsTab: string := "tab-chars"
  const WorldTab: string := "tab-world"

  /**
   `selectTab(nextId)` over tabs with the given ids and panels with the given
   `aria-labelledby` attributes (`None` when the attribute is absent).
   */
  function SelectTab(tabIds: seq<string>, panelLabels: seq<Option<string>>, nextId: string): (s: Selection)
    ensures |s.tabs| == |tabIds| && |s.panelHidden| == |panelLabels|
    ensures forall i :: 0 <= i < |tabIds| ==>
      && s.tabs[i].id == tabIds[i]
      && (s.tabs[i].selected <==> tabIds[i] == nextId)
      && s.tabs[i].tabIndex == (if tabIds[i] == nextId then 0 else -1)
    ensures forall i :: 0 <= i < |panelLabels| ==> (s.panelHidden[i] <==> panelLabels[i] != Some(nextId))
    ensures s.hash == "#tab=chars" <==> nextId == CharsTab
    ensures s.hash == "#tab=chars" || s.hash == "#tab=world"
  {
    var tabs := seq(|tabIds|, i requires 0 <= i < |tabIds| =>
      var selected := tabIds[i] == nextId;
      TabState(tabIds[i], selected, if selected then 0 else -1));
    var hidden := seq(|panelLabels|, i requires 0 <= i < |panelLabels| => panelLabels[i] != Some(nextId));
    var short := if nextId == CharsTab then "chars" else "world";
    assert "#tab=world"[5] != "#tab=chars"[5];
    Selection(tabs, hidden, "#tab=" + short)
  }

  /** How many tabs are selected. */
  function SelectedCount(tabs: seq<TabState>): nat
    decreases |tabs|
  {
    if |tabs| == 0 then 0 else (if tabs[0].selected then 1 else 0) + SelectedCount(tabs[1..])
  }

  /** How many panels are shown. */
  function ShownCount(hidden: seq<bool>): nat
    decreases |hidden|
  {
    if |hidden| == 0 then 0 else (if hidden[0] then 0 else 1) + ShownCount(hidden[1..])
  }

  lemma {:induction false} OneSelected(tabs: seq<TabState>, x: string, k: int)
    requires forall i, j :: 0 <= i < j < |tabs| ==> tabs[i].id != tabs[j].id
    requires forall i :: 0 <= i < |tabs| ==> (tabs[i].selected <==> tabs[i].id == x)
    requires 0 <= k < |tabs| && tabs[k].id == x
    ensures SelectedCount(tabs) == 1
    decreases |tabs|
  {
    if k == 0 {
      NoneSelected(tabs[1..], x);
    } else {
      assert tabs[0].id != tabs[k].id;
      OneSelected(tabs[1..], x, k - 1);
    }
  }

  lemma {:induction false} NoneSelected(tabs: seq<TabState>, x: string)
    requires forall i :: 0 <= i < |tabs| ==> (tabs[i].selected <==> tabs[i].id == x)
    requires forall i :: 0 <= i < |tabs| ==> tabs[i].id != x
    ensures SelectedCount(tabs) == 0
    decreases |tabs|
  {
    if |tabs| > 0 {
      NoneSelected(tabs[1..], x);
    }
  }

  /** At most one panel is labelled by tab `x`; panels without a label may repeat. */
  predicate LabelledAtMostOnce(labels: seq<Option<string>>, x: string)
  {
    forall i, j :: 0 <= i < j < |labels| && labels[i] == Some(x) ==> labels[j] != Some(x)
  }

  lemma {:induction false} OneShown(hidden: seq<bool>, labels: seq<Option<string>>, x: string, k: int)
    requires |hidden| == |labels| && LabelledAtMostOnce(labels, x)
    requires forall i :: 0 <= i < |labels| ==> (hidden[i] <==> labels[i] != Some(x))
    requires 0 <= k < |labels| && labels[k] == Some(x)
    ensures ShownCount(hidden) == 1
    decreases |labels|
  {
    if k == 0 {
      forall i | 0 <= i < |labels| - 1 ensures labels[1..][i] != Some(x) {
        assert labels[i + 1] != Some(x);
      }
      NoneShown(hidden[1..], labels[1..], x);
    } else {
      assert labels[0] != Some(x);
      OneShown(hidden[1..], labels[1..], x, k - 1);
    }
  }

  lemma {:induction false} NoneShown(hidden: seq<bool>, labels: seq<Option<string>>, x: string)
    requires |hidden| == |labels|
    requires forall i :: 0 <= i < |labels| ==> (hidden[i] <==> labels[i] != Some(x))
    requires forall i :: 0 <= i < |labels| ==> labels[i] != Some(x)
    ensures ShownCount(hidden) == 0
    decreases |labels|
  {
    if |labels| > 0 {
      NoneShown(hidden[1..], labels[1..], x);
    }
  }

  /**
   With distinct tab ids, selecting an id that a tab carries and exactly one
   panel is labelled by leaves exactly one tab selected and exactly one panel
   shown. Other panels may share labels, or lack one.
   */
  lemma ExactlyOneSelected(tabIds: seq<string>, panelLabels: seq<Option<string>>, nextId: string)
    requires NoDup(tabIds) && nextId in tabIds
    requires LabelledAtMostOnce(panelLabels, nextId) && Some(nextId) in panelLabels
    ensures SelectedCount(SelectTab(tabIds, panelLabels, nextId).tabs) == 1
    ensures ShownCount(SelectTab(tabIds, panelLabels, nextId).panelHidden) == 1
  {
    var s := SelectTab(tabIds, panelLabels, nextId);
    var k :| 0 <= k < |tabIds| && tabIds[k] == nextId;
    OneSelected(s.tabs, nextId, k);
    var m :| 0 <= m < |panelLabels| && panelLabels[m] == Some(nextId);
    OneShown(s.panelHidden, panelLabels, nextId, m);
  }

  /** The tab selected at load: `tab-chars` when the fragment mentions `tab=chars`, else `tab-world`. */
  function InitialTab(hash: string): (id: string)
    ensures id == CharsTab || id == WorldTab
  {
    if Contains(hash, "tab=chars") then CharsTab else WorldTab
  }

  /** The initial tab is the characters tab exactly when `tab=chars` occurs somewhere in the fragment. */
  lemma InitialTabSpec(hash: string)
    ensures InitialTab(hash) == CharsTab <==> exists i :: OccursAt(hash, "tab=chars", i)
    ensures SelectTab([], [], InitialTab(hash)).hash == "#tab=chars" <==> exists i :: OccursAt(hash, "tab=chars", i)
  {
    ContainsIff(hash, "tab=chars");
  }

  /** `a % n` with JavaScript's sign rule: the remainder takes the sign of `a`. */
  function JsRem(a: int, n: int): (r: int)
    requires n > 0
    ensures -n < r < n
    ensures a >= 0 ==> r == a % n
  {
    if a >= 0 then a % n else -((-a) % n)
  }

  /** What a keydown does: nothing, a move to tab `next`, or a `TypeError` on a missing tab. */
  datatype KeyResult = Ignored | Move(next: int) | Crash

  /** The keys the tab list reacts to. */
  predicate IsNavKey(key: string)
  {
    key == "ArrowRight" || key == "ArrowLeft" || key == "Home" || key == "End"
  }

  /**
   The keyboard rule for `n` tabs when tab `current` is the selected one
   (`-1` when `findIndex` finds none). With no tabs at all every index names
   a missing element, whose `focus()` throws.
   */
  function NextIndex(key: string, current: int, n: nat): (r: KeyResult)
    requires -1 <= current < n
    ensures !IsNavKey(key) <==> r == Ignored
    ensures n == 0 && IsNavKey(key) ==> r == Crash
    ensures n > 0 && IsNavKey(key) ==> r.Move? && 0 <= r.next < n
    ensures n > 0 && key == "Home" ==> r == Move(0)
    ensures n > 0 && key == "End" ==> r == Move(n - 1)
    ensures n > 0 && key == "ArrowRight" ==> r == Move(if current + 1 < n then current + 1 else 0)
    // With no tab selected (`current == -1`) ArrowLeft lands on the second-to-last tab.
    ensures n > 0 && key == "ArrowLeft" ==>
      r == Move(if current >= 1 then current - 1 else if current == 0 then n - 1 else if n >= 2 then n - 2 else 0)
  {
    if !IsNavKey(key) then Ignored
    else if n == 0 then Crash
    else
      ArrowRem(current, n);
      if key == "ArrowRight" then Move(JsRem(current + 1, n))
      else if key == "ArrowLeft" then Move(JsRem(current - 1 + n, n))
      else if key == "Home" then Move(0)
      else Move(n - 1)
  }

  /** The two remainders the arrow keys compute, for every `current` `findIndex` can give. */
  lemma ArrowRem(current: int, n: nat)
    requires 0 < n && -1 <= current < n
    ensures JsRem(current + 1, n) == if current + 1 < n then current + 1 else 0
    ensures JsRem(current - 1 + n, n) ==
      if current >= 1 then current - 1 else if current == 0 then n - 1 else if n >= 2 then n - 2 else 0
  {
    RemSmall(current + 1, n);
    if current >= 0 {
      RemSmall(current - 1 + n, n);
    } else if n >= 2 {
      RemSmall(n - 2, n);
    } else {
      assert JsRem(-1, 1) == -(1 % 1);
    }
  }

  lemma RemSmall(a: int, n: int)
    requires n > 0 && 0 <= a < 2 * n
    ensures JsRem(a, n) == if a < n then a else a - n
  {
  }

  /** ArrowRight then ArrowLeft, or ArrowLeft then ArrowRight, comes back to the same tab. */
  lemma ArrowsInverse(current: int, n: nat)
    requires 0 <= current < n
    ensures NextIndex("ArrowRight", current, n).Move?
    ensures NextIndex("ArrowLeft", NextIndex("ArrowRight", current, n).next, n) == Move(current)
    ensures NextIndex("ArrowLeft", current, n).Move?
    ensures NextIndex("ArrowRight", NextIndex("ArrowLeft", current, n).next, n) == Move(current)
  {
    var r := JsRem(current + 1, n);
    RemSmall(current + 1, n);
    RemSmall(r - 1 + n, n);
    assert NextIndex("ArrowRight", current, n) == Move(r);
    assert NextIndex("ArrowLeft", r, n) == Move(JsRem(r - 1 + n, n));
    var l := JsRem(current - 1 + n, n);
    RemSmall(current - 1 + n, n);
    RemSmall(l + 1, n);
    assert NextIndex("ArrowLeft", current, n) == Move(l);
    assert NextIndex("ArrowRight", l, n) == Move(JsRem(l + 1, n));
  }

  /** `order.findIndex(t => t.getAttribute('aria-selected') === 'true')` */
  function FindSelected(tabs: seq<TabState>): (i: int)
    ensures -1 <= i < |tabs|
    ensures i >= 0 ==> tabs[i].selected && forall k :: 0 <= k < i ==> !tabs[k].selected
    ensures i == -1 ==> forall k :: 0 <= k < |tabs| ==> !tabs[k].selected
    decreases |tabs|
  {
    if |tabs| == 0 then -1
    else if tabs[0].selected then 0
    else
      var i := FindSelected(tabs[1..]);
      if i == -1 then -1 else i + 1
  }

  /**
   The keydown handler on the tab list: from the current selection, find the
   target index and select that tab. `None` when the key is ignored or the
   handler throws.
   */
  function KeyDown(key: string, tabs: seq<TabState>, panelLabels: seq<Option<string>>): (r: Option<Selection>)
    ensures !IsNavKey(key) ==> r == None
    ensures |tabs| == 0 ==> r == None
  {
    match NextIndex(key, FindSelected(tabs), |tabs|)
    case Move(next) =>
      var ids := TabIds(tabs);
      Some(SelectTab(ids, panelLabels, ids[next]))
    case _ => None
  }

  /** The ids of the tabs, in order. */
  function TabIds(tabs: seq<TabState>): (ids: seq<string>)
    ensures |ids| == |tabs|
    ensures forall i :: 0 <= i < |tabs| ==> ids[i] == tabs[i].id
  {
    seq(|tabs|, i requires 0 <= i < |tabs| => tabs[i].id)
  }

  /**
   With distinct tab ids, a recognised key moves the selection to exactly the
   tab `NextIndex` names: the next keydown sees that tab as the current one.
   */
  lemma KeyDownMovesSelection(key: string, tabs: seq<TabState>, panelLabels: seq<Option<string>>)
    requires |tabs| > 0 && IsNavKey(key)
    requires forall i, j :: 0 <= i < j < |tabs| ==> tabs[i].id != tabs[j].id
    ensures KeyDown(key, tabs, panelLabels).Some?
    ensures FindSelected(KeyDown(key, tabs, panelLabels).value.tabs) == NextIndex(key, FindSelected(tabs), |tabs|).next
    ensures SelectedCount(KeyDown(key, tabs, panelLabels).value.tabs) == 1
  {
    var next := NextIndex(key, FindSelected(tabs), |tabs|).next;
    assert KeyDown(key, tabs, panelLabels) == Some(SelectTab(TabIds(tabs), panelLabels, TabIds(tabs)[next]));
    MoveTo(tabs, panelLabels, next);
  }

  /** With distinct tab ids, selecting the id at `next` leaves that tab, and only it, selected. */
  lemma MoveTo(tabs: seq<TabState>, panelLabels: seq<Option<string>>, next: nat)
    requires next < |tabs|
    requires forall i, j :: 0 <= i < j < |tabs| ==> tabs[i].id != tabs[j].id
    ensures var s := SelectTab(TabIds(tabs), panelLabels, TabIds(tabs)[next]);
      FindSelected(s.tabs) == next && SelectedCount(s.tabs) == 1
  {
    var ids := TabIds(tabs);
    var s := SelectTab(ids, panelLabels, ids[next]);
    SelectedOnlyAt(s.tabs, ids, next);
    OneSelected(s.tabs, ids[next], next);
  }

  /** With distinct ids, selecting the id at `next` selects that position and no other. */
  lemma SelectedOnlyAt(ts: seq<TabState>, ids: seq<string>, next: nat)
    requires |ts| == |ids| && next < |ids|
    requires forall i, j :: 0 <= i < j < |ids| ==> ids[i] != ids[j]
    requires forall i :: 0 <= i < |ids| ==> ts[i].id == ids[i] && (ts[i].selected <==> ids[i] == ids[next])
    ensures FindSelected(ts) == next
  {
    assert forall k :: 0 <= k < |ts| ==> (ts[k].selected <==> k == next);
  }
}

=== FILE: uri_component.dfy ===
/**
 `encodeURIComponent` and `decodeURIComponent` as the ECMAScript standard
 defines them (section 19.2.6 of ECMA-262): a character outside the unreserved
 set is written as the `%XX` escapes of its UTF-8 bytes, and decoding accepts
 exactly well-formed UTF-8 escape runs. Decoding malformed input is a `URIError`
 in JavaScript and `None` here.
 */
module UriComponent {

  import opened JsValues
  import Seqs

  type Byte = b: int | 0 <= b < 256

  /** The characters `encodeURIComponent` copies unchanged. */
  predicate Unreserved(c: char)
  {
    || ('A' <= c <= 'Z') || ('a' <= c <= 'z') || ('0' <= c <= '9')
    || c == '-' || c == '_' || c == '.' || c == '!' || c == '~' || c == '*'
    || c == '\'' || c == '(' || c == ')'
  }

  /** A Unicode scalar value, i.e. a code point Dafny's `char` can hold. */
  predicate IsScalar(n: int)
  {
    (0 <= n < 0xD800) || (0xE000 <= n < 0x11_0000)
  }

  /** The UTF-8 encoding of one character. */
  function Utf8(c: char): (bs: seq<Byte>)
    ensures 1 <= |bs| <= 4
  {
    var n := c as int;
    if n < 0x80 then [n]
    else if n < 0x800 then [0xC0 + n / 64, 0x80 + n % 64]
    else if n < 0x1_0000 then [0xE0 + n / 4096, 0x80 + (n / 64) % 64, 0x80 + n % 64]
    else [0xF0 + n / 262144, 0x80 + (n / 4096) % 64, 0x80 + (n / 64) % 64, 0x80 + n % 64]
  }

  /** The number of bytes a UTF-8 sequence with this lead byte has; 0 when it cannot lead. */
  function SeqLength(b0: Byte): nat
  {
    if b0 < 0x80 then 1
    else if 0xC0 <= b0 < 0xE0 then 2
    else if 0xE0 <= b0 < 0xF0 then 3
    else if 0xF0 <= b0 < 0xF8 then 4
    else 0
  }

  /** The code point a byte run of the length its lead byte announces spells. */
  function CodePoint(bs: seq<Byte>): int
    requires 1 <= |bs| <= 4
  {
    var b0: int := bs[0];
    if |bs| == 1 then b0
    else
      var b1: int := bs[1];
      if |bs| == 2 then (b0 - 0xC0) * 64 + (b1 - 0x80)
      else
        var b2: int := bs[2];
        if |bs| == 3 then (b0 - 0xE0) * 4096 + (b1 - 0x80) * 64 + (b2 - 0x80)
        else
          var b3: int := bs[3];
          (b0 - 0xF0) * 262144 + (b1 - 0x80) * 4096 + (b2 - 0x80) * 64 + (b3 - 0x80)
  }

  /** Two-byte sequences: the lead byte is `110xxxxx` and the bytes give `n` back. */
  lemma TwoBytes(n: int)
    requires 0x80 <= n < 0x800
    ensures 0xC0 <= 0xC0 + n / 64 < 0xE0
    ensures (n / 64) * 64 + n % 64 == n
  {
  }

  /** Three-byte sequences. */
  lemma ThreeBytes(n: int)
    requires 0x800 <= n < 0x1_0000
    ensures 0xE0 <= 0xE0 + n / 4096 < 0xF0
    ensures (n / 4096) * 4096 + ((n / 64) % 64) * 64 + n % 64 == n
  {
    assert n / 64 == (n / 4096) * 64 + (n / 64) % 64;
    assert n == (n / 64) * 64 + n % 64;
  }

  /** Four-byte sequences. */
  lemma FourBytes(n: int)
    requires 0x1_0000 <= n < 0x11_0000
    ensures 0xF0 <= 0xF0 + n / 262144 < 0xF8
    ensures (n / 262144) * 262144 + ((n / 4096) % 64) * 4096 + ((n / 64) % 64) * 64 + n % 64 == n
  {
    assert n / 4096 == (n / 262144) * 64 + (n / 4096) % 64;
    assert n / 64 == (n / 4096) * 64 + (n / 64) % 64;
    assert n == (n / 64) * 64 + n % 64;
  }

  lemma Utf8Decodes(c: char)
    ensures SeqLength(Utf8(c)[0]) == |Utf8(c)|
    ensures CodePoint(Utf8(c)) == c as int
  {
    var n := c as int;
    if n < 0x80 {
    } else if n < 0x800 {
      TwoBytes(n);
    } else if n < 0x1_0000 {
      ThreeBytes(n);
    } else {
      FourBytes(n);
    }
  }

  function HexDigit(d: int): char
    requires 0 <= d < 16
  {
    "0123456789ABCDEF"[d]
  }

  /** A digit is unreserved and reads back as its value. */
  lemma HexDigitReads(d: int)
    requires 0 <= d < 16
    ensures Unreserved(HexDigit(d)) && HexValue(HexDigit(d)) == Some(d)
  {
  }

  /** The value of a hexadecimal digit of either case. */
  function HexValue(c: char): Option<int>
  {
    if '0' <= c <= '9' then Some(c as int - '0' as int)
    else if 'A' <= c <= 'F' then Some(c as int - 'A' as int + 10)
    else if 'a' <= c <= 'f' then Some(c as int - 'a' as int + 10)
    else None
  }

  /** `%XX` for one byte, upper-case as `encodeURIComponent` writes it. */
  function Escape(b: Byte): (r: string)
    ensures |r| == 3
  {
    ['%', HexDigit(b / 16), HexDigit(b % 16)]
  }

  /** An escape is the mark and two unreserved digits. */
  lemma EscapeText(b: Byte)
    ensures EncodedText(Escape(b))
  {
    HexDigitReads(b / 16);
    HexDigitReads(b % 16);
  }

  function EscapeAll(bs: seq<Byte>): (r: string)
    ensures |r| == 3 * |bs|
    decreases |bs|
  {
    if |bs| == 0 then "" else Escape(bs[0]) + EscapeAll(bs[1..])
  }

  /** Every character an encoder writes is unreserved or the escape mark. */
  predicate EncodedText(s: string)
  {
    forall i :: 0 <= i < |s| ==> Unreserved(s[i]) || s[i] == '%'
  }

  lemma {:induction false} EscapeAllText(bs: seq<Byte>)
    ensures EncodedText(EscapeAll(bs))
    decreases |bs|
  {
    if |bs| > 0 {
      EscapeAllText(bs[1..]);
      var e := Escape(bs[0]);
      EscapeText(bs[0]);
      assert EscapeAll(bs) == e + EscapeAll(bs[1..]);
    }
  }

  function EncodeChar(c: char): (r: string)
    ensures EncodedText(r)
    ensures |r| > 0
  {
    if Unreserved(c) then [c]
    else
      EscapeAllText(Utf8(c));
      EscapeAll(Utf8(c))
  }

  /** `encodeURIComponent(s)` */
  function Encode(s: string): (r: string)
    ensures EncodedText(r)
    decreases |s|
  {
    if |s| == 0 then "" else EncodeChar(s[0]) + Encode(s[1..])
  }

  /** The byte an escape at position `i` spells, if a well-formed one is there. */
  function ReadByte(s: string, i: nat): Option<Byte>
  {
    if i + 3 <= |s| && s[i] == '%' && HexValue(s[i + 1]).Some? && HexValue(s[i + 2]).Some? then
      Some(16 * HexValue(s[i + 1]).value + HexValue(s[i + 2]).value)
    else None
  }

  /** The bytes of `n` consecutive escapes starting at position `i`. */
  function ReadBytes(s: string, i: nat, n: nat): (r: Option<seq<Byte>>)
    ensures r.Some? ==> |r.value| == n
    decreases n
  {
    if n == 0 then Some([])
    else match ReadByte(s, i)
      case None => None
      case Some(b) =>
        match ReadBytes(s, i + 3, n - 1)
        case None => None
        case Some(bs) => Some([b] + bs)
  }

  function Prepend(x: string, r: Option<string>): Option<string>
  {
    match r
    case Some(v) => Some(x + v)
    case None => None
  }

  /**
   The character a run of escapes at the start of `s` spells and the number of
   characters the run takes; `None` unless the run is well-formed UTF-8.
   */
  function DecodeEscape(s: string): Option<(char, nat)>
  {
    match ReadByte(s, 0)
    case None => None
    case Some(b0) =>
      var n := SeqLength(b0);
      if n == 0 then None
      else match ReadBytes(s, 0, n)
        case None => None
        case Some(bs) =>
          var cp := CodePoint(bs);
          if IsScalar(cp) && Utf8(cp as char) == bs then Some((cp as char, 3 * n))
          else None
  }

  /** `decodeURIComponent(s)`; `None` where JavaScript throws `URIError`. Decoding never lengthens the text. */
  function Decode(s: string): (r: Option<string>)
    ensures r.Some? ==> |r.value| <= |s|
    decreases |s|
  {
    if |s| == 0 then Some("")
    else if s[0] != '%' then Prepend([s[0]], Decode(s[1..]))
    else match DecodeEscape(s)
      case None => None
      case Some((c, k)) =>
        if 0 < k <= |s| then Prepend([c], Decode(s[k..])) else None
  }

  lemma EscapeReads(b: Byte, rest: string)
    ensures ReadByte(Escape(b) + rest, 0) == Some(b)
  {
    var s := Escape(b) + rest;
    assert s[0] == '%' && s[1] == HexDigit(b / 16) && s[2] == HexDigit(b % 16);
    HexDigitReads(b / 16);
    HexDigitReads(b % 16);
  }

  lemma {:induction false} EscapeAllReads(bs: seq<Byte>, rest: string)
    ensures ReadBytes(EscapeAll(bs) + rest, 0, |bs|) == Some(bs)
    decreases |bs|
  {
    if |bs| > 0 {
      var s := EscapeAll(bs) + rest;
      var more := bs[1..];
      var n := |more|;
      var tail := EscapeAll(more) + rest;
      assert EscapeAll(bs) == Escape(bs[0]) + EscapeAll(more);
      Seqs.AppendAssoc(Escape(bs[0]), EscapeAll(more), rest);
      assert s == Escape(bs[0]) + tail;
      EscapeReads(bs[0], tail);
      EscapeAllReads(more, rest);
      ReadBytesShift(Escape(bs[0]), tail, n);
      ReadBytesCons(s, bs[0], more);
      assert [bs[0]] + more == bs;
    }
  }

  /** A run of escapes is its first byte followed by the rest of the run. */
  lemma ReadBytesCons(s: string, b: Byte, more: seq<Byte>)
    requires ReadByte(s, 0) == Some(b) && ReadBytes(s, 3, |more|) == Some(more)
    ensures ReadBytes(s, 0, |more| + 1) == Some([b] + more)
  {
  }

  /** Reading escapes past a three-character prefix. */
  lemma {:induction false} ReadBytesShift(e: string, t: string, n: nat)
    requires |e| == 3
    ensures ReadBytes(e + t, 3, n) == ReadBytes(t, 0, n)
  {
    ReadBytesShiftAt(e, t, 0, n);
  }

  lemma {:induction false} ReadBytesShiftAt(e: string, t: string, i: nat, n: nat)
    requires |e| == 3
    ensures ReadBytes(e + t, i + 3, n) == ReadBytes(t, i, n)
    decreases n
  {
    if n > 0 {
      var s := e + t;
      if i + 3 <= |t| {
        assert s[i + 3] == t[i] && s[i + 4] == t[i + 1] && s[i + 5] == t[i + 2];
      }
      assert ReadByte(s, i + 3) == ReadByte(t, i);
      ReadBytesShiftAt(e, t, i + 3, n - 1);
    }
  }

  /** A run that reads as the bytes of a character's encoding decodes to that character. */
  lemma DecodeEscapeOf(s: string, bs: seq<Byte>, c: char)
    requires 1 <= |bs| <= 4 && Utf8(c) == bs
    requires ReadByte(s, 0) == Some(bs[0]) && SeqLength(bs[0]) == |bs|
    requires ReadBytes(s, 0, |bs|) == Some(bs)
    requires CodePoint(bs) == c as int
    ensures DecodeEscape(s) == Some((c, 3 * |bs|))
  {
    assert IsScalar(CodePoint(bs));
    assert (CodePoint(bs) as char) == c;
  }

  lemma DecodeEscapeUtf8(c: char, rest: string)
    ensures DecodeEscape(EscapeAll(Utf8(c)) + rest) == Some((c, 3 * |Utf8(c)|))
  {
    var bs := Utf8(c);
    var s := EscapeAll(bs) + rest;
    Utf8Decodes(c);
    EscapeAllReads(bs, rest);
    assert EscapeAll(bs) == Escape(bs[0]) + EscapeAll(bs[1..]);
    Seqs.AppendAssoc(Escape(bs[0]), EscapeAll(bs[1..]), rest);
    EscapeReads(bs[0], EscapeAll(bs[1..]) + rest);
    DecodeEscapeOf(s, bs, c);
  }

  /** Decoding an encoded character gives the character back and goes on with the rest. */
  lemma DecodeEncodeChar(c: char, rest: string)
    ensures Decode(EncodeChar(c) + rest) == Prepend([c], Decode(rest))
  {
    var s := EncodeChar(c) + rest;
    if Unreserved(c) {
      assert s[1..] == rest;
    } else {
      var bs := Utf8(c);
      assert EncodeChar(c) == EscapeAll(bs);
      DecodeEscapeUtf8(c, rest);
      assert s[0] == '%';
      assert s[3 * |bs|..] == rest;
    }
  }

  /** `decodeURIComponent(encodeURIComponent(s)) === s` */
  lemma {:induction false} DecodeEncode(s: string)
    ensures Decode(Encode(s)) == Some(s)
    decreases |s|
  {
    if |s| > 0 {
      DecodeEncode(s[1..]);
      DecodeEncodeChar(s[0], Encode(s[1..]));
      assert s == [s[0]] + s[1..];
    }
  }

  /** Text with no escape mark decodes to itself. */
  lemma {:induction false} DecodePlain(s: string)
    requires forall i :: 0 <= i < |s| ==> s[i] != '%'
    ensures Decode(s) == Some(s)
    decreases |s|
  {
    if |s| > 0 {
      DecodePlain(s[1..]);
      assert s == [s[0]] + s[1..];
    }
  }

  /** Only a `%` can make decoding throw. */
  lemma {:induction false} DecodeFailsOnEscape(s: string)
    requires Decode(s).None?
    ensures exists i :: 0 <= i < |s| && s[i] == '%'
    decreases |s|
  {
    if s[0] != '%' {
      DecodeFailsOnEscape(s[1..]);
      var i :| 0 <= i < |s[1..]| && s[1..][i] == '%';
      assert s[i + 1] == '%';
    }
  }

  /** Encoded text never holds the fragment and query delimiters `&`, `?`, `=`, `#`. */
  lemma EncodeFreeOfDelimiters(s: string)
    ensures forall i :: 0 <= i < |Encode(s)| ==>
      Encode(s)[i] != '&' && Encode(s)[i] != '?' && Encode(s)[i] != '=' && Encode(s)[i] != '#'
  {
    var e := Encode(s);
    forall i | 0 <= i < |e| ensures e[i] != '&' && e[i] != '?' && e[i] != '=' && e[i] != '#' {
      assert Unreserved(e[i]) || e[i] == '%';
    }
  }
}
